=== FILE: README.md ===
# s3-panel in Dafny

s3-panel is a web console for an S3-compatible object store and its identity
service. This project models the console's logic and proves properties of
it. At its centre is the **role-assumption broker**, which has two halves:

- **The administrator's half** copies roles and users from the identity
  service into a local catalogue. Each catalogued role carries a flag per
  eligible user ("yes" grants one assumption) plus an assumption history.
  An administrator sets the flags.
- **The request half** matches the caller against each role's trust policy.
  It refuses a request while the caller's latest session is still active or
  while no approval is stored. Otherwise it issues credentials, records the
  session and spends the approval.

Around it sit smaller parts of the console:

- the two-active-keys cap on access keys;
- the classification of the logged-in caller;
- bucket creation and the bucket summaries cached in the session;
- the bucket routes (tags, versioning, deletion, lifecycle, object lock);
- the object routes (upload key building, the folder check, the one-level
  listing, downloads, deletes, folder links);
- the dashboard's paginated totals and its top-five table.

Each source file is one module. Where the source changes state step by
step, the model changes state too:

- The broker's two tables are a `Database` object.
- The identity service's users, keys and policies are an `IamAccount`.
- The object store's buckets are an `S3Account`.
- The session's cached bucket summaries are a `SessionCache`.

Operations that loop are methods proved against specification functions.
Lemmas prove what the source promises about those functions: the sync
catalogue's exact role set, that a resync changes nothing, that an approval
is single-use, the top five being the five largest, and round trips between
upload keys, download names and listings.

Calls into the remote services are parameters:

- the clock (integer seconds);
- the identity service's directory listing, including whether its role listing is readable;
- the credentials the token service issues;
- the error code of the key-creation call;
- the pre-check, error and status codes of bucket creation;
- the store's listing pages.

| module | file | models |
|---|---|---|
| `Common` | common.dfy | Python's `in` on strings, `lower`, `strip`, `rstrip`, `split(...)[-1]`, `join`, `list.remove`, `int()` |
| `RolesDb` | roles_db.dfy | the `roles` and `users` tables (routes/manage_sts_permission.py) |
| `StsPermission` | sts_permission.dfy | routes/manage_sts_permission.py |
| `AssumeRoles` | assume_roles.dfy | routes/assume_roles.py |
| `Broker` | broker.dfy | properties of both halves of the broker together |
| `Iam` | iam.dfy | the identity part of helpers/aws.py |
| `UserRoutes` | user_routes.dfy | routes/user_routes.py |
| `S3` | s3.dfy | the object-store part of helpers/aws.py |
| `BucketRoutes` | bucket_routes.dfy | routes/bucket_routes.py |
| `ObjectRoutes` | objects.dfy | routes/objects.py |
| `Dashboard` | dashboard.dfy | helpers/dashboard.py |

## Model

| member | source | states |
|---|---|---|
| Common.Contains | routes/assume_roles.py:45-48 | the executable substring test is true exactly when the needle occurs at some position of the haystack |
| Common.Lower | routes/manage_sts_permission.py:239 | lower-casing keeps the length and folds each character on its own (ASCII letters only) |
| Common.TrimLeft | routes/objects.py:58 | stripping from the left leaves a result no longer than the input that does not start with a stripped character, and only stripped characters were removed |
| Common.TrimLeftSuffix | routes/objects.py:58 | what stripping from the left leaves is a suffix of the input |
| Common.TrimRight | routes/objects.py:58 | stripping from the right leaves a prefix that does not end with a stripped character, and only stripped characters were removed |
| Common.StripChar | routes/objects.py:58 | `strip("/")` leaves a string that neither starts nor ends with "/" |
| Common.RStripChar | routes/objects.py:71 | `rstrip("/")` leaves a string that does not end with "/" |
| Common.LastSegment | routes/objects.py:131 | the last segment after `split(sep)[-1]` contains no separator |
| Common.LastSegmentSuffix | routes/objects.py:131 | the last segment is a suffix of the string, and when it is not the whole string a separator precedes it |
| Common.RemoveFirst | routes/manage_sts_permission.py:240-241 | `remove` guarded by `in` drops exactly one occurrence (multiset minus one), and is a no-op when the element is absent |
| Common.RemoveFirstAt | routes/manage_sts_permission.py:240-241 | the occurrence `remove` drops is the first: some position holds the element, none before it does, and the result is the list with that position cut out |
| RolesDb.ArnSetAppend | routes/manage_sts_permission.py:79 | the stored role-ARN set of a concatenation is the union of the two sets |
| RolesDb.IndexOf | routes/manage_sts_permission.py:227-230 | the lookup by `role_arn` finds the first row with that ARN, and finds nothing exactly when no row has it |
| RolesDb.FindRole | routes/assume_roles.py:79-84 | a role is found exactly when its ARN is stored, and the row found carries that ARN |
| RolesDb.FindRoleUnique | routes/manage_sts_permission.py:21 | with role ARNs UNIQUE, looking up a row's ARN returns that row |
| RolesDb.FindAfterReplace | routes/manage_sts_permission.py:244-253 | after a row is updated in place, the lookup by its ARN returns the new row |
| RolesDb.OfUser | routes/assume_roles.py:90 | the user's history holds only entries of the table's history that belong to that user |
| RolesDb.OfUserAppend | routes/assume_roles.py:90 | filtering the history by user distributes over concatenation, so list order is kept |
| StsPermission.ExtractUserList | routes/manage_sts_permission.py:91-99 | the extraction loop yields the list concatenated from list principals and string principals, without entries ending in ":root" (ignoring case) |
| StsPermission.NonRootMembers | routes/manage_sts_permission.py:99 | an ARN survives the root filter exactly when it was listed and does not end in ":root" |
| StsPermission.ExtractedMembers | routes/manage_sts_permission.py:92-97 | an ARN is extracted exactly when some statement contributes it; other principal shapes contribute nothing |
| StsPermission.EligibleMembers | routes/manage_sts_permission.py:91-99 | an ARN is eligible exactly when some statement names it and it is not a root ARN |
| StsPermission.MergePermission | routes/manage_sts_permission.py:117-118 | the merged flag map has exactly the eligible users as keys |
| StsPermission.MergeKeepsOrDefaults | routes/manage_sts_permission.py:117-118 | a user already flagged keeps the stored value, and a new user gets "no" |
| StsPermission.MergeIdempotent | routes/manage_sts_permission.py:117-118 | merging again with the same eligible users leaves the flag map unchanged |
| StsPermission.UpsertUsers | routes/manage_sts_permission.py:65-71 | the users table afterwards holds the previous ARNs plus every listed user's ARN, one row per ARN |
| StsPermission.UpsertArns | routes/manage_sts_permission.py:120-139 | upserting a role adds its ARN to the stored set and keeps role ARNs unique |
| StsPermission.SyncedRolesArns | routes/manage_sts_permission.py:82-139 | after the upsert loop the stored ARNs are the previous ones plus every role with eligible users, still unique |
| StsPermission.DropMembers | routes/manage_sts_permission.py:142-144 | deleting the vanished roles removes exactly their ARNs and keeps the remaining rows unchanged |
| StsPermission.SyncArnsExact | routes/manage_sts_permission.py:79-144 | after a sync the stored role-ARN set is exactly the listed roles that have eligible users |
| StsPermission.DropNothing | routes/manage_sts_permission.py:142-144 | deleting ARNs that are not stored changes nothing |
| StsPermission.DropFind | routes/manage_sts_permission.py:142-144 | deleting other roles does not change the row found for a kept ARN |
| StsPermission.FindAppend | routes/manage_sts_permission.py:120-122 | inserting a new row at the end changes only the lookup of its own ARN |
| StsPermission.UpsertFind | routes/manage_sts_permission.py:105-138 | an upsert changes only the row of its role, which becomes the refreshed row |
| StsPermission.SyncedRolesUntouched | routes/manage_sts_permission.py:82-139 | a role that is not listed keeps its row through the upsert loop |
| StsPermission.SyncedRolesRow | routes/manage_sts_permission.py:105-138 | a listed role with eligible users ends the upsert loop with its refreshed row |
| StsPermission.SyncRowContents | routes/manage_sts_permission.py:105-138 | a synced row has the listed name, date, duration and trust policy and the merged flags, and keeps the previous assumed users and history (empty for a new role) |
| StsPermission.SyncedFlagsAreEligible | routes/manage_sts_permission.py:117-118 | a synced role's flags are keyed by exactly its eligible users |
| StsPermission.ResyncPrefixFixed | routes/manage_sts_permission.py:105-138 | re-running the upsert loop over the same listing changes nothing |
| StsPermission.SyncIdempotent | routes/manage_sts_permission.py:53-147 | a second sync against an unchanged identity service leaves the catalogue unchanged |
| StsPermission.ListRolesAndUsers | routes/manage_sts_permission.py:53-147 | `list_roles_and_users` leaves the catalogue equal to the synced catalogue; a failed role listing, or a role loop that raises on an unreadable trust document, leaves the roles alone after the users were written |
| StsPermission.WriteUsers | routes/manage_sts_permission.py:65-71 | the users loop writes exactly the upserted users table and no role |
| StsPermission.WriteRoles | routes/manage_sts_permission.py:82-139 | the roles loop writes exactly the upserted roles and returns the set of fetched ARNs |
| StsPermission.SyncSnoc | routes/manage_sts_permission.py:82-139 | one more listed role is one more upsert step and one more fetched ARN |
| StsPermission.SyncRole | routes/manage_sts_permission.py:83-139 | one pass of the roles loop upserts the role exactly when it has an eligible user, leaving the users table and the ARN uniqueness intact |
| StsPermission.DeleteRoles | routes/manage_sts_permission.py:142-144 | the delete loop leaves exactly the rows whose ARNs are not deleted |
| StsPermission.DropTwice | routes/manage_sts_permission.py:143-144 | deleting one ARN at a time equals deleting the whole set at once |
| StsPermission.SyncBeforeRequest | routes/manage_sts_permission.py:186-196 | the sync runs only for a non-empty caller ARN ending in ":root" (ignoring case), and failures leave the state as the partial sync left it |
| StsPermission.AdminEntry | routes/manage_sts_permission.py:163-173 | a role is listed only when some flagged user is a known user, with exactly those users and their flags |
| StsPermission.GetRolesAndUsers | routes/manage_sts_permission.py:151-175 | the admin loop returns the admin view of the table |
| StsPermission.AdminViewMembers | routes/manage_sts_permission.py:158-173 | an entry is in the admin view exactly when some row produces it |
| StsPermission.WithoutUser | routes/manage_sts_permission.py:242 | the filtered history holds exactly the entries of other users |
| StsPermission.WithoutUserKeepsOthers | routes/manage_sts_permission.py:242 | removing one user's entries keeps every other user's entries in order |
| StsPermission.UpdatePermission | routes/manage_sts_permission.py:219-257 | an unknown role is a 404 that writes nothing; a missing or non-string value is a 500 that writes nothing; otherwise the role's row becomes the approved row (flag verbatim, and on a case-insensitive "yes" the first assumed-list occurrence and all of the user's history are removed) |
| AssumeRoles.AnyContains | routes/assume_roles.py:44-46 | a list principal matches exactly when some element contains the caller's ARN |
| AssumeRoles.AnyStatementNames | routes/assume_roles.py:42-50 | the statement loop answers true exactly when some statement names the caller |
| AssumeRoles.UserInPrincipal | routes/assume_roles.py:39-52 | `user_in_principal` holds exactly when some statement's AWS principal is a string containing the caller's ARN or a list with an element containing it; malformed JSON matches nobody |
| AssumeRoles.GetRolesForUser | routes/assume_roles.py:55-73 | the loop returns the visible roles of the table |
| AssumeRoles.VisibleRolesMembers | routes/assume_roles.py:60-71 | a row is returned exactly when it is stored and its trust policy names the caller |
| AssumeRoles.VisibleRolesAppend | routes/assume_roles.py:60-71 | visibility is decided row by row, so table order is kept |
| AssumeRoles.CheckExpiration | routes/assume_roles.py:76-104 | an unknown role is ("not_exists", no); "active" exactly when the user's last entry in list order has not expired; "not_exists" exactly when the user has no entry; permission exactly when not active and the stored flag is "yes" |
| AssumeRoles.OfUserEmpty | routes/assume_roles.py:90-93 | the user's history is empty exactly when no entry belongs to the user |
| AssumeRoles.OfUserLast | routes/assume_roles.py:94 | the last entry of the user's history is the user's latest entry in list order |
| AssumeRoles.LatestExists | routes/assume_roles.py:93-94 | a user with history has a latest entry |
| AssumeRoles.LatestUnique | routes/assume_roles.py:94 | the latest entry of a user is unique |
| AssumeRoles.RegisteredEffects | routes/assume_roles.py:144-156 | registering appends exactly one entry {user, now, now+duration} at the end, appends the user to the assumed list unless already there (so no duplicates arise), sets the user's flag to "no", and leaves other users' entries and flags and every other column alone |
| AssumeRoles.RegisterAssume | routes/assume_roles.py:133-164 | `register_assume` replaces the role's row by the registered row, and is a no-op for an absent role |
| AssumeRoles.VisibleMaxDuration | routes/assume_roles.py:194 | the ceiling is a visible role's `max_session_duration` when the role is visible, else 3600 |
| AssumeRoles.AssumeRequest | routes/assume_roles.py:179-205 | a request is refused while active, refused without permission, and otherwise issued with the parsed or default duration and then registered; nothing is written unless credentials are issued |
| Broker.RegisteredLatest | routes/assume_roles.py:150-154 | the appended entry becomes the user's latest, expiring at now + duration |
| Broker.ActiveUntilExpiry | routes/assume_roles.py:93-97 | before the new entry expires the check answers ("active", no) |
| Broker.ExpiredAfterwards | routes/assume_roles.py:96-104 | once the new entry expires the check answers ("expired", no), because the flag was reset |
| Broker.RegisteredNeverGrants | routes/assume_roles.py:156 | after registering, the check never grants permission again until a new approval |
| Broker.NoEntryGranted | routes/assume_roles.py:99-104 | a user with no history and the flag "yes" gets ("not_exists", permission) |
| Broker.ApprovalGrants | routes/manage_sts_permission.py:237-242 | after the administrator sets "yes", the user's next check is ("not_exists", permission) |
| Broker.OtherSpellingClearsButDenies | routes/manage_sts_permission.py:237-242 | a value like "Yes" clears the user's history, but the verbatim flag does not grant permission |
| Broker.UpperYesDenies | routes/assume_roles.py:104 | setting "YES" leaves the user without permission |
| Broker.CheckReadsOwnEntries | routes/assume_roles.py:90-104 | the check depends only on the user's own history entries and flag |
| Broker.OthersUnaffected | routes/manage_sts_permission.py:237-242 | approving or registering one user does not change another user's check |
| Broker.ApprovalIsSingleUse | routes/assume_roles.py:197-205 | after an approval, the first request is issued and any later request is refused |
| Broker.ContributorMatches | routes/assume_roles.py:42-49 | an ARN the sync extracts from a statement is matched by the request-time test |
| Broker.EligibleUserSeesRole | routes/assume_roles.py:55-73 | after a sync, every eligible user of a listed role sees that role |
| Broker.SubstringCallerHasNoFlag | routes/assume_roles.py:45-48 | for every non-root listed principal and every caller ARN that is a proper prefix of it, the caller sees the role, yet whatever the previous flags the sync flags the listed ARN and not the caller |
| Broker.RootTestsDisagree | routes/manage_sts_permission.py:192 | an example, on two concrete ARNs, that the sync's test (ends with ":root", ignoring case) and the user-type test (contains ":root") disagree in both directions |
| Iam.GetUserType | helpers/aws.py:143-168 | "Root Account" exactly when the ARN contains ":root", else "IAM User"; MethodNotAllowed gives "System User", AccessDenied gives "IAM User", any other error "Unknown" with the error text |
| Iam.CountActive | helpers/aws.py:272 | the active-key count is at most the number of keys |
| Iam.CountActiveAppend | helpers/aws.py:272 | counting active keys distributes over concatenation |
| Iam.Statuses | routes/user_routes.py:35 | the status list has one status per key, in order |
| Iam.CountActiveIsMultiplicity | routes/user_routes.py:35 | the active count is the multiplicity of Active among the statuses |
| Iam.CountActiveUpdate | routes/user_routes.py:200-210 | changing one key's status changes the count by the difference of that key's contribution |
| Iam.CountActiveRemove | routes/user_routes.py:212-213 | deleting one key lowers the count by that key's contribution |
| Iam.KeyIndex | routes/user_routes.py:201 | the key lookup finds a key with that id, or reports that none has it |
| Iam.CreateAccessKey | helpers/aws.py:266-292 | an unknown user is "does not exist"; two or more active keys refuse and create nothing; a refused create call reports its error (NoSuchEntity as "does not exist") and creates nothing; otherwise exactly one new active key is appended and returned; the cap of two active keys is preserved |
| UserRoutes.ShowAlertExactly | routes/user_routes.py:14 | the alert (no field other than "type" truthy) shows exactly for a MethodNotAllowed or AccessDenied error, or another error with empty text; never for a successful lookup |
| UserRoutes.EnrichedRow | routes/user_routes.py:26-46 | the active-key count is the number of Active keys when the key listing succeeds, and None with an error recorded when it fails (the user is unknown) |
| UserRoutes.IamUsers | routes/user_routes.py:18-63 | one enriched row per listed user, in order |
| UserRoutes.Locate | routes/user_routes.py:199-213 | the key addressed by user and id is found, or it is reported absent |
| UserRoutes.ModifyKey | routes/user_routes.py:184-221 | "disable" sets Inactive with no count check; "enable" is refused at two or more active keys, counted over all keys including the target; "delete" removes the key; any other action is "Invalid action" with no change; the cap is preserved |
| UserRoutes.SetKeyStatus | routes/user_routes.py:200-210 | an existing key gets the new status and nothing else changes; an unknown key is the service's error |
| UserRoutes.DeleteKey | routes/user_routes.py:213 | an existing key is removed and nothing else changes; an unknown key is the service's error |
| UserRoutes.CreateIamUser | helpers/aws.py:211-242 | creation succeeds exactly for a new name the service does not refuse, and the new user starts with no keys and no policies; an existing name is `EntityAlreadyExists`, any other refusal is reported as "❌ code: message", and a failure changes nothing |
| UserRoutes.PanelPolicyPerUser | routes/user_routes.py:100-111 | different users get differently named panel policies, each on its own user's ARN |
| UserRoutes.AttachPanelPolicy | routes/user_routes.py:90-125 | the policy "AllowGetUserOnly-<user>" is stored exactly when the service allows it and the user exists; otherwise nothing changes and the error is returned |
| UserRoutes.CreateUser | routes/user_routes.py:65-88 | the panel policy is attached only after a successful creation with the flag "true"; a refused creation reports the service's error and changes nothing; a failed attach appends to the message and keeps success |
| S3.RemoveNameValid | routes/bucket_routes.py:199 | removing a deleted bucket's name keeps the listing duplicate-free and in step with the bucket map |
| S3.PutObjectMembers | routes/objects.py:78 | storing an object makes it the only object under its key and keeps objects under other keys |
| S3.CreateCallFor | helpers/aws.py:373-392 | the default regions (None, "", "us-east-1", "default") send no location constraint and any other region is sent as one; the locking flag is passed through |
| S3.CreateBucket | helpers/aws.py:340-409 | an existing bucket fails without a create call; a pre-check code other than 404/NoSuchBucket fails; a refused create call reports "❌ code: message"; otherwise success exactly on HTTP 200, with the lock suffix when locking is on; only success adds the bucket, and a bucket created with locking starts with versioning enabled, as the store does |
| S3.GetBucketsInfo | helpers/aws.py:57-140 | a non-empty cached list is returned untouched; otherwise one summary per bucket in listing order is computed and cached |
| S3.SizeOf | helpers/aws.py:69-72 | the page loop adds up exactly the total size of the objects |
| BucketRoutes.FirstTruthy | routes/bucket_routes.py:275-277 | the `or` chain yields a non-empty value of some listed field, and nothing exactly when every listed field is missing or empty |
| Common.WithoutKeyMembers | routes/bucket_routes.py:324-326 | the key filter (of a tag set, and of a bucket's objects when one is deleted) keeps exactly the elements stored under other keys, and is as long as before exactly when no element had the key |
| Common.WithoutKeyAppend | routes/bucket_routes.py:294 | the key filter distributes over concatenation, so the original order is kept |
| BucketRoutes.UpsertTagKeyOnce | routes/bucket_routes.py:294-295 | after an add, the other keys' tags are kept in order and the key appears exactly once, with the new value, at the end |
| BucketRoutes.UpsertTagIdempotent | routes/bucket_routes.py:294-297 | adding the same tag twice equals adding it once |
| Common.WithoutKeyTwice | routes/bucket_routes.py:324 | filtering a key out twice equals filtering it out once |
| BucketRoutes.AddBucketTag | routes/bucket_routes.py:271-307 | a missing bucket, key or value is a 400 with no change; a missing tag set counts as empty; otherwise the tag set becomes the upsert and the cache is cleared |
| BucketRoutes.DeleteBucketTag | routes/bucket_routes.py:309-343 | an absent key is a 404 with nothing written; otherwise only that key is removed, and an empty result deletes the tag set |
| BucketRoutes.VersioningStatus | routes/bucket_routes.py:237 | "enable" maps to "Enabled" and "disable" to "Suspended", both ways |
| BucketRoutes.ToggleVersioning | routes/bucket_routes.py:216-256 | the action is matched after lower-casing and must be enable or disable; suspending versioning on an object-lock bucket is the store's `InvalidBucketState` refusal with nothing changed; otherwise the bucket's status is set accordingly and the cache cleared; a locked bucket with versioning enabled keeps it enabled |
| BucketRoutes.MixedCaseEnable | routes/bucket_routes.py:228 | an example of the case-insensitive action match that `ToggleVersioning` states for all inputs: a mixed-case "enable" is accepted |
| BucketRoutes.DeleteBucket | routes/bucket_routes.py:174-213 | a name is required, a non-empty bucket is refused, otherwise the bucket and its name go and the cache is cleared |
| BucketRoutes.LifecycleRules | routes/bucket_routes.py:457-461 | a string is parsed, a single object is wrapped in a list, a list is kept; the result is never a bare object |
| BucketRoutes.SetBucketLifecycle | routes/bucket_routes.py:445-468 | a missing or falsy bucket or lifecycle is a 400; success exactly when the rules form a list the store accepts, which then replace the bucket's lifecycle |
| BucketRoutes.ConfigureLocking | routes/bucket_routes.py:582-637 | missing or falsy bucket, mode or days is a 400; non-integer days is a 400; success stores the default retention and clears the cache |
| ObjectRoutes.RequestPrefix | routes/objects.py:53 | a non-empty query prefix is used verbatim, otherwise the form value with no surrounding whitespace |
| ObjectRoutes.FolderOf | routes/objects.py:58 | the folder field after stripping neither starts nor ends with "/" |
| ObjectRoutes.NewlineFolderAccepted | routes/objects.py:65 | the folder check as written accepts "a\n", which the intended check refuses |
| ObjectRoutes.NewlineFolderStripped | routes/objects.py:58 | the form value "a\n/" reaches the folder check as "a\n" |
| ObjectRoutes.AllowedFolderHasNoSpace | routes/objects.py:65 | a folder that passes the corrected check contains no whitespace |
| ObjectRoutes.AsWrittenOnlyAddsFinalNewline | routes/objects.py:65 | the folder check as written (`FolderAllowedAsWritten`) accepts everything the intended check does, and the only character outside the class it lets through is a final line break |
| ObjectRoutes.UploadKeyShape | routes/objects.py:69-75 | the key is the prefix without trailing "/", the folder and the file name, each present part joined by one "/" |
| ObjectRoutes.Upload | routes/objects.py:56-89 | with the folder check as intended (see Findings): an empty file name or a folder with a character outside word characters, "-", "." and "/" is refused with nothing written; otherwise the object is stored under the built key, replacing any object with that key |
| ObjectRoutes.StoreUpload | routes/objects.py:60-89 | the same branch once the folder has been read, with the intended folder check: the checks, the key and the store, with a missing bucket reported as the service's error |
| ObjectRoutes.BuildKey | routes/objects.py:69-75 | appending the present parts one by one and joining them gives the upload key |
| ObjectRoutes.LastSegmentAfter | routes/objects.py:131 | the last segment of a string ending in separator-then-f is the last segment of f |
| ObjectRoutes.LastSegmentOfSegment | routes/objects.py:131 | a string without the separator is its own last segment |
| ObjectRoutes.DownloadNameOfUpload | routes/objects.py:69-131 | a file uploaded under any prefix and folder downloads under its own file name |
| ObjectRoutes.Download | routes/objects.py:123-136 | a download succeeds exactly when the object exists, and is named after the key's last segment |
| ObjectRoutes.FindObject | routes/objects.py:128 | the object found has the requested key, or none has it |
| ObjectRoutes.DeleteObject | routes/objects.py:138-148 | the key is removed from the bucket (deleting an absent key also succeeds); an unknown bucket reports the service's error |
| ObjectRoutes.Rest | routes/objects.py:102 | the remainder is the whole key without a prefix, the key past the prefix otherwise, and empty for a key shorter than the prefix |
| ObjectRoutes.FilesOf | routes/objects.py:100-104 | an object is a file exactly when its remainder is non-empty and has no "/" |
| ObjectRoutes.FolderName | routes/objects.py:96 | a folder name has no "/" |
| ObjectRoutes.FoldersOf | routes/objects.py:95-98 | every folder shown is non-empty and has no "/" |
| ObjectRoutes.FoldersOfSnoc | routes/objects.py:95-98 | one more common prefix adds its folder name when that name is non-empty |
| ObjectRoutes.ChildFolderShown | routes/objects.py:96 | the common prefix of a child folder shows as that folder's name |
| ObjectRoutes.UploadListedAsFile | routes/objects.py:69-104 | a file uploaded without a folder into the current prefix is listed as a file there |
| ObjectRoutes.ListObjects | routes/objects.py:91-111 | the listing yields exactly the files and the folder set; a store error leaves both empty and reports the message |
| ObjectRoutes.ViewFolderPrefix | routes/objects.py:153 | the folder link's prefix ends in exactly one "/" and does not start with "/" |
| ObjectRoutes.ViewFolderIdempotent | routes/objects.py:153 | following a folder link from its own prefix gives the same prefix |
| Dashboard.PageSizeAppend | helpers/dashboard.py:45-48 | the size sum distributes over concatenation |
| Dashboard.ListingTotalsSplit | helpers/dashboard.py:38-53 | totals over pages read through one point are the sum of the parts |
| Dashboard.CompleteListingTotals | helpers/dashboard.py:38-53 | when the listing ends with a page that is not truncated, the totals are the sum of sizes (missing counts as 0) and the number of objects over all pages |
| Dashboard.AllSizesAppend | helpers/dashboard.py:45-48 | the objects of a page sequence are those of its parts, in order |
| Dashboard.FailureKeepsPartialTotals | helpers/dashboard.py:55-58 | an error mid-listing returns the totals accumulated so far |
| Dashboard.GetBucketSizeAndCount | helpers/dashboard.py:31-58 | the loop returns exactly the listing totals |
| Dashboard.EntriesOfMembers | helpers/dashboard.py:66-80 | with a filter, a row is kept exactly when its bucket name contains the filter, ignoring case |
| Dashboard.EntriesOfNoFilter | helpers/dashboard.py:66-80 | without a filter, there is one row per bucket, in order |
| Dashboard.InsertDesc | helpers/dashboard.py:83 | inserting a row adds exactly that row |
| Dashboard.InsertDescSorted | helpers/dashboard.py:83 | inserting into a list sorted by size, largest first, keeps it sorted |
| Dashboard.SortDesc | helpers/dashboard.py:83 | sorting yields a permutation ordered by size, largest first |
| Dashboard.TopFiveAreLargest | helpers/dashboard.py:82-84 | without a filter, the table has min(5, n) rows, sorted largest first, drawn from the buckets, and every bucket left out is no larger than every row kept |
| Dashboard.TopFiveOfSorted | helpers/dashboard.py:82-84 | the same holds for the first five of any sorted list of rows |
| Dashboard.SortedPrefixDominates | helpers/dashboard.py:83-84 | in a sorted list, everything after a cut is no larger than everything before it |
| Dashboard.FilteredRows | helpers/dashboard.py:66-84 | with a filter, the rows are exactly the matching buckets, with no cap |
| Dashboard.GetBucketData | helpers/dashboard.py:60-90 | the loop returns the specified table, and an error listing buckets yields an empty list |
| Dashboard.GetAllBucketsStats | helpers/dashboard.py:92-114 | one row per bucket, in order, with no filter and no cap |
| Dashboard.DashboardIsTopOfStats | helpers/dashboard.py:60-110 | the unfiltered dashboard is the top five of the full stats |
| Dashboard.GetObjectCountData | helpers/dashboard.py:116-125 | the same buckets in the same order as the table, with only the name and the count |

## Left out

- The boto3 clients, the SQLite connections and SQL text, Flask's request, session, flash and template handling, and the JSON encoding of stored columns. The identity service, the token service, the object store and the two tables are abstract state; the service answers a route depends on are parameters.
- Concurrency: the gap between the check and the registration of an assumption is not modelled; every request runs alone.
- Time zones and ISO timestamps: clock values are integer seconds, and one clock value serves a whole request (`register_assume` reads the clock a second time).
- Floating-point sizes: the MB and GB conversions and rounding of the dashboard, the bucket pages and the bucket summaries.
- ObjectRoutes.Upload, ObjectRoutes.StoreUpload: use the corrected folder check of the Findings table; the route as written also accepts a folder that ends in one line break (form value "a\n/"), stores the object under a key containing that line break and reports success.
- StsPermission.ListRolesAndUsers: a trust document the extraction loop cannot read (principal `"*"` instead of an object, a single statement object instead of a list, a non-string element in a principal list) is not spelled out as data; the listing is given as the outcome `RolesUnreadable`, whose effect (users written, roles table unchanged, no error surfaced by `SyncBeforeRequest`) the contract states.
- AssumeRoles.UserInPrincipal: a stored trust document of one of those shapes would raise instead of matching nobody; the sync never stores one, because its own loop raises on the same shapes first, so the model's stored documents are the readable ones and undecodable text.
- StsPermission.AdminView, StsPermission.GetRolesAndUsers: a role's listed users are a set; the page lists them in the key order of the stored flag object, which a `map` does not keep.
- StsPermission.UpdatePermission: a request without `user_arn` stores its flag under the JSON key "null"; the model takes the user ARN as a string.
- Unicode: `\w` in the folder check and `str.lower` are modelled on ASCII only; `str.strip()` strips the ASCII whitespace Python recognises (space, `\t`, `\n`, `\r`, `\v`, `\f` and `\x1c`–`\x1f`) but not the non-ASCII spaces Python also strips (such as U+0085 and U+00A0).
- Common.ParseInt: accepts an optional sign and ASCII decimal digits with surrounding ASCII whitespace only; Python's `int()` also accepts other Unicode decimal digits and spaces, and underscores between digits.
- BucketRoutes.IntOf: a JSON value has no float case, so the float retention days of `configure_locking` (which `int()` truncates, 1.5 becoming 1) are not modelled.
- The front-end scripts under static/js, and the routes that pass requests through with no logic of their own: routes/manage_roles.py, routes/groups_routes.py, routes/s3select.py, routes/auth_routes.py, app.py, and in the modelled files the key listing, key creation and key deletion routes, inline and attached policies, bucket policies, replication, the overview pages and tag, versioning and lifecycle reads.
- Issued credentials, policy documents other than the panel-access policy, and bucket owner, ACL, policy, MFA and replication fields are opaque.
- The wording of errors reported by the remote services: they are `Common.ServiceMessage(code, subject)`.
- The 403 aborts on `AccessDenied` in the object routes, and exceptions other than the modelled service errors (the catch-all "Unexpected error" branches).
- BucketRoutes.DeleteBucket, ObjectRoutes.DeleteObject: object versions are not modelled. On a bucket with versioning enabled, deleting an object leaves its noncurrent versions and a delete marker, so the store refuses `delete_bucket` with `BucketNotEmpty` (a 400 from the route) although the listing shows no objects; the model deletes any bucket whose object list is empty.
- BucketRoutes.AddBucketTag, BucketRoutes.DeleteBucketTag: a refusal of `put_bucket_tagging` or `delete_bucket_tagging` by the store for a reason outside the model (such as `AccessDenied`), which the routes answer with a 400 "❌ code: message" and no change, is not represented; the model's store always accepts the write.
- Iam.CreateAccessKey: a failure of the first `list_access_keys` call other than `NoSuchEntity` (such as `AccessDenied`), which the source reports as the error text, is not represented; only the create call's refusal is a parameter.
- `is_valid_url`, `check_credentials`, `list_iam_users` and `list_access_keys` as separate calls: their results enter the model as the account state or as parameters.
- Dashboard.SortDesc: does not prove that equal sizes keep their upstream order, which Python's stable sort guarantees.
- ObjectRoutes.ListObjects: the folder names are a set, so the order in which the page shows them is not modelled.
- BucketRoutes.SetBucketLifecycle, BucketRoutes.ConfigureLocking: which rule documents and retention modes the store accepts is simplified to "the rules form a list" and `ValidRetention`.

## Findings

| source | as written | input that shows it | evidently intended | confidence | as-written member | corrected member |
|---|---|---|---|---|---|---|
| routes/objects.py:65 | the folder check `^[\w\-\./]*$` uses `$`, which also matches just before a trailing newline | the form folder "a\n/" is stripped to "a\n" and passes the check, so the key gets a newline | refuse every folder containing a character outside word characters, "-", "." and "/" | high; not executed | ObjectRoutes.NewlineFolderAccepted | ObjectRoutes.AllowedFolderHasNoSpace |

=== FILE: assume_roles.dfy ===
/** The request-time half of the broker (routes/assume_roles.py): which
    roles a user may see, whether a request finds an active session or a
    granted approval, and the bookkeeping after credentials are issued. */
module AssumeRoles {
  import opened Common
  import opened RolesDb

  // =====================================================================
  // Principal matching
  // =====================================================================

  /** Some element of `arns` contains `user` as a substring. */
  function AnyContains(arns: seq<string>, user: string): (r: bool)
    ensures r <==> exists j :: 0 <= j < |arns| && OccursIn(user, arns[j])
  {
    if arns == [] then false
    else if Contains(arns[0], user) then true
    else
      var rest := AnyContains(arns[1..], user);
      assert rest <==> exists j :: 1 <= j < |arns| && OccursIn(user, arns[j]) by {
        forall j | 1 <= j < |arns| ensures arns[1..][j - 1] == arns[j] { }
        if rest {
          var k :| 0 <= k < |arns[1..]| && OccursIn(user, arns[1..][k]);
          assert arns[k + 1] == arns[1..][k];
        }
      }
      rest
  }

  /** One statement names the user: its AWS principal is a string containing
      the user's ARN, or a list with an element containing it. */
  predicate NamesUser(st: Statement, user: string)
  {
    match st.aws
    case Many(arns) => AnyContains(arns, user)
    case Single(arn) => Contains(arn, user)
    case NoArn => false
  }

  /** The statement loop, returning at the first statement that names the user. */
  function AnyStatementNames(stmts: seq<Statement>, user: string): (r: bool)
    ensures r <==> exists i :: 0 <= i < |stmts| && NamesUser(stmts[i], user)
  {
    if stmts == [] then false
    else if NamesUser(stmts[0], user) then true
    else
      var rest := AnyStatementNames(stmts[1..], user);
      assert rest <==> exists i :: 1 <= i < |stmts| && NamesUser(stmts[i], user) by {
        if rest {
          var k :| 0 <= k < |stmts[1..]| && NamesUser(stmts[1..][k], user);
          assert stmts[k + 1] == stmts[1..][k];
        }
        forall i | 1 <= i < |stmts| && NamesUser(stmts[i], user) ensures rest {
          assert stmts[1..][i - 1] == stmts[i];
        }
      }
      rest
  }

  /** `user_in_principal`: true exactly when some statement's AWS principal
      is a string containing the user's ARN or a list with an element
      containing it; text that is not JSON matches nobody. */
  function UserInPrincipal(user: string, doc: TrustDoc): (r: bool)
    ensures r <==> doc.Statements? &&
                   exists i :: 0 <= i < |doc.stmts| &&
                     ((doc.stmts[i].aws.Single? && OccursIn(user, doc.stmts[i].aws.arn)) ||
                      (doc.stmts[i].aws.Many? &&
                       exists j :: 0 <= j < |doc.stmts[i].aws.arns| && OccursIn(user, doc.stmts[i].aws.arns[j])))
  {
    match doc
    case Malformed => false
    case Statements(stmts) => AnyStatementNames(stmts, user)
  }

  // =====================================================================
  // The roles a user sees
  // =====================================================================

  /** The rows whose trust policy names `user`, in table order. */
  function VisibleRoles(rows: seq<RoleRow>, user: string): seq<RoleRow>
  {
    if rows == [] then []
    else
      var last := rows[|rows| - 1];
      VisibleRoles(rows[..|rows| - 1], user) + (if UserInPrincipal(user, last.principal) then [last] else [])
  }

  /** `get_roles_for_user`. */
  method GetRolesForUser(db: Database, user: string) returns (roles: seq<RoleRow>)
    ensures roles == VisibleRoles(db.roles, user)
  {
    var rows := db.roles;
    roles := [];
    var i := 0;
    while i < |rows|
      invariant 0 <= i <= |rows|
      invariant roles == VisibleRoles(rows[..i], user)
    {
      assert rows[..i + 1][..i] == rows[..i];
      if UserInPrincipal(user, rows[i].principal) {
        roles := roles + [rows[i]];
      }
      i := i + 1;
    }
    assert rows[..|rows|] == rows;
  }

  /** A row is visible exactly when its trust policy names the user. */
  lemma {:induction false} VisibleRolesMembers(rows: seq<RoleRow>, user: string, r: RoleRow)
    ensures r in VisibleRoles(rows, user) <==> r in rows && UserInPrincipal(user, r.principal)
  {
    if rows != [] {
      var init := rows[..|rows| - 1];
      VisibleRolesMembers(init, user, r);
      assert rows == init + [rows[|rows| - 1]];
    }
  }

  /** Visibility is decided row by row, so the table order is kept. */
  lemma {:induction false} VisibleRolesAppend(a: seq<RoleRow>, b: seq<RoleRow>, user: string)
    ensures VisibleRoles(a + b, user) == VisibleRoles(a, user) + VisibleRoles(b, user)
  {
    if b == [] {
      assert a + b == a;
    } else {
      var binit := b[..|b| - 1];
      assert (a + b)[..|a + b| - 1] == a + binit;
      VisibleRolesAppend(a, binit, user);
    }
  }

  // =====================================================================
  // The check before assuming
  // =====================================================================

  datatype Status = Active | Expired | NotExists

  /** `assume_perm.get(user_arn, "no")`; a missing caller has no flag. */
  function FlagOf(permission: map<string, string>, user: Option<string>): string
  {
    if user.Some? && user.value in permission then permission[user.value] else "no"
  }

  /** `i` is the position of the user's latest history entry: the last one
      for that user in list order. */
  predicate LatestAt(history: seq<HistoryEntry>, user: string, i: int)
  {
    0 <= i < |history| && history[i].user == user &&
    forall j :: i < j < |history| ==> history[j].user != user
  }

  /** `check_expiration_before_assume`: the status of the user's latest
      entry and whether the stored flag is exactly "yes". An unknown role is
      ("not_exists", no); an unexpired latest entry is ("active", no)
      whatever the flag; otherwise the status is "expired" if the user has
      any entry and "not_exists" if not. */
  function CheckExpiration(row: Option<RoleRow>, user: Option<string>, now: int): (r: (Status, bool))
    ensures row.None? ==> r == (NotExists, false)
    ensures row.Some? ==>
              (r.0 == Active <==>
                 user.Some? && exists i :: LatestAt(row.value.history, user.value, i) &&
                                           now < row.value.history[i].expiration)
    ensures row.Some? ==>
              (r.0 == NotExists <==>
                 user.None? || forall i :: 0 <= i < |row.value.history| ==> row.value.history[i].user != user.value)
    ensures r.1 <==> row.Some? && r.0 != Active && FlagOf(row.value.permission, user) == "yes"
  {
    match row
    case None => (NotExists, false)
    case Some(rr) =>
      match user
      case None => (NotExists, FlagOf(rr.permission, user) == "yes")
      case Some(u) =>
        var mine := OfUser(rr.history, u);
        OfUserEmpty(rr.history, u);
        if mine == [] then
          (NotExists, FlagOf(rr.permission, user) == "yes")
        else
          LatestExists(rr.history, u);
          var i :| LatestAt(rr.history, u, i) && mine[|mine| - 1] == rr.history[i];
          assert forall k :: LatestAt(rr.history, u, k) ==> k == i by {
            forall k | LatestAt(rr.history, u, k) ensures k == i { LatestUnique(rr.history, u, i, k); }
          }
          if now < mine[|mine| - 1].expiration then
            (Active, false)
          else
            (Expired, FlagOf(rr.permission, user) == "yes")
  }

  /** The filtered history is empty exactly when the user has no entry. */
  lemma {:induction false} OfUserEmpty(history: seq<HistoryEntry>, user: string)
    ensures OfUser(history, user) == [] <==> forall i :: 0 <= i < |history| ==> history[i].user != user
  {
    if history != [] {
      var init := history[..|history| - 1];
      OfUserEmpty(init, user);
      if OfUser(init, user) == [] && history[|history| - 1].user != user {
        forall i | 0 <= i < |history| ensures history[i].user != user {
          if i < |init| { assert history[i] == init[i]; }
        }
      } else if OfUser(init, user) != [] {
        var i :| 0 <= i < |init| && init[i].user == user;
        assert history[i] == init[i];
      }
    }
  }

  /** The last entry of the filtered history is the entry at the user's
      latest position `i`. */
  lemma {:induction false} OfUserLast(history: seq<HistoryEntry>, user: string) returns (i: int)
    requires OfUser(history, user) != []
    ensures LatestAt(history, user, i)
    ensures OfUser(history, user)[|OfUser(history, user)| - 1] == history[i]
  {
    var init := history[..|history| - 1];
    var last := history[|history| - 1];
    assert OfUser(history, user) == OfUser(init, user) + (if last.user == user then [last] else []);
    if last.user == user {
      i := |history| - 1;
    } else {
      i := OfUserLast(init, user);
      assert history[i] == init[i];
      forall j | i < j < |history| ensures history[j].user != user {
        if j < |init| { assert history[j] == init[j]; }
      }
    }
  }

  lemma {:induction false} LatestExists(history: seq<HistoryEntry>, user: string)
    requires OfUser(history, user) != []
    ensures exists i :: LatestAt(history, user, i) &&
                        OfUser(history, user)[|OfUser(history, user)| - 1] == history[i]
  {
    var i := OfUserLast(history, user);
    var mine := OfUser(history, user);
    assert LatestAt(history, user, i) && mine[|mine| - 1] == history[i];
  }

  /** A user has at most one latest position. */
  lemma LatestUnique(history: seq<HistoryEntry>, user: string, i: int, k: int)
    requires LatestAt(history, user, i) && LatestAt(history, user, k)
    ensures i == k
  {
  }

  // =====================================================================
  // Registering an assumption
  // =====================================================================

  /** The row after `register_assume`: the user is added to the assumed
      users if absent, one history entry {user, now, now + duration} is
      appended, and the user's flag is reset to "no". */
  function Registered(row: RoleRow, user: string, now: int, duration: int): RoleRow
  {
    row.(assumedUsers := if user in row.assumedUsers then row.assumedUsers else row.assumedUsers + [user],
         history := row.history + [HistoryEntry(user, now, now + duration)],
         permission := row.permission[user := "no"])
  }

  /** The roles table after `register_assume`; an absent role is left alone. */
  function RegisteredTable(rows: seq<RoleRow>, roleArn: string, user: string, now: int, duration: int): seq<RoleRow>
  {
    match IndexOf(rows, roleArn)
    case None => rows
    case Some(i) => rows[i := Registered(rows[i], user, now, duration)]
  }

  /** What registering does to a row: exactly one entry is appended, at the
      end, with expiry `now + duration`; the user joins the assumed list at
      its end unless already there, so the list stays duplicate-free; other
      users' history and flags are untouched, and so is every other column. */
  lemma RegisteredEffects(row: RoleRow, user: string, now: int, duration: int, other: string)
    requires other != user
    ensures var r := Registered(row, user, now, duration);
            |r.history| == |row.history| + 1 &&
            r.history[..|row.history|] == row.history &&
            r.history[|row.history|] == HistoryEntry(user, now, now + duration) &&
            user in r.assumedUsers &&
            (Distinct(row.assumedUsers) ==> Distinct(r.assumedUsers)) &&
            r.permission[user] == "no" &&
            OfUser(r.history, other) == OfUser(row.history, other) &&
            FlagOf(r.permission, Some(other)) == FlagOf(row.permission, Some(other))
    ensures var r := Registered(row, user, now, duration);
            r.assumedUsers == (if user in row.assumedUsers then row.assumedUsers else row.assumedUsers + [user])
    ensures var r := Registered(row, user, now, duration);
            r.(assumedUsers := row.assumedUsers, history := row.history, permission := row.permission) == row
  {
    var r := Registered(row, user, now, duration);
    assert r.history[..|row.history|] == row.history;
    OfUserAppend(row.history, [HistoryEntry(user, now, now + duration)], other);
    assert [HistoryEntry(user, now, now + duration)][..0] == [];
  }

  /** `register_assume`. */
  method RegisterAssume(db: Database, roleArn: string, user: string, now: int, duration: int)
    requires db.Valid()
    modifies db
    ensures db.Valid() && db.users == old(db.users)
    ensures db.roles == RegisteredTable(old(db.roles), roleArn, user, now, duration)
  {
    var found := IndexOf(db.roles, roleArn);
    if found.Some? {
      var i := found.value;
      var row := db.roles[i];
      var assumed := row.assumedUsers;
      if user !in assumed {
        assumed := assumed + [user];
      }
      var history := row.history + [HistoryEntry(user, now, now + duration)];
      var permission := row.permission[user := "no"];
      db.roles := db.roles[i := row.(assumedUsers := assumed, history := history, permission := permission)];
    }
  }

  // =====================================================================
  // The request
  // =====================================================================

  /** The `duration_seconds` form field: absent, or the submitted text. */
  datatype DurationField = Missing | Text(text: string)

  /** `int(d) if d else None`, with a ValueError read as None. */
  function ParseDuration(field: DurationField): Option<int>
  {
    match field
    case Missing => None
    case Text(t) => if t == "" then None else ParseInt(t)
  }

  /** The ceiling of the first visible role with that ARN, else 3600. */
  function VisibleMaxDuration(visible: seq<RoleRow>, roleArn: string): (d: int)
    ensures (forall r :: r in visible ==> r.arn != roleArn) ==> d == 3600
    ensures (exists r :: r in visible && r.arn == roleArn) ==>
              exists r :: r in visible && r.arn == roleArn && d == r.maxDuration
  {
    if visible == [] then 3600
    else if visible[0].arn == roleArn then visible[0].maxDuration
    else
      assert forall r :: r in visible[1..] ==> r in visible;
      assert forall r :: r in visible && r != visible[0] ==> r in visible[1..];
      VisibleMaxDuration(visible[1..], roleArn)
  }

  /** The duration requested: the parsed number when it is non-zero,
      otherwise the role's ceiling as the user sees it. */
  function RequestDuration(field: DurationField, visible: seq<RoleRow>, roleArn: string): int
  {
    match ParseDuration(field)
    case Some(n) => if n != 0 then n else VisibleMaxDuration(visible, roleArn)
    case None => VisibleMaxDuration(visible, roleArn)
  }

  /** Credentials as the issuing service returns them; opaque here. */
  datatype Credentials = Credentials(accessKeyId: string, secretAccessKey: string, sessionToken: string, expiration: string)

  /** The result of a request: refused for an active session, refused for a
      missing approval, failed at the issuing service, or issued. */
  datatype Outcome = StillActive | NoPermission | IssueFailed | Issued(credentials: Credentials, duration: int)

  /** The POST branch of `assume_roles_page`. `user` is the caller's ARN (None
      when it cannot be found), `now` the clock, and `issued` what the
      issuing service returns for this request (None when it raises). */
  method AssumeRequest(db: Database, user: Option<string>, roleArn: string, field: DurationField,
                       now: int, issued: Option<Credentials>)
    returns (visible: seq<RoleRow>, outcome: Outcome)
    requires db.Valid()
    modifies db
    ensures db.Valid() && db.users == old(db.users)
    ensures visible == if user.Some? && user.value != "" then VisibleRoles(old(db.roles), user.value) else []
    ensures var check := CheckExpiration(FindRole(old(db.roles), roleArn), user, now);
            outcome ==
              if check.0 == Active then StillActive
              else if !check.1 then NoPermission
              else if issued.None? then IssueFailed
              else Issued(issued.value, RequestDuration(field, visible, roleArn))
    ensures outcome.Issued? ==>
              user.Some? && db.roles == RegisteredTable(old(db.roles), roleArn, user.value, now, outcome.duration)
    ensures !outcome.Issued? ==> db.roles == old(db.roles)
  {
    if user.Some? && user.value != "" {
      visible := GetRolesForUser(db, user.value);
    } else {
      visible := [];
    }
    var duration := RequestDuration(field, visible, roleArn);
    var status, hasPermission := CheckExpiration(FindRole(db.roles, roleArn), user, now).0,
                                 CheckExpiration(FindRole(db.roles, roleArn), user, now).1;
    if status == Active {
      outcome := StillActive;
    } else if !hasPermission {
      outcome := NoPermission;
    } else if issued.None? {
      outcome := IssueFailed;
    } else {
      RegisterAssume(db, roleArn, user.value, now, duration);
      outcome := Issued(issued.value, duration);
    }
  }
}

=== FILE: broker.dfy ===
/** Properties of the role-assumption broker as a whole: how the approval
    switch, the request check and the registration of an assumption work
    together, what a sync means for the users it lists, and how the two
    root tests of the console differ. */
module Broker {
  import opened Common
  import opened RolesDb
  import opened StsPermission
  import opened AssumeRoles
  import Iam

  // =====================================================================
  // Sessions and single-use approvals
  // =====================================================================

  /** The entry just registered is the user's latest. */
  lemma {:induction false} RegisteredLatest(row: RoleRow, user: string, now: int, duration: int)
    ensures LatestAt(Registered(row, user, now, duration).history, user, |row.history|)
    ensures Registered(row, user, now, duration).history[|row.history|].expiration == now + duration
  {
  }

  /** A registered session reads as active until it expires, and the
      request is refused whatever the flag says. */
  lemma {:induction false} ActiveUntilExpiry(row: RoleRow, user: string, now: int, duration: int, t: int)
    requires t < now + duration
    ensures CheckExpiration(Some(Registered(row, user, now, duration)), Some(user), t) == (Active, false)
  {
    RegisteredLatest(row, user, now, duration);
  }

  /** From its expiry on, the session reads as expired, and the flag the
      registration reset to "no" refuses a new one. */
  lemma {:induction false} ExpiredAfterwards(row: RoleRow, user: string, now: int, duration: int, t: int)
    requires now + duration <= t
    ensures CheckExpiration(Some(Registered(row, user, now, duration)), Some(user), t) == (Expired, false)
  {
    var r := Registered(row, user, now, duration);
    RegisteredLatest(row, user, now, duration);
    forall i | LatestAt(r.history, user, i) ensures t >= r.history[i].expiration {
      LatestUnique(r.history, user, i, |row.history|);
    }
    assert r.history[|row.history|].user == user;
  }

  /** Every approval is single use: once an assumption is registered, the
      user's next check never grants permission, at any later time. */
  lemma {:induction false} RegisteredNeverGrants(row: RoleRow, user: string, now: int, duration: int, t: int)
    ensures !CheckExpiration(Some(Registered(row, user, now, duration)), Some(user), t).1
  {
    if t < now + duration {
      ActiveUntilExpiry(row, user, now, duration, t);
    } else {
      ExpiredAfterwards(row, user, now, duration, t);
    }
  }

  lemma {:induction false} LowerYes()
    ensures Lower("yes") == "yes"
  {
    assert |Lower("yes")| == 3;
    assert Lower("yes")[0] == 'y' && Lower("yes")[1] == 'e' && Lower("yes")[2] == 's';
  }

  /** A user with no entry and the flag "yes" is granted. */
  lemma NoEntryGranted(r: RoleRow, user: string, t: int)
    requires forall i :: 0 <= i < |r.history| ==> r.history[i].user != user
    requires FlagOf(r.permission, Some(user)) == "yes"
    ensures CheckExpiration(Some(r), Some(user), t) == (NotExists, true)
  {
  }

  /** Approving with "yes" clears the user's history, so the next check
      finds no session and grants permission. */
  lemma {:induction false} ApprovalGrants(row: RoleRow, user: string, t: int)
    ensures CheckExpiration(Some(SetApproval(row, user, "yes")), Some(user), t) == (NotExists, true)
  {
    var r := SetApproval(row, user, "yes");
    ApprovedRow(row, user);
    NoEntryGranted(r, user, t);
  }

  /** The approved row has no entry for the user and stores "yes". */
  lemma ApprovedRow(row: RoleRow, user: string)
    ensures var r := SetApproval(row, user, "yes");
            (forall i :: 0 <= i < |r.history| ==> r.history[i].user != user) &&
            FlagOf(r.permission, Some(user)) == "yes"
  {
    LowerYes();
    ApprovedHistory(row, user);
  }

  lemma ApprovedHistory(row: RoleRow, user: string)
    requires Lower("yes") == "yes"
    ensures var h := SetApproval(row, user, "yes").history;
            forall i :: 0 <= i < |h| ==> h[i].user != user
  {
    var h := WithoutUser(row.history, user);
    assert SetApproval(row, user, "yes").history == h;
    forall i | 0 <= i < |h| ensures h[i].user != user {
      assert h[i] in h;
    }
  }

  /** The clear is case-insensitive but the flag is stored verbatim: an
      approval spelled otherwise than "yes" (such as "YES") clears the
      history yet grants nothing. */
  lemma {:induction false} OtherSpellingClearsButDenies(row: RoleRow, user: string, value: string, t: int)
    requires Lower(value) == "yes" && value != "yes"
    ensures forall h :: h in SetApproval(row, user, value).history ==> h.user != user
    ensures CheckExpiration(Some(SetApproval(row, user, value)), Some(user), t) == (NotExists, false)
  {
    var r := SetApproval(row, user, value);
    forall i | 0 <= i < |r.history| ensures r.history[i].user != user {
      assert r.history[i] in r.history;
    }
  }

  /** "YES" is such a spelling. */
  lemma {:induction false} UpperYesDenies(row: RoleRow, user: string, t: int)
    ensures CheckExpiration(Some(SetApproval(row, user, "YES")), Some(user), t) == (NotExists, false)
  {
    assert Lower("YES") == "yes";
    OtherSpellingClearsButDenies(row, user, "YES", t);
  }

  /** The check reads only the caller's own entries and flag. */
  lemma {:induction false} CheckReadsOwnEntries(a: RoleRow, b: RoleRow, user: string, t: int)
    requires OfUser(a.history, user) == OfUser(b.history, user)
    requires FlagOf(a.permission, Some(user)) == FlagOf(b.permission, Some(user))
    ensures CheckExpiration(Some(a), Some(user), t) == CheckExpiration(Some(b), Some(user), t)
  {
  }

  /** Approving or registering one user leaves every other user's check
      as it was. */
  lemma {:induction false} OthersUnaffected(row: RoleRow, user: string, value: string, now: int, duration: int, other: string, t: int)
    requires other != user
    ensures CheckExpiration(Some(SetApproval(row, user, value)), Some(other), t) ==
            CheckExpiration(Some(row), Some(other), t)
    ensures CheckExpiration(Some(Registered(row, user, now, duration)), Some(other), t) ==
            CheckExpiration(Some(row), Some(other), t)
  {
    if Lower(value) == "yes" {
      WithoutUserKeepsOthers(row.history, user, other);
    }
    CheckReadsOwnEntries(SetApproval(row, user, value), row, other, t);
    RegisteredEffects(row, user, now, duration, other);
    CheckReadsOwnEntries(Registered(row, user, now, duration), row, other, t);
  }

  /** An administrator approves a user for a role, the user assumes it, and
      asks again at any later time: the first request is issued and the
      second is not. */
  method ApprovalIsSingleUse(db: Database, roleArn: string, user: string, field: DurationField,
                             now: int, later: int, first: Credentials, second: Credentials)
    returns (outcome1: Outcome, outcome2: Outcome)
    requires db.Valid() && roleArn in ArnSet(db.roles)
    modifies db
    ensures outcome1.Issued? && outcome1.credentials == first
    ensures !outcome2.Issued?
  {
    var status := UpdatePermission(db, roleArn, user, Some("yes"));
    ghost var i := IndexOf(old(db.roles), roleArn).value;
    ghost var approved := SetApproval(old(db.roles)[i], user, "yes");
    FindAfterReplace(old(db.roles), roleArn, approved);
    ApprovalGrants(old(db.roles)[i], user, now);
    ghost var rows1 := db.roles;
    var visible1;
    visible1, outcome1 := AssumeRequest(db, Some(user), roleArn, field, now, Some(first));
    assert IndexOf(rows1, roleArn).value == i;
    FindAfterReplace(rows1, roleArn, Registered(approved, user, now, outcome1.duration));
    RegisteredNeverGrants(approved, user, now, outcome1.duration, later);
    var visible2;
    visible2, outcome2 := AssumeRequest(db, Some(user), roleArn, field, later, Some(second));
  }

  // =====================================================================
  // What a sync means for the users it lists
  // =====================================================================

  /** A principal string a statement contributes matches its own user. */
  lemma {:induction false} ContributorMatches(stmts: seq<Statement>, i: nat, u: string)
    requires i < |stmts| && u in Contribution(stmts[i])
    ensures UserInPrincipal(u, Statements(stmts))
  {
    assert OccursAt(u, u, 0);
    match stmts[i].aws
    case Single(arn) =>
    case Many(arns) =>
      var j :| 0 <= j < |arns| && arns[j] == u;
    case NoArn =>
  }

  /** Every user a sync lists for a role can see that role afterwards:
      the exact principal string contains itself. */
  lemma {:induction false} EligibleUserSeesRole(rows: seq<RoleRow>, ups: seq<UpstreamRole>, k: nat, u: string)
    requires DistinctArns(ups) && k < |ups| && u in Eligible(ups[k].statements)
    ensures FindRole(SyncedCatalog(rows, ups), ups[k].arn).Some?
    ensures FindRole(SyncedCatalog(rows, ups), ups[k].arn).value in VisibleRoles(SyncedCatalog(rows, ups), u)
  {
    var catalog := SyncedCatalog(rows, ups);
    SyncRowContents(rows, ups, k);
    var row := FindRole(catalog, ups[k].arn).value;
    assert row.principal == Statements(ups[k].statements);
    EligibleMembers(ups[k].statements, u);
    var i :| 0 <= i < |ups[k].statements| && u in Contribution(ups[k].statements[i]);
    ContributorMatches(ups[k].statements, i, u);
    VisibleRolesMembers(catalog, u, row);
  }

  /** Request-time matching is by substring while flags are keyed by the
      exact principal: a caller whose ARN is a proper prefix of a listed
      principal sees the role, but whatever the previous flags, the sync
      flags the listed ARN and not the caller, so the caller is refused
      until an administrator flags that exact ARN. */
  lemma SubstringCallerHasNoFlag(listed: string, caller: string, prev: map<string, string>)
    requires !IsRootPrincipal(listed)
    requires |caller| < |listed| && listed[..|caller|] == caller
    ensures var stmts := [Statement(Single(listed))];
            UserInPrincipal(caller, Statements(stmts)) &&
            listed in MergePermission(prev, Eligible(stmts)) &&
            caller !in MergePermission(prev, Eligible(stmts))
  {
    var stmts := [Statement(Single(listed))];
    assert OccursAt(caller, listed, 0);
    EligibleMembers(stmts, listed);
    EligibleMembers(stmts, caller);
  }

  // =====================================================================
  // The two root tests
  // =====================================================================

  /** An example on two concrete ARNs: the sync's test (ends with ":root",
      ignoring case) and the user-type test (contains ":root",
      case-sensitive) disagree both ways. */
  lemma RootTestsDisagree()
    ensures var a := "arn:aws:iam::1:root-x";
            Iam.IsRootAccountArn(a) && !ShouldSync(a)
    ensures var b := "arn:aws:iam::1:ROOT";
            !Iam.IsRootAccountArn(b) && ShouldSync(b)
  {
    RootInsideNotSynced();
    UpperRootSynced();
  }

  /** ":root" in the middle is a root account for the user-type test
      but does not end the ARN. */
  lemma RootInsideNotSynced()
    ensures var a := "arn:aws:iam::1:root-x";
            Iam.IsRootAccountArn(a) && !ShouldSync(a)
  {
    var a := "arn:aws:iam::1:root-x";
    assert OccursAt(":root", a, 14);
    assert Lower(a)[|a| - 1] == 'x';
  }

  /** An upper-case ":ROOT" ending passes the sync's test only. */
  lemma UpperRootSynced()
    ensures var b := "arn:aws:iam::1:ROOT";
            !Iam.IsRootAccountArn(b) && ShouldSync(b)
  {
    var b := "arn:aws:iam::1:ROOT";
    assert Lower(b)[|b| - 5..] == ":root";
    UpperRootNotContained();
  }

  lemma UpperRootNotContained()
    ensures forall i :: !OccursAt(":root", "arn:aws:iam::1:ROOT", i)
  {
    var b := "arn:aws:iam::1:ROOT";
    forall i ensures !OccursAt(":root", b, i) {
      if 0 <= i && i + 5 <= |b| {
        assert b[i..i + 5][0] == b[i] && b[i..i + 5][1] == b[i + 1];
      }
    }
  }
}

=== FILE: bucket_routes.dfy ===
/** The bucket routes (routes/bucket_routes.py) that carry logic of their
    own: tag upsert and delete, versioning, deletion of an empty bucket,
    lifecycle rules and default retention. Every successful change drops
    the session's cached bucket summaries. */
module BucketRoutes {
  import opened Common
  import opened S3

  /** A JSON reply with its HTTP status. */
  datatype Reply = Reply(status: int, success: bool, message: string)

  /** The reply to an error the object store reports. */
  function ServiceError(code: string, subject: string): Reply
  {
    Reply(400, false, "❌ " + ServiceMessage(code, subject))
  }

  /** A request body whose fields are strings; an absent field is missing
      and "" is falsy. */
  type Form = map<string, string>

  /** `data.get(k1) or data.get(k2) or ...`: the first truthy field. */
  function FirstTruthy(data: Form, keys: seq<string>): (r: Option<string>)
    ensures r.Some? ==> r.value != "" && exists i :: 0 <= i < |keys| && keys[i] in data && data[keys[i]] == r.value
    ensures r.None? <==> forall i :: 0 <= i < |keys| ==> keys[i] !in data || data[keys[i]] == ""
  {
    if keys == [] then None
    else if keys[0] in data && data[keys[0]] != "" then Some(data[keys[0]])
    else
      var r := FirstTruthy(data, keys[1..]);
      assert forall i :: 1 <= i < |keys| ==> keys[i] == keys[1..][i - 1];
      if r.Some? then
        var i :| 0 <= i < |keys[1..]| && keys[1..][i] in data && data[keys[1..][i]] == r.value;
        assert keys[i + 1] == keys[1..][i];
        r
      else
        r
  }

  /** The truthy value of one field. */
  function Field(data: Form, key: string): Option<string>
  {
    if key in data && data[key] != "" then Some(data[key]) else None
  }

  // =====================================================================
  // Tags
  // =====================================================================

  /** The tag set after adding `key`: the other tags in their order, then
      the new pair. */
  function UpsertTag(tags: seq<Tag>, key: string, value: string): seq<Tag>
  {
    WithoutKey(tags, TagKey, key) + [Tag(key, value)]
  }

  /** After an add the key occurs exactly once, at the end, with the new
      value; every other tag is kept. */
  lemma UpsertTagKeyOnce(tags: seq<Tag>, key: string, value: string)
    ensures var r := UpsertTag(tags, key, value);
            r[|r| - 1] == Tag(key, value) &&
            (forall i :: 0 <= i < |r| - 1 ==> r[i].key != key) &&
            (forall t :: t in tags && t.key != key ==> t in r)
  {
    var r := UpsertTag(tags, key, value);
    WithoutKeyMembers(tags, TagKey, key);
    forall i | 0 <= i < |r| - 1 ensures r[i].key != key {
      assert r[i] in WithoutKey(tags, TagKey, key);
    }
  }

  /** Adding the same pair twice gives the same tag set as adding it once. */
  lemma {:induction false} UpsertTagIdempotent(tags: seq<Tag>, key: string, value: string)
    ensures UpsertTag(UpsertTag(tags, key, value), key, value) == UpsertTag(tags, key, value)
  {
    var kept := WithoutKey(tags, TagKey, key);
    var t := [Tag(key, value)];
    WithoutKeyAppend(kept, t, TagKey, key);
    WithoutKeyTwice(tags, TagKey, key);
    assert WithoutKey(t, TagKey, key) == [] by {
      assert t[..0] == [];
    }
    assert WithoutKey(kept + t, TagKey, key) == kept;
  }

  /** `add_bucket_tag`. Bucket, key and value are each the first truthy of
      their alias fields; any missing one is a 400 with nothing changed. A
      bucket without a tag set counts as having an empty one; an unknown
      bucket is the store's `NoSuchBucket` error. */
  method AddBucketTag(acct: S3Account, cache: SessionCache, data: Form) returns (reply: Reply)
    requires acct.Valid()
    modifies acct, cache
    ensures acct.Valid() && acct.names == old(acct.names)
    ensures var bucket := FirstTruthy(data, ["bucket_name", "BucketName", "bucket"]);
            var key := FirstTruthy(data, ["tag_key", "key", "TagKey"]);
            var value := FirstTruthy(data, ["tag_value", "value", "TagValue"]);
            if bucket.None? || key.None? || value.None? then
              reply == Reply(400, false, "❌ Bucket name, key and value are required.") &&
              acct.buckets == old(acct.buckets) && cache.bucketsInfo == old(cache.bucketsInfo)
            else if bucket.value !in old(acct.buckets) then
              reply == ServiceError("NoSuchBucket", bucket.value) &&
              acct.buckets == old(acct.buckets) && cache.bucketsInfo == old(cache.bucketsInfo)
            else
              var b := old(acct.buckets)[bucket.value];
              var existing := if b.tags.Some? then b.tags.value else [];
              reply == Reply(200, true, "✅ Tag (" + key.value + "=" + value.value + ") added to " + bucket.value + ".") &&
              acct.buckets == old(acct.buckets)[bucket.value := b.(tags := Some(UpsertTag(existing, key.value, value.value)))] &&
              cache.bucketsInfo.None?
  {
    var bucket := FirstTruthy(data, ["bucket_name", "BucketName", "bucket"]);
    var key := FirstTruthy(data, ["tag_key", "key", "TagKey"]);
    var value := FirstTruthy(data, ["tag_value", "value", "TagValue"]);
    if bucket.None? || key.None? || value.None? {
      return Reply(400, false, "❌ Bucket name, key and value are required.");
    }
    var name := bucket.value;
    if name !in acct.buckets {
      return ServiceError("NoSuchBucket", name);
    }
    var b := acct.buckets[name];
    var existing := [];
    if b.tags.Some? {
      existing := b.tags.value;
    }
    var newTags := WithoutKey(existing, TagKey, key.value);
    newTags := newTags + [Tag(key.value, value.value)];
    acct.buckets := acct.buckets[name := b.(tags := Some(newTags))];
    cache.bucketsInfo := None;
    reply := Reply(200, true, "✅ Tag (" + key.value + "=" + value.value + ") added to " + name + ".");
  }

  /** `delete_bucket_tag`. A key that is absent is a 404 with nothing
      written; otherwise exactly that key's tags go, and an empty result
      deletes the tag set instead of storing an empty one. A bucket with no
      tag set is the store's `NoSuchTagSet` error. */
  method DeleteBucketTag(acct: S3Account, cache: SessionCache, data: Form) returns (reply: Reply)
    requires acct.Valid()
    modifies acct, cache
    ensures acct.Valid() && acct.names == old(acct.names)
    ensures !reply.success ==> acct.buckets == old(acct.buckets) && cache.bucketsInfo == old(cache.bucketsInfo)
    ensures var bucket := Field(data, "bucket_name");
            var key := FirstTruthy(data, ["tag_key", "key"]);
            if bucket.None? || key.None? then
              reply == Reply(400, false, "❌ Bucket name and tag_key are required.")
            else if bucket.value !in old(acct.buckets) then
              reply == ServiceError("NoSuchBucket", bucket.value)
            else if old(acct.buckets)[bucket.value].tags.None? then
              reply == ServiceError("NoSuchTagSet", bucket.value)
            else
              var b := old(acct.buckets)[bucket.value];
              var remaining := WithoutKey(b.tags.value, TagKey, key.value);
              if |remaining| == |b.tags.value| then
                reply == Reply(404, false, "❌ Tag '" + key.value + "' not found.")
              else
                reply == Reply(200, true, "✅ Tag '" + key.value + "' deleted from " + bucket.value + ".") &&
                acct.buckets == old(acct.buckets)[bucket.value := b.(tags := if remaining == [] then None else Some(remaining))] &&
                cache.bucketsInfo.None?
  {
    var bucket := Field(data, "bucket_name");
    var key := FirstTruthy(data, ["tag_key", "key"]);
    if bucket.None? || key.None? {
      return Reply(400, false, "❌ Bucket name and tag_key are required.");
    }
    var name := bucket.value;
    if name !in acct.buckets {
      return ServiceError("NoSuchBucket", name);
    }
    var b := acct.buckets[name];
    if b.tags.None? {
      return ServiceError("NoSuchTagSet", name);
    }
    var existing := b.tags.value;
    var remaining := WithoutKey(existing, TagKey, key.value);
    if |remaining| == |existing| {
      return Reply(404, false, "❌ Tag '" + key.value + "' not found.");
    }
    if remaining != [] {
      acct.buckets := acct.buckets[name := b.(tags := Some(remaining))];
    } else {
      acct.buckets := acct.buckets[name := b.(tags := None)];
    }
    cache.bucketsInfo := None;
    reply := Reply(200, true, "✅ Tag '" + key.value + "' deleted from " + name + ".");
  }

  // =====================================================================
  // Versioning
  // =====================================================================

  /** The status a versioning action sets. */
  function VersioningStatus(action: string): (s: string)
    requires action == "enable" || action == "disable"
    ensures s == "Enabled" <==> action == "enable"
    ensures s == "Suspended" <==> action == "disable"
  {
    if action == "enable" then "Enabled" else "Suspended"
  }

  /** `toggle_versioning`: the action is lower-cased and must then be
      "enable" or "disable". The store refuses to suspend versioning on a
      bucket with object lock (`InvalidBucketState`), which the route
      reports as a 400 with nothing changed. */
  method ToggleVersioning(acct: S3Account, cache: SessionCache, data: Form) returns (reply: Reply)
    requires acct.Valid()
    modifies acct, cache
    ensures acct.Valid() && acct.names == old(acct.names)
    ensures !reply.success ==> acct.buckets == old(acct.buckets) && cache.bucketsInfo == old(cache.bucketsInfo)
    ensures forall n :: n in old(acct.buckets) && old(acct.buckets)[n].objectLock &&
                        old(acct.buckets)[n].versioning == Some("Enabled") ==>
              n in acct.buckets && acct.buckets[n].versioning == Some("Enabled")
    ensures var bucket := Field(data, "bucket_name");
            var action := Lower(if "action" in data then data["action"] else "");
            if bucket.None? then
              reply == Reply(400, false, "❌ Bucket name is required.")
            else if action != "enable" && action != "disable" then
              reply == Reply(400, false, "❌ Action must be 'enable' or 'disable'.")
            else if bucket.value !in old(acct.buckets) then
              reply == ServiceError("NoSuchBucket", bucket.value)
            else if old(acct.buckets)[bucket.value].objectLock && action == "disable" then
              reply == ServiceError("InvalidBucketState", bucket.value)
            else
              var status := VersioningStatus(action);
              reply == Reply(200, true, "✅ Versioning for bucket '" + bucket.value + "' set to '" + status + "'.") &&
              acct.buckets == old(acct.buckets)[bucket.value := old(acct.buckets)[bucket.value].(versioning := Some(status))] &&
              cache.bucketsInfo.None?
  {
    var bucket := Field(data, "bucket_name");
    var action := Lower(if "action" in data then data["action"] else "");
    if bucket.None? {
      return Reply(400, false, "❌ Bucket name is required.");
    }
    if action != "enable" && action != "disable" {
      return Reply(400, false, "❌ Action must be 'enable' or 'disable'.");
    }
    var name := bucket.value;
    var status := if action == "enable" then "Enabled" else "Suspended";
    if name !in acct.buckets {
      return ServiceError("NoSuchBucket", name);
    }
    if acct.buckets[name].objectLock && action == "disable" {
      return ServiceError("InvalidBucketState", name);
    }
    acct.buckets := acct.buckets[name := acct.buckets[name].(versioning := Some(status))];
    cache.bucketsInfo := None;
    reply := Reply(200, true, "✅ Versioning for bucket '" + name + "' set to '" + status + "'.");
  }

  /** An example of the case-insensitive action match: "Enable" lowers to
      "enable". */
  lemma MixedCaseEnable()
    ensures Lower("Enable") == "enable"
  {
    assert Lower("Enable")[0] == 'e';
    assert Lower("Enable")[1..] == "nable";
  }

  // =====================================================================
  // Deleting a bucket
  // =====================================================================

  /** `delete_bucket_route`: a name is required, and a bucket that still
      lists a key is refused. */
  method DeleteBucket(acct: S3Account, cache: SessionCache, data: Form) returns (reply: Reply)
    requires acct.Valid()
    modifies acct, cache
    ensures acct.Valid()
    ensures !reply.success ==>
              acct.buckets == old(acct.buckets) && acct.names == old(acct.names) &&
              cache.bucketsInfo == old(cache.bucketsInfo)
    ensures var bucket := Field(data, "bucket_name");
            if bucket.None? then
              reply == Reply(400, false, "❌ Bucket name is required.")
            else if bucket.value !in old(acct.buckets) then
              reply == ServiceError("NoSuchBucket", bucket.value)
            else if old(acct.buckets)[bucket.value].objects != [] then
              reply == Reply(400, false, "❌ Bucket '" + bucket.value + "' is not empty. Please empty it before deletion.")
            else
              reply == Reply(200, true, "✅ Bucket '" + bucket.value + "' deleted successfully!") &&
              acct.buckets == old(acct.buckets) - {bucket.value} &&
              acct.names == RemoveFirst(old(acct.names), bucket.value) &&
              cache.bucketsInfo.None?
  {
    var bucket := Field(data, "bucket_name");
    if bucket.None? {
      return Reply(400, false, "❌ Bucket name is required.");
    }
    var name := bucket.value;
    if name !in acct.buckets {
      return ServiceError("NoSuchBucket", name);
    }
    var keyCount := |acct.buckets[name].objects|;
    if keyCount > 0 {
      return Reply(400, false, "❌ Bucket '" + name + "' is not empty. Please empty it before deletion.");
    }
    RemoveNameValid(acct.names, acct.buckets, name);
    acct.names := RemoveFirst(acct.names, name);
    acct.buckets := acct.buckets - {name};
    cache.bucketsInfo := None;
    reply := Reply(200, true, "✅ Bucket '" + name + "' deleted successfully!");
  }

  // =====================================================================
  // Lifecycle rules
  // =====================================================================

  /** The value sent under "Rules": a string is first decoded (`parsed`
      is its decoding, None when it is not JSON), and a single object is
      wrapped in a list; None when decoding fails. */
  function LifecycleRules(lifecycle: Json, parsed: Option<Json>): (r: Option<Json>)
    ensures lifecycle.JString? && parsed.None? <==> r.None?
    ensures r.Some? ==> !r.value.JObject?
    ensures lifecycle.JArray? ==> r == Some(lifecycle)
    ensures lifecycle.JObject? ==> r == Some(JArray([lifecycle]))
    ensures lifecycle.JString? && parsed.Some? && parsed.value.JObject? ==> r == Some(JArray([parsed.value]))
  {
    var decoded := if lifecycle.JString? then parsed else Some(lifecycle);
    match decoded
    case None => None
    case Some(v) => if v.JObject? then Some(JArray([v])) else Some(v)
  }

  /** `set_bucket_lifecycle`. `lifecycle` is the request's field (None when
      absent) and `parsed` the decoding of it when it is a string. The store
      takes `{"Rules": list}` and refuses any other shape. */
  method SetBucketLifecycle(acct: S3Account, cache: SessionCache, bucket: string,
                            lifecycle: Option<Json>, parsed: Option<Json>)
    returns (reply: Reply)
    requires acct.Valid()
    modifies acct, cache
    ensures acct.Valid() && acct.names == old(acct.names)
    ensures !reply.success ==> acct.buckets == old(acct.buckets) && cache.bucketsInfo == old(cache.bucketsInfo)
    ensures bucket == "" || lifecycle.None? || !JTruthy(lifecycle.value) ==>
              reply == Reply(400, false, "Bucket name and lifecycle required")
    ensures reply.success <==>
              bucket != "" && lifecycle.Some? && JTruthy(lifecycle.value) &&
              bucket in old(acct.buckets) &&
              LifecycleRules(lifecycle.value, parsed).Some? && LifecycleRules(lifecycle.value, parsed).value.JArray?
    ensures reply.success ==>
              reply == Reply(200, true, "✅ Lifecycle added to " + bucket) &&
              acct.buckets == old(acct.buckets)[bucket := old(acct.buckets)[bucket].(
                                lifecycle := Some(LifecycleRules(lifecycle.value, parsed).value.items))] &&
              cache.bucketsInfo.None?
  {
    if bucket == "" || lifecycle.None? || !JTruthy(lifecycle.value) {
      return Reply(400, false, "Bucket name and lifecycle required");
    }
    var rules := LifecycleRules(lifecycle.value, parsed);
    if rules.None? {
      return Reply(400, false, ServiceMessage("JSONDecodeError", bucket));
    }
    if !rules.value.JArray? {
      return Reply(400, false, ServiceMessage("ParamValidationError", bucket));
    }
    if bucket !in acct.buckets {
      return Reply(400, false, ServiceMessage("NoSuchBucket", bucket));
    }
    acct.buckets := acct.buckets[bucket := acct.buckets[bucket].(lifecycle := Some(rules.value.items))];
    cache.bucketsInfo := None;
    reply := Reply(200, true, "✅ Lifecycle added to " + bucket);
  }

  // =====================================================================
  // Default retention
  // =====================================================================

  /** `int(days)` on a decoded JSON value: integers as they are, booleans
      as 0 or 1, strings by decimal parsing; None where Python raises. */
  function IntOf(days: Json): Option<int>
  {
    match days
    case JNumber(n) => Some(n)
    case JBool(b) => Some(if b then 1 else 0)
    case JString(s) => ParseInt(s)
    case _ => None
  }

  /** The retention the store accepts. */
  predicate ValidRetention(mode: string, days: int)
  {
    (mode == "GOVERNANCE" || mode == "COMPLIANCE") && days > 0
  }

  /** `configure_locking`. Missing or falsy bucket, mode or days is a 400,
      and so is a `days` that `int` refuses; nothing is sent then. The store
      refuses an unknown bucket, a bucket created without object lock, and
      a retention it does not accept. */
  method ConfigureLocking(acct: S3Account, cache: SessionCache, bucket: string, mode: string, days: Option<Json>)
    returns (reply: Reply)
    requires acct.Valid()
    modifies acct, cache
    ensures acct.Valid() && acct.names == old(acct.names)
    ensures !reply.success ==> acct.buckets == old(acct.buckets) && cache.bucketsInfo == old(cache.bucketsInfo)
    ensures bucket == "" || mode == "" || days.None? || !JTruthy(days.value) ==>
              reply == Reply(400, false, "Bucket name, mode and days are required.")
    ensures bucket != "" && mode != "" && days.Some? && JTruthy(days.value) && IntOf(days.value).None? ==>
              reply == Reply(400, false, "Days must be a valid integer.")
    ensures reply.success <==>
              bucket != "" && mode != "" && days.Some? && JTruthy(days.value) && IntOf(days.value).Some? &&
              bucket in old(acct.buckets) && old(acct.buckets)[bucket].objectLock &&
              ValidRetention(mode, IntOf(days.value).value)
    ensures reply.success ==>
              var n := IntOf(days.value).value;
              reply == Reply(200, true, "✅ Locking configured: " + mode + " for " + IntText(n) + " days on " + bucket) &&
              acct.buckets == old(acct.buckets)[bucket := old(acct.buckets)[bucket].(lockRule := Some(LockRule(mode, n)))] &&
              cache.bucketsInfo.None?
  {
    if bucket == "" || mode == "" || days.None? || !JTruthy(days.value) {
      return Reply(400, false, "Bucket name, mode and days are required.");
    }
    var parsedDays := IntOf(days.value);
    if parsedDays.None? {
      return Reply(400, false, "Days must be a valid integer.");
    }
    var n := parsedDays.value;
    if bucket !in acct.buckets {
      return ServiceError("NoSuchBucket", bucket);
    }
    if !acct.buckets[bucket].objectLock {
      return ServiceError("InvalidBucketState", bucket);
    }
    if !ValidRetention(mode, n) {
      return ServiceError("InvalidArgument", bucket);
    }
    acct.buckets := acct.buckets[bucket := acct.buckets[bucket].(lockRule := Some(LockRule(mode, n)))];
    cache.bucketsInfo := None;
    reply := Reply(200, true, "✅ Locking configured: " + mode + " for " + IntText(n) + " days on " + bucket);
  }
}

=== FILE: common.dfy ===
/** Shared value types and the string and sequence operations the console
    relies on: Python's `in` on strings, `str.endswith`, `str.lower`,
    `str.strip`, `str.rstrip`, `str.split(...)[-1]` and `list.remove`. */
module Common {

  datatype Option<+T> = None | Some(value: T)

  datatype Result<+T> = Ok(value: T) | Err(message: string)

  // ---------------------------------------------------------------------
  // Substring containment (Python's `needle in hay` on two strings)
  // ---------------------------------------------------------------------

  /** `needle` occurs in `hay` starting at position `i`. */
  predicate OccursAt(needle: string, hay: string, i: int)
  {
    0 <= i && i + |needle| <= |hay| && hay[i..i + |needle|] == needle
  }

  /** `needle` occurs in `hay` at some position. */
  ghost predicate OccursIn(needle: string, hay: string)
  {
    exists i :: OccursAt(needle, hay, i)
  }

  /** Executable containment test, scanning `hay` from the left. */
  function Contains(hay: string, needle: string): (r: bool)
    ensures r <==> OccursIn(needle, hay)
    decreases |hay|
  {
    if |needle| > |hay| then
      false
    else if hay[..|needle|] == needle then
      assert OccursAt(needle, hay, 0);
      true
    else
      OccursInShift(needle, hay);
      Contains(hay[1..], needle)
  }

  /** An occurrence is either at the front or in the tail. */
  lemma OccursInShift(needle: string, hay: string)
    requires |needle| <= |hay| && hay[..|needle|] != needle
    ensures OccursIn(needle, hay) <==> OccursIn(needle, hay[1..])
  {
    if OccursIn(needle, hay) {
      var i :| OccursAt(needle, hay, i);
      assert i != 0;
      assert hay[1..][i - 1..i - 1 + |needle|] == needle;
      assert OccursAt(needle, hay[1..], i - 1);
    }
    if OccursIn(needle, hay[1..]) {
      var j :| OccursAt(needle, hay[1..], j);
      assert hay[j + 1..j + 1 + |needle|] == needle;
      assert OccursAt(needle, hay, j + 1);
    }
  }

  // ---------------------------------------------------------------------
  // Prefixes, suffixes and ASCII case folding
  // ---------------------------------------------------------------------

  predicate EndsWith(s: string, suffix: string)
  {
    |suffix| <= |s| && s[|s| - |suffix|..] == suffix
  }

  /** ASCII lower-casing of one character; other characters are unchanged. */
  function LowerChar(c: char): (r: char)
    ensures 'A' <= c <= 'Z' ==> r as int == c as int + 32
    ensures !('A' <= c <= 'Z') ==> r == c
  {
    if 'A' <= c <= 'Z' then (c as int + 32) as char else c
  }

  /** `str.lower()`, restricted to ASCII letters. */
  function Lower(s: string): (r: string)
    ensures |r| == |s|
    ensures forall i :: 0 <= i < |s| ==> r[i] == LowerChar(s[i])
  {
    seq(|s|, i requires 0 <= i < |s| => LowerChar(s[i]))
  }

  /** Case-insensitive suffix test against a suffix that is already lower
      case: `s.lower().endswith(suffix)`. */
  predicate EndsWithFolded(s: string, suffix: string)
  {
    EndsWith(Lower(s), suffix)
  }

  // ---------------------------------------------------------------------
  // Stripping
  // ---------------------------------------------------------------------

  /** The ASCII characters `str.strip()` removes: space, tab, line feed,
      carriage return, vertical tab, form feed and the four separators
      0x1C-0x1F. */
  const Spaces: set<char> := {' ', '\t', '\n', '\r', '\U{B}', '\U{C}', '\U{1C}', '\U{1D}', '\U{1E}', '\U{1F}'}

  /** Removes every leading character in `drop`. */
  function TrimLeft(s: string, drop: set<char>): (r: string)
    ensures |r| <= |s|
    ensures r == [] || r[0] !in drop
    ensures forall i :: 0 <= i < |s| - |r| ==> s[i] in drop
  {
    if s != [] && s[0] in drop then TrimLeft(s[1..], drop) else s
  }

  /** What is left after stripping from the left is a suffix of the input. */
  lemma {:induction false} TrimLeftSuffix(s: string, drop: set<char>)
    ensures TrimLeft(s, drop) == s[|s| - |TrimLeft(s, drop)|..]
  {
    if s != [] && s[0] in drop {
      TrimLeftSuffix(s[1..], drop);
      assert s[1..][|s| - 1 - |TrimLeft(s, drop)|..] == s[|s| - |TrimLeft(s, drop)|..];
    }
  }

  /** Removes every trailing character in `drop`. */
  function TrimRight(s: string, drop: set<char>): (r: string)
    ensures |r| <= |s| && r == s[..|r|]
    ensures r == [] || r[|r| - 1] !in drop
    ensures forall i :: |r| <= i < |s| ==> s[i] in drop
  {
    if s != [] && s[|s| - 1] in drop then TrimRight(s[..|s| - 1], drop) else s
  }

  /** `s.strip()` (ASCII whitespace). */
  function StripSpace(s: string): (r: string)
  {
    TrimRight(TrimLeft(s, Spaces), Spaces)
  }

  /** `s.strip(c)`: drop every leading and trailing `c`. */
  function StripChar(s: string, c: char): (r: string)
    ensures r == [] || (r[0] != c && r[|r| - 1] != c)
  {
    TrimRight(TrimLeft(s, {c}), {c})
  }

  /** `s.rstrip(c)`. */
  function RStripChar(s: string, c: char): (r: string)
    ensures r == [] || r[|r| - 1] != c
  {
    TrimRight(s, {c})
  }

  // ---------------------------------------------------------------------
  // Splitting and joining on a separator
  // ---------------------------------------------------------------------

  /** `s.split(sep)[-1]`: everything after the last `sep`, or `s` itself. */
  function LastSegment(s: string, sep: char): (r: string)
    ensures sep !in r
    decreases |s|
  {
    if s == [] then []
    else if s[|s| - 1] == sep then []
    else LastSegment(s[..|s| - 1], sep) + [s[|s| - 1]]
  }

  /** The last segment is a suffix, preceded by the separator when it is
      not the whole string. */
  lemma {:induction false} LastSegmentSuffix(s: string, sep: char)
    ensures var r := LastSegment(s, sep);
            EndsWith(s, r) && (|r| < |s| ==> s[|s| - |r| - 1] == sep)
    decreases |s|
  {
    if s != [] && s[|s| - 1] != sep {
      var init := s[..|s| - 1];
      LastSegmentSuffix(init, sep);
      var r0 := LastSegment(init, sep);
      assert s[|s| - |r0| - 1..] == init[|init| - |r0|..] + [s[|s| - 1]];
    }
  }

  /** `sep.join(parts)` for a one-character separator. */
  function Join(parts: seq<string>, sep: char): (r: string)
    decreases |parts|
  {
    if parts == [] then []
    else if |parts| == 1 then parts[0]
    else Join(parts[..|parts| - 1], sep) + [sep] + parts[|parts| - 1]
  }

  // ---------------------------------------------------------------------
  // Lists
  // ---------------------------------------------------------------------

  /** `list.remove(x)` guarded by `x in list`: drops the first occurrence. */
  function RemoveFirst<T(==)>(s: seq<T>, x: T): (r: seq<T>)
    ensures x !in s ==> r == s
    ensures x in s ==> |r| == |s| - 1
    ensures multiset(r) == multiset(s) - multiset{x}
  {
    if s == [] then []
    else
      assert s == [s[0]] + s[1..];
      if s[0] == x then s[1..] else [s[0]] + RemoveFirst(s[1..], x)
  }

  /** The occurrence removed is the first one: what precedes it is kept,
      and so is everything after it. */
  lemma {:induction false} RemoveFirstAt<T>(s: seq<T>, x: T)
    requires x in s
    ensures exists k :: 0 <= k < |s| && s[k] == x && x !in s[..k] && RemoveFirst(s, x) == s[..k] + s[k + 1..]
  {
    if s[0] == x {
      assert s[..0] + s[1..] == s[1..];
      assert 0 < |s| && s[0] == x && x !in s[..0] && RemoveFirst(s, x) == s[..0] + s[0 + 1..];
    } else {
      var t := s[1..];
      assert x in t by {
        assert s == [s[0]] + t;
      }
      RemoveFirstAt(t, x);
      var k :| 0 <= k < |t| && t[k] == x && x !in t[..k] && RemoveFirst(t, x) == t[..k] + t[k + 1..];
      DropAfterHead(s, k);
      FirstAfterHead(s, x, k);
      var j := k + 1;
      assert RemoveFirst(s, x) == s[..j] + s[j + 1..];
    }
  }

  /** A first occurrence at `k` in the tail, behind a different head, is a
      first occurrence at `k + 1`. */
  lemma FirstAfterHead<T>(s: seq<T>, x: T, k: nat)
    requires k + 1 < |s| && s[0] != x && s[1..][k] == x && x !in s[1..][..k]
    ensures s[k + 1] == x && x !in s[..k + 1]
  {
    assert s[..k + 1] == [s[0]] + s[1..][..k];
  }

  /** Dropping position `k` of the tail is dropping position `k + 1`. */
  lemma DropAfterHead<T>(s: seq<T>, k: nat)
    requires k + 1 < |s|
    ensures [s[0]] + (s[1..][..k] + s[1..][k + 1..]) == s[..k + 1] + s[k + 2..]
  {
    assert s[..k + 1] == [s[0]] + s[1..][..k];
    assert s[k + 2..] == s[1..][k + 1..];
  }

  /** `[x for x in xs if key_of(x) != key]`: the elements stored under
      another key, in their order. Both the tag sets of a bucket and the
      objects of a bucket are filtered this way. */
  function WithoutKey<T>(xs: seq<T>, keyOf: T -> string, key: string): (r: seq<T>)
    ensures |r| <= |xs|
  {
    if xs == [] then []
    else
      var init := xs[..|xs| - 1];
      var last := xs[|xs| - 1];
      WithoutKey(init, keyOf, key) + (if keyOf(last) == key then [] else [last])
  }

  /** The filter keeps exactly the elements with another key, and keeps
      them all exactly when no element has the key. */
  lemma {:induction false} WithoutKeyMembers<T>(xs: seq<T>, keyOf: T -> string, key: string)
    ensures forall x :: x in WithoutKey(xs, keyOf, key) <==> x in xs && keyOf(x) != key
    ensures |WithoutKey(xs, keyOf, key)| == |xs| <==> forall x :: x in xs ==> keyOf(x) != key
  {
    if xs != [] {
      var init := xs[..|xs| - 1];
      var last := xs[|xs| - 1];
      assert xs == init + [last];
      WithoutKeyMembers(init, keyOf, key);
    }
  }

  /** Filtering keeps the relative order of what it keeps. */
  lemma {:induction false} WithoutKeyAppend<T>(a: seq<T>, b: seq<T>, keyOf: T -> string, key: string)
    ensures WithoutKey(a + b, keyOf, key) == WithoutKey(a, keyOf, key) + WithoutKey(b, keyOf, key)
  {
    if b == [] {
      assert a + b == a;
    } else {
      var binit := b[..|b| - 1];
      var last := b[|b| - 1];
      var kept := if keyOf(last) == key then [] else [last];
      assert (a + b)[..|a + b| - 1] == a + binit;
      assert (a + b)[|a + b| - 1] == last;
      assert WithoutKey(a + b, keyOf, key) == WithoutKey(a + binit, keyOf, key) + kept;
      assert WithoutKey(b, keyOf, key) == WithoutKey(binit, keyOf, key) + kept;
      WithoutKeyAppend(a, binit, keyOf, key);
    }
  }

  /** Filtering twice is filtering once. */
  lemma {:induction false} WithoutKeyTwice<T>(xs: seq<T>, keyOf: T -> string, key: string)
    ensures WithoutKey(WithoutKey(xs, keyOf, key), keyOf, key) == WithoutKey(xs, keyOf, key)
  {
    if xs != [] {
      var init := xs[..|xs| - 1];
      var last := xs[|xs| - 1];
      WithoutKeyTwice(init, keyOf, key);
      var kept := if keyOf(last) == key then [] else [last];
      WithoutKeyAppend(WithoutKey(init, keyOf, key), kept, keyOf, key);
      if keyOf(last) != key {
        assert [last][..0] == [];
      }
    }
  }

  /** No element appears twice. */
  predicate Distinct<T(==)>(s: seq<T>)
  {
    forall i, j :: 0 <= i < j < |s| ==> s[i] != s[j]
  }

  // ---------------------------------------------------------------------
  // Integers written in decimal
  // ---------------------------------------------------------------------

  predicate IsDigit(c: char)
  {
    '0' <= c <= '9'
  }

  /** The value of a run of decimal digits, most significant first. */
  function DigitsValue(ds: string): (n: nat)
    requires forall i :: 0 <= i < |ds| ==> IsDigit(ds[i])
  {
    if ds == [] then 0
    else
      assert IsDigit(ds[|ds| - 1]);
      DigitsValue(ds[..|ds| - 1]) * 10 + (ds[|ds| - 1] as int - '0' as int)
  }

  /** `int(s)` on text: surrounding whitespace, an optional sign and at
      least one decimal digit; None where Python raises ValueError. */
  function ParseInt(s: string): (r: Option<int>)
    ensures r.Some? ==> StripSpace(s) != []
  {
    var t := StripSpace(s);
    var negative := t != [] && t[0] == '-';
    var digits := if t != [] && (t[0] == '-' || t[0] == '+') then t[1..] else t;
    if digits != [] && forall i :: 0 <= i < |digits| ==> IsDigit(digits[i]) then
      var v: int := DigitsValue(digits);
      Some(if negative then -v else v)
    else
      None
  }

  /** `str(n)` for an integer. */
  function IntText(n: int): (r: string)
    ensures r != []
    decreases if n < 0 then -n + 1 else n
  {
    if n < 0 then "-" + IntText(-n)
    else if n < 10 then [('0' as int + n) as char]
    else IntText(n / 10) + [('0' as int + n % 10) as char]
  }

  // ---------------------------------------------------------------------
  // Errors reported by the remote services
  // ---------------------------------------------------------------------

  /** The text of an error a remote service reports, for an error code and
      its subject; the model does not reproduce the services' wording. */
  function ServiceMessage(code: string, subject: string): string
  {
    code + ": " + subject
  }
}

=== FILE: dashboard.dfy ===
/** The dashboard figures (helpers/dashboard.py): each bucket's total size
    and object count, read page by page from the object store; the
    per-bucket table, filtered by name or cut to the five largest; and the
    object-count view of that table. */
module Dashboard {
  import opened Common

  // =====================================================================
  // Reading one bucket page by page
  // =====================================================================

  /** One answer of the paginated object listing: the sizes of the objects
      on the page (None where an object carries no size) and whether more
      pages follow; or a failed call. */
  datatype PageReply = PageOk(sizes: seq<Option<nat>>, truncated: bool) | PageError

  /** `obj.get("Size", 0)` */
  function SizeOrZero(size: Option<nat>): nat
  {
    if size.Some? then size.value else 0
  }

  /** The sum of the sizes on a page, a missing size counting as 0. */
  function PageSize(sizes: seq<Option<nat>>): nat
  {
    if sizes == [] then 0 else PageSize(sizes[..|sizes| - 1]) + SizeOrZero(sizes[|sizes| - 1])
  }

  lemma {:induction false} PageSizeAppend(a: seq<Option<nat>>, b: seq<Option<nat>>)
    ensures PageSize(a + b) == PageSize(a) + PageSize(b)
  {
    if b == [] {
      assert a + b == a;
    } else {
      assert (a + b)[..|a + b| - 1] == a + b[..|b| - 1];
      PageSizeAppend(a, b[..|b| - 1]);
    }
  }

  /** The totals the listing loop reaches when the store answers the
      successive calls with `pages`: a page is added and the next one
      requested while it says it is truncated. A failed call ends the loop
      with what was added so far, and so does running out of answers. */
  function ListingTotals(pages: seq<PageReply>): (nat, nat)
  {
    if pages == [] then (0, 0)
    else
      match pages[0]
      case PageError => (0, 0)
      case PageOk(sizes, truncated) =>
        var rest := if truncated then ListingTotals(pages[1..]) else (0, 0);
        (PageSize(sizes) + rest.0, |sizes| + rest.1)
  }

  /** The sizes on the successful pages, in order. */
  function AllSizes(pages: seq<PageReply>): seq<Option<nat>>
  {
    if pages == [] then []
    else (if pages[0].PageOk? then pages[0].sizes else []) + AllSizes(pages[1..])
  }

  /** Pages before `k` all arrived and all said more would follow. */
  predicate ReadThrough(pages: seq<PageReply>, k: nat)
  {
    k <= |pages| && forall j :: 0 <= j < k ==> pages[j].PageOk? && pages[j].truncated
  }

  /** Through pages that all arrived truncated, the totals are those of
      their objects plus what the rest of the listing adds. */
  lemma {:induction false} ListingTotalsSplit(pages: seq<PageReply>, k: nat)
    requires ReadThrough(pages, k)
    ensures ListingTotals(pages).0 == PageSize(AllSizes(pages[..k])) + ListingTotals(pages[k..]).0
    ensures ListingTotals(pages).1 == |AllSizes(pages[..k])| + ListingTotals(pages[k..]).1
    decreases k
  {
    if k == 0 {
      assert pages[..0] == [] && pages[0..] == pages;
    } else {
      var tail := pages[1..];
      assert ReadThrough(tail, k - 1) by {
        forall j | 0 <= j < k - 1 ensures tail[j].PageOk? && tail[j].truncated {
          assert tail[j] == pages[j + 1];
        }
      }
      ListingTotalsSplit(tail, k - 1);
      assert tail[k - 1..] == pages[k..];
      assert pages[..k][1..] == tail[..k - 1];
      assert pages[..k][0] == pages[0];
      PageSizeAppend(pages[0].sizes, AllSizes(tail[..k - 1]));
    }
  }

  /** A listing that runs to its last page without failing counts every
      object once and adds up every size. */
  lemma CompleteListingTotals(pages: seq<PageReply>)
    requires pages != [] && ReadThrough(pages, |pages| - 1)
    requires pages[|pages| - 1].PageOk? && !pages[|pages| - 1].truncated
    ensures ListingTotals(pages) == (PageSize(AllSizes(pages)), |AllSizes(pages)|)
  {
    var k := |pages| - 1;
    ListingTotalsSplit(pages, k);
    var last := pages[k..];
    var sizes := pages[k].sizes;
    assert last == [pages[k]];
    assert last[1..] == [];
    assert AllSizes(last) == sizes by {
      assert AllSizes(last) == sizes + AllSizes([]);
      assert sizes + [] == sizes;
    }
    assert ListingTotals(last) == (PageSize(sizes), |sizes|);
    AllSizesAppend(pages[..k], last);
    assert pages[..k] + last == pages;
    assert AllSizes(pages) == AllSizes(pages[..k]) + sizes;
    PageSizeAppend(AllSizes(pages[..k]), sizes);
  }

  lemma {:induction false} AllSizesAppend(a: seq<PageReply>, b: seq<PageReply>)
    ensures AllSizes(a + b) == AllSizes(a) + AllSizes(b)
  {
    if a != [] {
      assert (a + b)[1..] == a[1..] + b;
      AllSizesAppend(a[1..], b);
    } else {
      assert a + b == b;
    }
  }

  /** A call that fails after `k` good pages leaves the totals of those
      pages: the error is swallowed and the partial figures returned. */
  lemma FailureKeepsPartialTotals(pages: seq<PageReply>, k: nat)
    requires ReadThrough(pages, k) && k < |pages| && pages[k] == PageError
    ensures ListingTotals(pages) == (PageSize(AllSizes(pages[..k])), |AllSizes(pages[..k])|)
  {
    ListingTotalsSplit(pages, k);
  }

  /** `get_bucket_size_and_count`: request pages while they say more
      follow, adding each object's size and counting it. The index of the
      next answer stands for the continuation token. */
  method GetBucketSizeAndCount(pages: seq<PageReply>) returns (totalSize: nat, totalObjects: nat)
    ensures (totalSize, totalObjects) == ListingTotals(pages)
  {
    totalSize, totalObjects := 0, 0;
    var next := 0;
    while true
      invariant 0 <= next <= |pages|
      invariant totalSize + ListingTotals(pages[next..]).0 == ListingTotals(pages).0
      invariant totalObjects + ListingTotals(pages[next..]).1 == ListingTotals(pages).1
      decreases |pages| - next
    {
      if next == |pages| {
        break;
      }
      if pages[next].PageError? {
        break;
      }
      var sizes := pages[next].sizes;
      var size0, count0 := totalSize, totalObjects;
      for j := 0 to |sizes|
        invariant totalSize == size0 + PageSize(sizes[..j])
        invariant totalObjects == count0 + j
      {
        assert sizes[..j + 1][..j] == sizes[..j];
        totalSize := totalSize + SizeOrZero(sizes[j]);
        totalObjects := totalObjects + 1;
      }
      assert sizes[..|sizes|] == sizes;
      if !pages[next].truncated {
        break;
      }
      assert pages[next..][1..] == pages[next + 1..];
      next := next + 1;
    }
  }

  // =====================================================================
  // The bucket table
  // =====================================================================

  /** A bucket as listed, with the answers its object listing gets. */
  datatype BucketListing = BucketListing(name: string, pages: seq<PageReply>)

  /** One row of the table. */
  datatype Entry = Entry(bucket: string, sizeBytes: nat, objectCount: nat)

  function EntryOf(b: BucketListing): Entry
  {
    Entry(b.name, ListingTotals(b.pages).0, ListingTotals(b.pages).1)
  }

  /** The name filter: an empty filter keeps everything, otherwise the name
      must contain the filter, both lower-cased. */
  predicate Matches(filter: string, name: string)
  {
    filter == "" || Contains(Lower(name), Lower(filter))
  }

  /** The rows of the matching buckets, in listing order. */
  function EntriesOf(buckets: seq<BucketListing>, filter: string): seq<Entry>
  {
    if buckets == [] then []
    else
      var b := buckets[|buckets| - 1];
      EntriesOf(buckets[..|buckets| - 1], filter) + (if Matches(filter, b.name) then [EntryOf(b)] else [])
  }

  /** A row is present exactly for each matching bucket. */
  lemma {:induction false} EntriesOfMembers(buckets: seq<BucketListing>, filter: string, e: Entry)
    ensures e in EntriesOf(buckets, filter) <==>
            exists i :: 0 <= i < |buckets| && Matches(filter, buckets[i].name) && e == EntryOf(buckets[i])
  {
    if buckets != [] {
      var init := buckets[..|buckets| - 1];
      EntriesOfMembers(init, filter, e);
      assert forall i :: 0 <= i < |init| ==> init[i] == buckets[i];
      if e in EntriesOf(init, filter) {
        var i :| 0 <= i < |init| && Matches(filter, init[i].name) && e == EntryOf(init[i]);
        assert buckets[i] == init[i];
      }
    }
  }

  /** Without a filter there is one row per bucket, in listing order. */
  lemma {:induction false} EntriesOfNoFilter(buckets: seq<BucketListing>)
    ensures |EntriesOf(buckets, "")| == |buckets|
    ensures forall i :: 0 <= i < |buckets| ==> EntriesOf(buckets, "")[i] == EntryOf(buckets[i])
  {
    if buckets != [] {
      EntriesOfNoFilter(buckets[..|buckets| - 1]);
    }
  }

  /** The table is ordered by size, largest first. */
  predicate SortedDesc(s: seq<Entry>)
  {
    forall i, j :: 0 <= i < j < |s| ==> s[i].sizeBytes >= s[j].sizeBytes
  }

  /** Inserts `e` after every row at least as large, as a stable sort
      places a later element. */
  function InsertDesc(e: Entry, s: seq<Entry>): (r: seq<Entry>)
    ensures multiset(r) == multiset(s) + multiset{e}
    ensures r[0] == e || (s != [] && r[0] == s[0])
  {
    if s == [] then [e]
    else if s[0].sizeBytes >= e.sizeBytes then
      assert s == [s[0]] + s[1..];
      [s[0]] + InsertDesc(e, s[1..])
    else [e] + s
  }

  /** Inserting into a sorted table keeps it sorted. */
  lemma {:induction false} InsertDescSorted(e: Entry, s: seq<Entry>)
    requires SortedDesc(s)
    ensures SortedDesc(InsertDesc(e, s))
  {
    if s != [] && s[0].sizeBytes >= e.sizeBytes {
      var rest := InsertDesc(e, s[1..]);
      InsertDescSorted(e, s[1..]);
      var r := [s[0]] + rest;
      forall i, j | 0 <= i < j < |r| ensures r[i].sizeBytes >= r[j].sizeBytes {
        if i == 0 {
          assert r[j] in multiset(rest);
          assert r[j] == e || r[j] in s[1..];
        } else {
          assert r[i] == rest[i - 1] && r[j] == rest[j - 1];
        }
      }
    }
  }

  /** `sort(key=Size_Bytes, reverse=True)` */
  function SortDesc(s: seq<Entry>): (r: seq<Entry>)
    ensures SortedDesc(r)
    ensures multiset(r) == multiset(s)
  {
    if s == [] then []
    else
      assert s == s[..|s| - 1] + [s[|s| - 1]];
      var sorted := SortDesc(s[..|s| - 1]);
      InsertDescSorted(s[|s| - 1], sorted);
      InsertDesc(s[|s| - 1], sorted)
  }

  /** `[:5]` */
  function TopFive(s: seq<Entry>): seq<Entry>
  {
    if |s| <= 5 then s else s[..5]
  }

  /** `get_bucket_data`: the matching rows; with no filter, the five largest
      buckets, largest first. A failed bucket listing gives no rows. */
  function BucketData(buckets: Option<seq<BucketListing>>, filter: string): seq<Entry>
  {
    if buckets.None? then []
    else if filter == "" then TopFive(SortDesc(EntriesOf(buckets.value, "")))
    else EntriesOf(buckets.value, filter)
  }

  /** The unfiltered table holds at most five rows, largest first, drawn
      from the buckets' rows; every row left out is no larger than any row
      kept. */
  lemma TopFiveAreLargest(buckets: seq<BucketListing>)
    ensures var all := EntriesOf(buckets, "");
            var data := BucketData(Some(buckets), "");
            |data| == (if |all| < 5 then |all| else 5) &&
            SortedDesc(data) &&
            multiset(data) <= multiset(all) &&
            forall e: Entry, d: Entry :: e in multiset(all) - multiset(data) && d in data ==> e.sizeBytes <= d.sizeBytes
  {
    TopFiveOfSorted(EntriesOf(buckets, ""));
  }

  /** The same for any list of rows: the first five of the sorted list. */
  lemma TopFiveOfSorted(all: seq<Entry>)
    ensures var data := TopFive(SortDesc(all));
            |data| == (if |all| < 5 then |all| else 5) &&
            SortedDesc(data) &&
            multiset(data) <= multiset(all) &&
            forall e: Entry, d: Entry :: e in multiset(all) - multiset(data) && d in data ==> e.sizeBytes <= d.sizeBytes
  {
    var sorted := SortDesc(all);
    assert |sorted| == |all| by {
      assert |multiset(sorted)| == |multiset(all)|;
    }
    if |sorted| > 5 {
      SortedCut(sorted, 5);
    } else {
      assert TopFive(sorted) == sorted;
    }
  }

  /** Cutting a sorted list after `k` rows keeps a sorted part whose rows
      are each at least as large as every row cut off. */
  lemma SortedCut(sorted: seq<Entry>, k: nat)
    requires SortedDesc(sorted) && k <= |sorted|
    ensures SortedDesc(sorted[..k])
    ensures multiset(sorted[..k]) <= multiset(sorted)
    ensures multiset(sorted) - multiset(sorted[..k]) == multiset(sorted[k..])
    ensures forall e: Entry, d: Entry :: e in multiset(sorted) - multiset(sorted[..k]) && d in sorted[..k] ==> e.sizeBytes <= d.sizeBytes
  {
    assert sorted == sorted[..k] + sorted[k..];
    assert multiset(sorted) == multiset(sorted[..k]) + multiset(sorted[k..]);
    SortedPrefixDominates(sorted, k);
  }

  /** In a sorted table every row after position `k` is no larger than any
      row before it. */
  lemma SortedPrefixDominates(sorted: seq<Entry>, k: nat)
    requires SortedDesc(sorted) && k <= |sorted|
    ensures forall e: Entry, d: Entry :: e in multiset(sorted[k..]) && d in sorted[..k] ==> e.sizeBytes <= d.sizeBytes
  {
    forall e: Entry, d: Entry | e in multiset(sorted[k..]) && d in sorted[..k]
      ensures e.sizeBytes <= d.sizeBytes
    {
      var j :| 0 <= j < |sorted[k..]| && sorted[k..][j] == e;
      var i :| 0 <= i < k && sorted[..k][i] == d;
      assert sorted[i] == d && sorted[j + k] == e;
    }
  }

  /** With a filter, the table holds exactly the rows of the buckets whose
      name contains the filter ignoring case, with no cut. */
  lemma FilteredRows(buckets: seq<BucketListing>, filter: string, e: Entry)
    requires filter != ""
    ensures e in BucketData(Some(buckets), filter) <==>
            exists i :: 0 <= i < |buckets| && Contains(Lower(buckets[i].name), Lower(filter)) && e == EntryOf(buckets[i])
  {
    EntriesOfMembers(buckets, filter, e);
  }

  /** The loop of `get_bucket_data`: each matching bucket is read page by
      page and its row appended; then, without a filter, the rows are
      sorted and cut to five. */
  method GetBucketData(buckets: Option<seq<BucketListing>>, filter: string) returns (data: seq<Entry>)
    ensures data == BucketData(buckets, filter)
  {
    if buckets.None? {
      return [];
    }
    var bs := buckets.value;
    data := [];
    for i := 0 to |bs|
      invariant data == EntriesOf(bs[..i], filter)
    {
      assert bs[..i + 1][..i] == bs[..i];
      var name := bs[i].name;
      if filter != "" && !Contains(Lower(name), Lower(filter)) {
        continue;
      }
      var size, count := GetBucketSizeAndCount(bs[i].pages);
      data := data + [Entry(name, size, count)];
    }
    assert bs[..|bs|] == bs;
    if filter == "" {
      data := TopFive(SortDesc(data));
    }
  }

  /** `get_all_buckets_stats`: one row per bucket, no filter and no cut. */
  method GetAllBucketsStats(buckets: Option<seq<BucketListing>>) returns (data: seq<Entry>)
    ensures buckets.None? ==> data == []
    ensures buckets.Some? ==>
              |data| == |buckets.value| &&
              forall i :: 0 <= i < |data| ==> data[i] == EntryOf(buckets.value[i])
  {
    if buckets.None? {
      return [];
    }
    var bs := buckets.value;
    data := [];
    for i := 0 to |bs|
      invariant |data| == i
      invariant forall j :: 0 <= j < i ==> data[j] == EntryOf(bs[j])
    {
      var size, count := GetBucketSizeAndCount(bs[i].pages);
      data := data + [Entry(bs[i].name, size, count)];
    }
  }

  /** The unfiltered dashboard table is the top five of the full stats. */
  lemma DashboardIsTopOfStats(buckets: seq<BucketListing>, stats: seq<Entry>)
    requires |stats| == |buckets| && forall i :: 0 <= i < |stats| ==> stats[i] == EntryOf(buckets[i])
    ensures BucketData(Some(buckets), "") == TopFive(SortDesc(stats))
  {
    EntriesOfNoFilter(buckets);
    assert EntriesOf(buckets, "") == stats;
  }

  /** One row of the object-count view. */
  datatype CountEntry = CountEntry(bucket: string, objectCount: nat)

  /** `get_object_count_data`: the same buckets in the same order, with
      only the name and the count. */
  method GetObjectCountData(buckets: Option<seq<BucketListing>>, filter: string) returns (counts: seq<CountEntry>)
    ensures var data := BucketData(buckets, filter);
            |counts| == |data| &&
            forall i :: 0 <= i < |counts| ==> counts[i] == CountEntry(data[i].bucket, data[i].objectCount)
  {
    var data := GetBucketData(buckets, filter);
    counts := [];
    for i := 0 to |data|
      invariant |counts| == i
      invariant forall j :: 0 <= j < i ==> counts[j] == CountEntry(data[j].bucket, data[j].objectCount)
    {
      counts := counts + [CountEntry(data[i].bucket, data[i].objectCount)];
    }
  }
}

=== FILE: iam.dfy ===
/** The identity-service side of the console (the IAM part of
    helpers/aws.py): classifying the logged-in caller, and creating access
    keys under the two-active-keys cap. The service's users, keys and inline
    policies are held in one mutable account object. */
module Iam {
  import opened Common

  // =====================================================================
  // Classifying the caller
  // =====================================================================

  /** What `get_user` answers: the caller's record (each field may be
      absent), or a client error with its code and rendered text. */
  datatype GetUserReply =
    | UserRecord(userName: Option<string>, userId: Option<string>, arn: Option<string>, createDate: Option<string>)
    | ClientError(code: string, text: string)

  /** The user-type test: the ARN contains ":root" anywhere. */
  predicate IsRootAccountArn(arn: string)
  {
    Contains(arn, ":root")
  }

  /** `str(x)` of an optional string. */
  function Str(o: Option<string>): string
  {
    match o
    case Some(s) => s
    case None => "None"
  }

  /** The dictionary `get_user_type` returns, keyed by field name; a value
      is None where Python holds None. */
  type Info = map<string, Option<string>>

  /** `get_user_type`. */
  function GetUserType(reply: GetUserReply): (info: Info)
    ensures "type" in info
    ensures info["type"] == Some("Root Account") <==>
              reply.UserRecord? && OccursIn(":root", if reply.arn.Some? then reply.arn.value else "")
    ensures info["type"] == Some("IAM User") <==>
              (reply.UserRecord? && !OccursIn(":root", if reply.arn.Some? then reply.arn.value else "")) ||
              (reply.ClientError? && reply.code == "AccessDenied")
    ensures info["type"] == Some("System User") <==> reply.ClientError? && reply.code == "MethodNotAllowed"
    ensures info["type"] == Some("Unknown") <==>
              reply.ClientError? && reply.code != "MethodNotAllowed" && reply.code != "AccessDenied"
    ensures info["type"] == Some("Unknown") ==> "error" in info && info["error"] == Some(reply.text)
  {
    match reply
    case UserRecord(name, id, arnField, created) =>
      var arn := if arnField.Some? then arnField.value else "";
      map["type" := Some(if IsRootAccountArn(arn) then "Root Account" else "IAM User"),
          "UserName" := name,
          "UserId" := id,
          "Arn" := Some(arn),
          "CreateDate" := Some(Str(created))]
    case ClientError(code, text) =>
      if code == "MethodNotAllowed" then map["type" := Some("System User")]
      else if code == "AccessDenied" then map["type" := Some("IAM User")]
      else map["type" := Some("Unknown"), "error" := Some(text)]
  }

  // =====================================================================
  // Access keys
  // =====================================================================

  datatype KeyStatus = Active | Inactive

  datatype AccessKey = AccessKey(id: string, secret: string, status: KeyStatus)

  /** `sum(1 for k in keys if k["Status"] == "Active")` */
  function CountActive(keys: seq<AccessKey>): (n: nat)
    ensures n <= |keys|
  {
    if keys == [] then 0
    else CountActive(keys[..|keys| - 1]) + (if keys[|keys| - 1].status == Active then 1 else 0)
  }

  lemma {:induction false} CountActiveAppend(a: seq<AccessKey>, b: seq<AccessKey>)
    ensures CountActive(a + b) == CountActive(a) + CountActive(b)
  {
    if b == [] {
      assert a + b == a;
    } else {
      assert (a + b)[..|a + b| - 1] == a + b[..|b| - 1];
      CountActiveAppend(a, b[..|b| - 1]);
    }
  }

  /** The statuses of a key list, in order. */
  function Statuses(keys: seq<AccessKey>): (r: seq<KeyStatus>)
    ensures |r| == |keys| && forall i :: 0 <= i < |keys| ==> r[i] == keys[i].status
  {
    seq(|keys|, i requires 0 <= i < |keys| => keys[i].status)
  }

  /** The count is the number of occurrences of Active among the statuses. */
  lemma {:induction false} CountActiveIsMultiplicity(keys: seq<AccessKey>)
    ensures CountActive(keys) == multiset(Statuses(keys))[Active]
  {
    if keys != [] {
      var init := keys[..|keys| - 1];
      CountActiveIsMultiplicity(init);
      assert Statuses(keys) == Statuses(init) + [keys[|keys| - 1].status];
    }
  }

  /** Changing one key's status moves the count by that key alone. */
  lemma {:induction false} CountActiveUpdate(keys: seq<AccessKey>, i: nat, k: AccessKey)
    requires i < |keys|
    ensures CountActive(keys[i := k]) ==
            CountActive(keys) - (if keys[i].status == Active then 1 else 0) + (if k.status == Active then 1 else 0)
  {
    assert keys == keys[..i] + [keys[i]] + keys[i + 1..];
    assert keys[i := k] == keys[..i] + [k] + keys[i + 1..];
    CountActiveAppend(keys[..i] + [keys[i]], keys[i + 1..]);
    CountActiveAppend(keys[..i], [keys[i]]);
    CountActiveAppend(keys[..i] + [k], keys[i + 1..]);
    CountActiveAppend(keys[..i], [k]);
    assert [keys[i]][..0] == [] && [k][..0] == [];
  }

  /** Deleting one key never raises the count. */
  lemma {:induction false} CountActiveRemove(keys: seq<AccessKey>, i: nat)
    requires i < |keys|
    ensures CountActive(keys[..i] + keys[i + 1..]) ==
            CountActive(keys) - (if keys[i].status == Active then 1 else 0)
  {
    assert keys == keys[..i] + [keys[i]] + keys[i + 1..];
    CountActiveAppend(keys[..i] + [keys[i]], keys[i + 1..]);
    CountActiveAppend(keys[..i], [keys[i]]);
    CountActiveAppend(keys[..i], keys[i + 1..]);
    assert [keys[i]][..0] == [];
  }

  /** Position of the key with that id, if any. */
  function KeyIndex(keys: seq<AccessKey>, id: string): (r: Option<nat>)
    ensures r.Some? ==> r.value < |keys| && keys[r.value].id == id
    ensures r.None? ==> forall i :: 0 <= i < |keys| ==> keys[i].id != id
  {
    if keys == [] then None
    else if keys[0].id == id then Some(0)
    else
      match KeyIndex(keys[1..], id)
      case None => None
      case Some(k) => Some(k + 1)
  }

  /** An inline policy statement and document. */
  datatype PolicyStatement = PolicyStatement(effect: string, action: string, resource: string)
  datatype PolicyDocument = PolicyDocument(version: string, statements: seq<PolicyStatement>)

  /** The identity service's account: each user's access keys in creation
      order and inline policies by name. */
  class IamAccount {
    var keys: map<string, seq<AccessKey>>
    var policies: map<string, map<string, PolicyDocument>>

    /** Every user has a policy table, and key ids are unique per user. */
    ghost predicate Valid()
      reads this
    {
      policies.Keys == keys.Keys && UniqueKeyIds(keys)
    }

    constructor ()
      ensures Valid() && keys == map[] && policies == map[]
    {
      keys := map[];
      policies := map[];
    }

    /** No user holds more than two active keys. */
    ghost predicate AtMostTwoActive()
      reads this
    {
      TwoActiveAtMost(keys)
    }
  }

  /** No two keys of the list share an id. */
  predicate DistinctIds(ks: seq<AccessKey>)
  {
    forall i, j :: 0 <= i < j < |ks| ==> ks[i].id != ks[j].id
  }

  predicate UniqueKeyIds(keys: map<string, seq<AccessKey>>)
  {
    forall u :: u in keys ==> DistinctIds(keys[u])
  }

  predicate TwoActiveAtMost(keys: map<string, seq<AccessKey>>)
  {
    forall u :: u in keys ==> CountActive(keys[u]) <= 2
  }

  /** Replacing one user's key list keeps both account-wide properties as
      long as the new list has them. */
  lemma ReplaceKeyList(keys: map<string, seq<AccessKey>>, user: string, ks: seq<AccessKey>)
    requires UniqueKeyIds(keys) && DistinctIds(ks)
    ensures UniqueKeyIds(keys[user := ks])
    ensures TwoActiveAtMost(keys) && CountActive(ks) <= 2 ==> TwoActiveAtMost(keys[user := ks])
  {
  }

  /** Appending a key with a fresh id keeps the ids distinct. */
  lemma AppendKeyDistinct(keys: seq<AccessKey>, k: AccessKey)
    requires DistinctIds(keys) && forall e :: e in keys ==> e.id != k.id
    ensures DistinctIds(keys + [k])
  {
    var added := keys + [k];
    forall i, j | 0 <= i < j < |added| ensures added[i].id != added[j].id {
      if j == |keys| { assert added[i] in keys; }
    }
  }

  /** What `create_access_key` answers. */
  datatype KeyCreation = KeyCreated(accessKeyId: string, secretAccessKey: string) | KeyFailed(message: string)

  /** `create_access_key`: an unknown user is reported as not existing; a
      user with two or more active keys is refused and nothing is created.
      Otherwise the create call is made: when the service refuses it with
      the error code in `createCode`, nothing is created and the error is
      reported ("NoSuchEntity" as the user not existing, any other code as
      the service's message); when it succeeds, one new active key with the
      id and secret the service generates (`newId`, `newSecret`) is
      appended and returned. */
  method CreateAccessKey(acct: IamAccount, user: string, newId: string, newSecret: string,
                         createCode: Option<string>)
    returns (res: KeyCreation)
    requires acct.Valid()
    requires user in acct.keys ==> forall k :: k in acct.keys[user] ==> k.id != newId
    modifies acct
    ensures acct.Valid() && acct.policies == old(acct.policies)
    ensures user !in old(acct.keys) ==>
              res == KeyFailed("User '" + user + "' does not exist.") && acct.keys == old(acct.keys)
    ensures user in old(acct.keys) && CountActive(old(acct.keys)[user]) >= 2 ==>
              res == KeyFailed("User '" + user + "' already has 2 active access keys. Please delete or deactivate one first.") &&
              acct.keys == old(acct.keys)
    ensures user in old(acct.keys) && CountActive(old(acct.keys)[user]) < 2 && createCode == Some("NoSuchEntity") ==>
              res == KeyFailed("User '" + user + "' does not exist.") && acct.keys == old(acct.keys)
    ensures user in old(acct.keys) && CountActive(old(acct.keys)[user]) < 2 &&
            createCode.Some? && createCode.value != "NoSuchEntity" ==>
              res == KeyFailed(ServiceMessage(createCode.value, user)) && acct.keys == old(acct.keys)
    ensures user in old(acct.keys) && CountActive(old(acct.keys)[user]) < 2 && createCode.None? ==>
              res == KeyCreated(newId, newSecret) &&
              acct.keys == old(acct.keys)[user := old(acct.keys)[user] + [AccessKey(newId, newSecret, Active)]]
    ensures res.KeyCreated? ==> CountActive(acct.keys[user]) == CountActive(old(acct.keys)[user]) + 1 <= 2
    ensures old(acct.AtMostTwoActive()) ==> acct.AtMostTwoActive()
  {
    if user !in acct.keys {
      return KeyFailed("User '" + user + "' does not exist.");
    }
    var existing := acct.keys[user];
    if CountActive(existing) >= 2 {
      return KeyFailed("User '" + user + "' already has 2 active access keys. Please delete or deactivate one first.");
    }
    if createCode.Some? {
      if createCode.value == "NoSuchEntity" {
        return KeyFailed("User '" + user + "' does not exist.");
      }
      return KeyFailed(ServiceMessage(createCode.value, user));
    }
    var added := existing + [AccessKey(newId, newSecret, Active)];
    CountActiveAppend(existing, [AccessKey(newId, newSecret, Active)]);
    assert [AccessKey(newId, newSecret, Active)][..0] == [];
    AppendKeyDistinct(existing, AccessKey(newId, newSecret, Active));
    ReplaceKeyList(acct.keys, user, added);
    acct.keys := acct.keys[user := added];
    res := KeyCreated(newId, newSecret);
  }
}

=== FILE: objects.dfy ===
/** The object browser (routes/objects.py): uploads with the key built from
    the current prefix, an optional folder and the file name; the listing of
    one level of a bucket split into folders and files; downloads, deletes
    and the folder links. */
module ObjectRoutes {
  import opened Common
  import opened S3

  // =====================================================================
  // Request fields
  // =====================================================================

  /** The listing prefix: the query argument as given when it is
      non-empty, else the form field with surrounding whitespace removed.
      The operations below take the prefix this yields. */
  function RequestPrefix(arg: Option<string>, form: Option<string>): (p: string)
    ensures arg.Some? && arg.value != "" ==> p == arg.value
    ensures !(arg.Some? && arg.value != "") ==> p == [] || (p[0] !in Spaces && p[|p| - 1] !in Spaces)
  {
    if arg.Some? && arg.value != "" then arg.value
    else StripSpace(if form.Some? then form.value else "")
  }

  /** The upload folder: the form field stripped of whitespace, then of
      leading and trailing "/". */
  function FolderOf(field: Option<string>): (f: string)
    ensures f == [] || (f[0] != '/' && f[|f| - 1] != '/')
  {
    StripChar(StripSpace(if field.Some? then field.value else ""), '/')
  }

  // =====================================================================
  // The folder check
  // =====================================================================

  /** The character class `[\w\-\./]`, with `\w` read as ASCII. */
  predicate AllowedChar(c: char)
  {
    ('a' <= c <= 'z') || ('A' <= c <= 'Z') || ('0' <= c <= '9') ||
    c == '_' || c == '-' || c == '.' || c == '/'
  }

  predicate AllAllowed(s: string)
  {
    forall i :: 0 <= i < |s| ==> AllowedChar(s[i])
  }

  /** `re.match(r'^[\w\-\./]*$', folder)` as Python evaluates it: `$` also
      matches just before a final newline, so one trailing "\n" passes. */
  predicate FolderAllowedAsWritten(folder: string)
  {
    AllAllowed(folder) ||
    (folder != [] && folder[|folder| - 1] == '\n' && AllAllowed(folder[..|folder| - 1]))
  }

  /** The check as intended: every character is in the class. */
  predicate FolderAllowed(folder: string)
  {
    AllAllowed(folder)
  }

  /** The check as written lets the folder "a\n" through although "\n"
      is not in the class. */
  lemma NewlineFolderAccepted()
    ensures FolderAllowedAsWritten("a\n") && !FolderAllowed("a\n")
  {
    var f := "a\n";
    assert f[..1] == "a" && "a"[0] == 'a';
    assert AllAllowed(f[..1]);
    assert f[1] == '\n' && !AllowedChar(f[1]);
  }

  /** The check as written is looser than the intended one by exactly a
      final line break: everything the intended check accepts passes, and
      in a folder that passes the only character outside the class can be
      a last "\n". */
  lemma AsWrittenOnlyAddsFinalNewline(folder: string)
    ensures FolderAllowed(folder) ==> FolderAllowedAsWritten(folder)
    ensures FolderAllowedAsWritten(folder) ==>
              forall i :: 0 <= i < |folder| && !AllowedChar(folder[i]) ==>
                i == |folder| - 1 && folder[i] == '\n'
  {
  }

  /** The folder "a\n" is what the form value "a\n/" becomes: the final
      "/" shields the line break from whitespace stripping. */
  lemma NewlineFolderStripped()
    ensures FolderOf(Some("a\n/")) == "a\n"
  {
    NewlineValueHasNoOuterSpace();
    NewlineValueSlashStripped();
  }

  lemma NewlineValueHasNoOuterSpace()
    ensures StripSpace("a\n/") == "a\n/"
  {
    var s := "a\n/";
    assert s[0] == 'a' && s[2] == '/';
    assert 'a' !in Spaces && '/' !in Spaces;
    assert TrimLeft(s, Spaces) == s;
    assert TrimRight(s, Spaces) == s;
  }

  lemma NewlineValueSlashStripped()
    ensures StripChar("a\n/", '/') == "a\n"
  {
    NewlineValueKeepsLeft();
    NewlineValueDropsSlash();
  }

  lemma NewlineValueKeepsLeft()
    ensures TrimLeft("a\n/", {'/'}) == "a\n/"
  {
    var s := "a\n/";
    assert s[0] == 'a';
    TrimLeftStops(s, {'/'});
  }

  /** Nothing is trimmed when the first character is kept. */
  lemma TrimLeftStops(s: string, drop: set<char>)
    requires s != [] && s[0] !in drop
    ensures TrimLeft(s, drop) == s
  {
  }

  lemma NewlineValueDropsSlash()
    ensures TrimRight("a\n/", {'/'}) == "a\n"
  {
    var s := "a\n/";
    var t := "a\n";
    assert s[|s| - 1] == '/' && s[..|s| - 1] == t;
    assert TrimRight(s, {'/'}) == TrimRight(t, {'/'});
    assert t[|t| - 1] == '\n' && '\n' !in {'/'};
  }

  /** A folder the intended check accepts contains no whitespace, so no
      line break or space reaches an object key through it. */
  lemma AllowedFolderHasNoSpace(folder: string)
    requires FolderAllowed(folder)
    ensures forall i :: 0 <= i < |folder| ==> folder[i] !in Spaces
  {
    forall i | 0 <= i < |folder| ensures folder[i] !in Spaces {
      assert AllowedChar(folder[i]);
    }
  }

  // =====================================================================
  // Uploads
  // =====================================================================

  /** The parts of an upload key: the prefix without trailing "/" when the
      prefix is non-empty, the folder when non-empty, the file name. */
  function KeyParts(prefix: string, folder: string, filename: string): seq<string>
  {
    (if prefix != "" then [RStripChar(prefix, '/')] else []) +
    (if folder != "" then [folder] else []) +
    [filename]
  }

  /** The key an upload is stored under. */
  function UploadKey(prefix: string, folder: string, filename: string): string
  {
    Join(KeyParts(prefix, folder, filename), '/')
  }

  /** The upload key written out: each present part is followed by one "/",
      and the file name comes last. */
  lemma UploadKeyShape(prefix: string, folder: string, filename: string)
    ensures UploadKey(prefix, folder, filename) ==
            (if prefix != "" then RStripChar(prefix, '/') + "/" else "") +
            (if folder != "" then folder + "/" else "") +
            filename
  {
    var p := RStripChar(prefix, '/');
    if prefix != "" && folder != "" {
      var parts := [p, folder, filename];
      assert KeyParts(prefix, folder, filename) == parts;
      assert parts[..2] == [p, folder] && [p, folder][..1] == [p];
      assert Join([p, folder], '/') == p + ['/'] + folder;
      assert Join(parts, '/') == p + ['/'] + folder + ['/'] + filename;
    } else if prefix != "" {
      assert KeyParts(prefix, folder, filename) == [p, filename];
      assert [p, filename][..1] == [p];
      assert Join([p, filename], '/') == p + ['/'] + filename;
    } else if folder != "" {
      assert KeyParts(prefix, folder, filename) == [folder, filename];
      assert [folder, filename][..1] == [folder];
      assert Join([folder, filename], '/') == folder + ['/'] + filename;
      assert "" + (folder + "/") + filename == folder + ['/'] + filename;
    } else {
      assert KeyParts(prefix, folder, filename) == [filename];
    }
  }

  /** What an upload request reports. */
  datatype UploadResult =
    | UploadRejected(message: string)
    | Uploaded(key: string, message: string)
    | UploadFailed(message: string)

  /** The upload branch of `list_objects`, with the folder check as
      intended (`FolderAllowed`; the route as written also lets a folder
      with one final line break through). An empty file name and a folder
      with a character outside the class are refused with nothing written;
      otherwise the key is assembled part by part and the file is stored
      under it, replacing any object with that key. Only the object list of
      the target bucket changes. */
  method Upload(acct: S3Account, bucket: string, prefix: string, folderField: Option<string>,
                filename: string, size: nat)
    returns (result: UploadResult)
    requires acct.Valid()
    modifies acct
    ensures acct.Valid() && acct.names == old(acct.names)
    ensures filename == "" ==>
              result == UploadRejected("❌ File name is empty") && acct.buckets == old(acct.buckets)
    ensures filename != "" && FolderOf(folderField) != "" && !FolderAllowed(FolderOf(folderField)) ==>
              result == UploadRejected("❌ Folder name contains invalid characters") && acct.buckets == old(acct.buckets)
    ensures result.Uploaded? <==>
              filename != "" && (FolderOf(folderField) == "" || FolderAllowed(FolderOf(folderField))) &&
              bucket in old(acct.buckets)
    ensures result.UploadFailed? ==>
              result.message == "❌ Upload failed: " + ServiceMessage("NoSuchBucket", bucket) &&
              acct.buckets == old(acct.buckets)
    ensures result.Uploaded? ==>
              var key := UploadKey(prefix, FolderOf(folderField), filename);
              result == Uploaded(key, "✅ '" + filename + "' uploaded successfully to '" + key + "'") &&
              acct.buckets == old(acct.buckets)[bucket := old(acct.buckets)[bucket].(
                                objects := PutObject(old(acct.buckets)[bucket].objects, S3Object(key, size)))]
  {
    result := StoreUpload(acct, bucket, prefix, FolderOf(folderField), filename, size);
  }

  /** The upload once the folder field has been read. */
  method StoreUpload(acct: S3Account, bucket: string, prefix: string, folder: string,
                filename: string, size: nat)
    returns (result: UploadResult)
    requires acct.Valid()
    modifies acct
    ensures acct.Valid() && acct.names == old(acct.names)
    ensures filename == "" ==>
              result == UploadRejected("❌ File name is empty") && acct.buckets == old(acct.buckets)
    ensures filename != "" && folder != "" && !FolderAllowed(folder) ==>
              result == UploadRejected("❌ Folder name contains invalid characters") && acct.buckets == old(acct.buckets)
    ensures result.Uploaded? <==>
              filename != "" && (folder == "" || FolderAllowed(folder)) &&
              bucket in old(acct.buckets)
    ensures result.UploadFailed? ==>
              result.message == "❌ Upload failed: " + ServiceMessage("NoSuchBucket", bucket) &&
              acct.buckets == old(acct.buckets)
    ensures result.Uploaded? ==>
              var key := UploadKey(prefix, folder, filename);
              result == Uploaded(key, "✅ '" + filename + "' uploaded successfully to '" + key + "'") &&
              acct.buckets == old(acct.buckets)[bucket := old(acct.buckets)[bucket].(
                                objects := PutObject(old(acct.buckets)[bucket].objects, S3Object(key, size)))]
  {
    if filename == "" {
      return UploadRejected("❌ File name is empty");
    }
    if folder != "" && !FolderAllowed(folder) {
      return UploadRejected("❌ Folder name contains invalid characters");
    }
    var key := BuildKey(prefix, folder, filename);
    if bucket !in acct.buckets {
      return UploadFailed("❌ Upload failed: " + ServiceMessage("NoSuchBucket", bucket));
    }
    var b := acct.buckets[bucket];
    acct.buckets := acct.buckets[bucket := b.(objects := PutObject(b.objects, S3Object(key, size)))];
    result := Uploaded(key, "✅ '" + filename + "' uploaded successfully to '" + key + "'");
  }

  /** The key is assembled by appending its parts one by one and joining
      them with "/". */
  method BuildKey(prefix: string, folder: string, filename: string) returns (key: string)
    ensures key == UploadKey(prefix, folder, filename)
  {
    var parts: seq<string> := [];
    if prefix != "" {
      parts := parts + [RStripChar(prefix, '/')];
    }
    if folder != "" {
      parts := parts + [folder];
    }
    parts := parts + [filename];
    assert parts == KeyParts(prefix, folder, filename);
    key := Join(parts, '/');
  }

  // =====================================================================
  // Downloads and deletes
  // =====================================================================

  /** The name a download is saved as: the key's last "/"-segment. */
  function DownloadName(key: string): string
  {
    LastSegment(key, '/')
  }

  /** Whatever precedes the last separator does not affect the last
      segment. */
  lemma {:induction false} LastSegmentAfter(x: string, f: string, sep: char)
    ensures LastSegment(x + [sep] + f, sep) == LastSegment(f, sep)
    decreases |f|
  {
    var s := x + [sep] + f;
    if f == [] {
      assert s[|s| - 1] == sep;
    } else {
      var g := f[..|f| - 1];
      assert s[..|s| - 1] == x + [sep] + g;
      assert s[|s| - 1] == f[|f| - 1];
      if f[|f| - 1] != sep {
        LastSegmentAfter(x, g, sep);
      }
    }
  }

  /** A segment without the separator is its own last segment. */
  lemma LastSegmentOfSegment(f: string, sep: char)
    requires sep !in f
    ensures LastSegment(f, sep) == f
  {
    LastSegmentSuffix(f, sep);
  }

  /** A file uploaded under any prefix and folder downloads under its own
      name, when that name holds no "/". */
  lemma DownloadNameOfUpload(prefix: string, folder: string, filename: string)
    requires '/' !in filename
    ensures DownloadName(UploadKey(prefix, folder, filename)) == filename
  {
    UploadKeyShape(prefix, folder, filename);
    var head := (if prefix != "" then RStripChar(prefix, '/') + "/" else "") +
                (if folder != "" then folder + "/" else "");
    LastSegmentOfSegment(filename, '/');
    if head != "" {
      assert head == head[..|head| - 1] + ['/'];
      assert UploadKey(prefix, folder, filename) == head[..|head| - 1] + ['/'] + filename;
      LastSegmentAfter(head[..|head| - 1], filename, '/');
    } else {
      assert UploadKey(prefix, folder, filename) == filename;
    }
  }

  /** What a download request yields: the object under the name it is saved
      as, or the failure message. */
  function Download(acct: map<string, Bucket>, bucket: string, key: string): (r: Result<(string, S3Object)>)
    ensures r.Ok? <==> bucket in acct && exists o :: o in acct[bucket].objects && o.key == key
    ensures r.Ok? ==> r.value.0 == LastSegment(key, '/') && r.value.1 in acct[bucket].objects && r.value.1.key == key
  {
    if bucket !in acct then Err("Download failed: " + ServiceMessage("NoSuchBucket", bucket))
    else
      match FindObject(acct[bucket].objects, key)
      case Some(o) => Ok((DownloadName(key), o))
      case None => Err("Download failed: " + ServiceMessage("NoSuchKey", key))
  }

  /** The first object stored under `key`. */
  function FindObject(objects: seq<S3Object>, key: string): (r: Option<S3Object>)
    ensures r.Some? ==> r.value in objects && r.value.key == key
    ensures r.None? ==> forall o :: o in objects ==> o.key != key
  {
    if objects == [] then None
    else if objects[0].key == key then Some(objects[0])
    else
      assert forall o :: o in objects ==> o == objects[0] || o in objects[1..];
      FindObject(objects[1..], key)
  }

  /** `delete_object`: the key is removed from the bucket, and deleting a
      key that is not there succeeds as well. */
  method DeleteObject(acct: S3Account, bucket: string, key: string) returns (message: string)
    requires acct.Valid()
    modifies acct
    ensures acct.Valid() && acct.names == old(acct.names)
    ensures bucket !in old(acct.buckets) ==>
              message == "❌ Delete failed: " + ServiceMessage("NoSuchBucket", bucket) &&
              acct.buckets == old(acct.buckets)
    ensures bucket in old(acct.buckets) ==>
              message == "🗑️ " + key + " deleted successfully from '" + bucket + "'" &&
              acct.buckets == old(acct.buckets)[bucket := old(acct.buckets)[bucket].(
                                objects := WithoutKey(old(acct.buckets)[bucket].objects, ObjectKey, key))]
  {
    if bucket !in acct.buckets {
      return "❌ Delete failed: " + ServiceMessage("NoSuchBucket", bucket);
    }
    var b := acct.buckets[bucket];
    acct.buckets := acct.buckets[bucket := b.(objects := WithoutKey(b.objects, ObjectKey, key))];
    message := "🗑️ " + key + " deleted successfully from '" + bucket + "'";
  }

  // =====================================================================
  // Listing one level
  // =====================================================================

  /** The store's answer to a delimited listing: the common prefixes and the
      objects. */
  datatype Listing = Listing(commonPrefixes: seq<string>, contents: seq<S3Object>)

  /** `key[len(prefix):] if prefix else key`, with Python's slice clamping:
      a key shorter than the prefix leaves nothing. */
  function Rest(key: string, prefix: string): (r: string)
    ensures prefix == "" ==> r == key
    ensures prefix != "" && |prefix| <= |key| ==> r == key[|prefix|..]
    ensures |key| < |prefix| ==> r == ""
  {
    if prefix == "" then key
    else if |prefix| <= |key| then key[|prefix|..]
    else ""
  }

  /** An object is shown as a file of this level when its remainder is
      non-empty and has no "/". */
  predicate IsFile(key: string, prefix: string)
  {
    Rest(key, prefix) != "" && '/' !in Rest(key, prefix)
  }

  /** The objects shown as files, in listing order. */
  function FilesOf(contents: seq<S3Object>, prefix: string): (r: seq<S3Object>)
    ensures |r| <= |contents|
    ensures forall o :: o in r <==> o in contents && IsFile(o.key, prefix)
  {
    if contents == [] then []
    else
      var init := contents[..|contents| - 1];
      var last := contents[|contents| - 1];
      assert contents == init + [last];
      FilesOf(init, prefix) + (if IsFile(last.key, prefix) then [last] else [])
  }

  /** The folder name of a common prefix: its last segment once trailing
      "/" are removed. */
  function FolderName(commonPrefix: string): (name: string)
    ensures '/' !in name
  {
    LastSegment(RStripChar(commonPrefix, '/'), '/')
  }

  /** The set of non-empty folder names; each is a single path segment. */
  function FoldersOf(prefixes: seq<string>): (r: set<string>)
    ensures forall f :: f in r ==> f != "" && '/' !in f
  {
    set i | 0 <= i < |prefixes| && FolderName(prefixes[i]) != "" :: FolderName(prefixes[i])
  }

  /** One more common prefix adds its folder name, if it has one. */
  lemma FoldersOfSnoc(prefixes: seq<string>, i: nat)
    requires i < |prefixes|
    ensures FoldersOf(prefixes[..i + 1]) ==
            FoldersOf(prefixes[..i]) + (if FolderName(prefixes[i]) != "" then {FolderName(prefixes[i])} else {})
  {
    var a := prefixes[..i + 1];
    var b := prefixes[..i];
    forall f | f in FoldersOf(a)
      ensures f in FoldersOf(b) || (FolderName(prefixes[i]) != "" && f == FolderName(prefixes[i]))
    {
      var j :| 0 <= j < |a| && FolderName(a[j]) != "" && FolderName(a[j]) == f;
      if j < i { assert a[j] == b[j]; }
    }
    forall f | f in FoldersOf(b) ensures f in FoldersOf(a) {
      var j :| 0 <= j < |b| && FolderName(b[j]) != "" && FolderName(b[j]) == f;
      assert a[j] == b[j];
    }
    if FolderName(prefixes[i]) != "" {
      assert a[i] == prefixes[i];
    }
  }

  /** A sub-folder `name` of the current level, listed as the common prefix
      `prefix + name + "/"`, is shown as `name` when the prefix is empty or
      ends in "/". */
  lemma ChildFolderShown(prefix: string, name: string)
    requires prefix == "" || prefix[|prefix| - 1] == '/'
    requires name != "" && '/' !in name
    ensures FolderName(prefix + name + "/") == name
  {
    var p := prefix + name + "/";
    assert p[..|p| - 1] == prefix + name;
    assert (prefix + name)[|prefix + name| - 1] == name[|name| - 1];
    assert name[|name| - 1] in name;
    assert RStripChar(p, '/') == prefix + name;
    LastSegmentOfSegment(name, '/');
    if prefix == "" {
      assert prefix + name == name;
    } else {
      var x := prefix[..|prefix| - 1];
      assert prefix + name == x + ['/'] + name;
      LastSegmentAfter(x, name, '/');
    }
  }

  /** A file uploaded with no folder at a level whose prefix is empty or ends
      in exactly one "/" is listed among that level's files. */
  lemma UploadListedAsFile(prefix: string, filename: string, size: nat)
    requires prefix == "" || (|prefix| >= 1 && prefix[|prefix| - 1] == '/' &&
                              RStripChar(prefix, '/') == prefix[..|prefix| - 1])
    requires filename != "" && '/' !in filename
    ensures IsFile(UploadKey(prefix, "", filename), prefix)
  {
    UploadKeyShape(prefix, "", filename);
    var key := UploadKey(prefix, "", filename);
    if prefix != "" {
      assert key == prefix[..|prefix| - 1] + "/" + filename;
      assert prefix[..|prefix| - 1] + "/" == prefix;
      assert key[|prefix|..] == filename;
    }
  }

  /** The listing branch of `list_objects`: one pass over the common
      prefixes collecting folder names, one over the objects collecting
      files. A store error is reported and leaves both empty. */
  method ListObjects(prefix: string, response: Result<Listing>)
    returns (files: seq<S3Object>, folders: set<string>, message: Option<string>)
    ensures response.Err? ==>
              files == [] && folders == {} && message == Some("Error listing objects: " + response.message)
    ensures response.Ok? ==>
              files == FilesOf(response.value.contents, prefix) &&
              folders == FoldersOf(response.value.commonPrefixes) &&
              message.None?
  {
    files, folders, message := [], {}, None;
    if response.Err? {
      message := Some("Error listing objects: " + response.message);
      return;
    }
    var prefixes := response.value.commonPrefixes;
    for i := 0 to |prefixes|
      invariant folders == FoldersOf(prefixes[..i])
    {
      FoldersOfSnoc(prefixes, i);
      var name := FolderName(prefixes[i]);
      if name != "" {
        folders := folders + {name};
      }
    }
    assert prefixes[..|prefixes|] == prefixes;
    var contents := response.value.contents;
    for i := 0 to |contents|
      invariant files == FilesOf(contents[..i], prefix)
    {
      assert contents[..i + 1][..i] == contents[..i];
      var key := contents[i].key;
      var rest := if prefix != "" then (if |prefix| <= |key| then key[|prefix|..] else "") else key;
      if rest != "" && '/' !in rest {
        files := files + [contents[i]];
      }
    }
    assert contents[..|contents|] == contents;
  }

  // =====================================================================
  // Folder links
  // =====================================================================

  /** The prefix `view_folder` redirects to. */
  function ViewFolderPrefix(folder: string): (p: string)
    ensures p != [] && p[|p| - 1] == '/'
    ensures |p| >= 2 ==> p[|p| - 2] != '/' && p[0] != '/'
  {
    StripChar(folder, '/') + "/"
  }

  /** Following a folder link from a folder link's prefix lands on the same
      prefix. */
  lemma ViewFolderIdempotent(folder: string)
    ensures ViewFolderPrefix(ViewFolderPrefix(folder)) == ViewFolderPrefix(folder)
  {
    var s := StripChar(folder, '/');
    var p := s + "/";
    var left := TrimLeft(p, {'/'});
    if s == [] {
      assert p == "/";
      assert TrimLeft(p[1..], {'/'}) == [];
      assert left == [];
    } else {
      assert p[0] == s[0] != '/';
      assert left == p;
      assert p[..|p| - 1] == s;
      assert TrimRight(s, {'/'}) == s;
    }
  }
}

=== FILE: roles_db.dfy ===
/** The broker's persistent state: the `roles` table (one row per role ARN,
    which is UNIQUE) and the `users` table (one row per user ARN, also
    UNIQUE). The JSON-encoded columns are held as structured values. */
module RolesDb {
  import opened Common

  /** The `AWS` entry of a trust statement's `Principal`: one string, a
      list of strings, or anything else (absent, null, a number, an object),
      which names nobody. */
  datatype AwsPrincipal = Single(arn: string) | Many(arns: seq<string>) | NoArn

  datatype Statement = Statement(aws: AwsPrincipal)

  /** The stored `principal` column: the trust policy's statement list, or
      text that does not decode as JSON. */
  datatype TrustDoc = Malformed | Statements(stmts: seq<Statement>)

  /** One entry of a role's assumption history; times are clock seconds. */
  datatype HistoryEntry = HistoryEntry(user: string, timestamp: int, expiration: int)

  /** One row of the `roles` table. A NULL collection column reads as empty,
      so the model keeps every collection present. */
  datatype RoleRow = RoleRow(
    name: string,
    arn: string,
    createDate: string,
    maxDuration: int,
    principal: TrustDoc,
    permission: map<string, string>,
    assumedUsers: seq<string>,
    history: seq<HistoryEntry>)

  /** The UNIQUE constraint on `role_arn`. */
  predicate UniqueArns(rows: seq<RoleRow>)
  {
    forall i, j :: 0 <= i < j < |rows| ==> rows[i].arn != rows[j].arn
  }

  function ArnSet(rows: seq<RoleRow>): set<string>
  {
    set r | r in rows :: r.arn
  }

  lemma ArnSetAppend(a: seq<RoleRow>, b: seq<RoleRow>)
    ensures ArnSet(a + b) == ArnSet(a) + ArnSet(b)
  {
    forall x | x in ArnSet(a + b) ensures x in ArnSet(a) + ArnSet(b) {
      var r :| r in a + b && r.arn == x;
    }
  }

  /** Position of the row whose `role_arn` is `arn`, if any. */
  function IndexOf(rows: seq<RoleRow>, arn: string): (r: Option<nat>)
    ensures r.Some? ==> r.value < |rows| && rows[r.value].arn == arn
    ensures r.Some? ==> forall j :: 0 <= j < r.value ==> rows[j].arn != arn
    ensures r.None? <==> arn !in ArnSet(rows)
  {
    if rows == [] then None
    else if rows[0].arn == arn then Some(0)
    else
      match IndexOf(rows[1..], arn)
      case None =>
        assert ArnSet(rows) == {rows[0].arn} + ArnSet(rows[1..]) by {
          assert rows == [rows[0]] + rows[1..];
        }
        None
      case Some(k) => Some(k + 1)
  }

  /** `SELECT ... FROM roles WHERE role_arn = ?` */
  function FindRole(rows: seq<RoleRow>, arn: string): (r: Option<RoleRow>)
    ensures r.Some? <==> arn in ArnSet(rows)
    ensures r.Some? ==> r.value in rows && r.value.arn == arn
  {
    match IndexOf(rows, arn)
    case None => None
    case Some(i) => Some(rows[i])
  }

  /** With unique ARNs, the row found for an ARN is the one holding it. */
  lemma FindRoleUnique(rows: seq<RoleRow>, i: nat)
    requires UniqueArns(rows) && i < |rows|
    ensures FindRole(rows, rows[i].arn) == Some(rows[i])
  {
    var k := IndexOf(rows, rows[i].arn);
    assert k.Some?;
    assert k.value == i;
  }

  /** Rewriting the row found for an ARN, keeping the ARN, leaves it the
      row found for that ARN. */
  lemma FindAfterReplace(rows: seq<RoleRow>, arn: string, r: RoleRow)
    requires IndexOf(rows, arn).Some? && r.arn == arn
    ensures FindRole(rows[IndexOf(rows, arn).value := r], arn) == Some(r)
  {
    var i := IndexOf(rows, arn).value;
    var updated := rows[i := r];
    assert arn in ArnSet(updated) by { assert updated[i] in updated; }
  }

  /** One user's history entries, in list order
      (`[h for h in history if h.get("user") == user]`). */
  function OfUser(history: seq<HistoryEntry>, user: string): (r: seq<HistoryEntry>)
    ensures forall h :: h in r ==> h in history && h.user == user
  {
    if history == [] then []
    else
      var init := history[..|history| - 1];
      var last := history[|history| - 1];
      OfUser(init, user) + (if last.user == user then [last] else [])
  }

  lemma {:induction false} OfUserAppend(a: seq<HistoryEntry>, b: seq<HistoryEntry>, user: string)
    ensures OfUser(a + b, user) == OfUser(a, user) + OfUser(b, user)
  {
    if b != [] {
      var binit := b[..|b| - 1];
      assert (a + b)[..|a + b| - 1] == a + binit;
      OfUserAppend(a, binit, user);
    } else {
      assert a + b == a;
    }
  }

  /** The database file: the roles table in rowid order and the users table
      as a map from user ARN to user name. */
  class Database {
    var roles: seq<RoleRow>
    var users: map<string, string>

    ghost predicate Valid()
      reads this
    {
      UniqueArns(roles)
    }

    /** `init_db`: both tables exist and are empty. */
    constructor ()
      ensures Valid() && roles == [] && users == map[]
    {
      roles := [];
      users := map[];
    }
  }
}

=== FILE: s3.dfy ===
/** The object store as the console sees it (the S3 part of
    helpers/aws.py): its buckets with the configuration the console reads
    and writes, bucket creation with its pre-check and region branch, and
    the bucket summary list cached in the login session. */
module S3 {
  import opened Common

  // =====================================================================
  // Buckets
  // =====================================================================

  datatype Tag = Tag(key: string, value: string)

  /** The key a tag is stored under. */
  function TagKey(t: Tag): string
  {
    t.key
  }

  /** A JSON value as a request body carries it; numbers are integers. */
  datatype Json =
    | JString(s: string)
    | JNumber(n: int)
    | JBool(b: bool)
    | JNull
    | JArray(items: seq<Json>)
    | JObject(fields: map<string, Json>)

  /** Python truthiness of a decoded JSON value. */
  predicate JTruthy(j: Json)
  {
    match j
    case JString(s) => s != ""
    case JNumber(n) => n != 0
    case JBool(b) => b
    case JNull => false
    case JArray(items) => items != []
    case JObject(fields) => fields != map[]
  }

  /** The default retention of an object-lock configuration. */
  datatype LockRule = LockRule(mode: string, days: int)

  datatype S3Object = S3Object(key: string, size: nat)

  /** The key an object is stored under. */
  function ObjectKey(o: S3Object): string
  {
    o.key
  }

  /** One bucket: the location constraint it was created with, whether
      object lock was enabled at creation, its tag set (None when it has
      none), versioning status, lifecycle rules, default retention and
      objects. */
  datatype Bucket = Bucket(
    region: Option<string>,
    objectLock: bool,
    tags: Option<seq<Tag>>,
    versioning: Option<string>,
    lifecycle: Option<seq<Json>>,
    lockRule: Option<LockRule>,
    objects: seq<S3Object>)

  /** The account's buckets: names in listing order and each bucket's state. */
  class S3Account {
    var names: seq<string>
    var buckets: map<string, Bucket>

    ghost predicate Valid()
      reads this
    {
      Distinct(names) && (set n | n in names) == buckets.Keys
    }

    constructor ()
      ensures Valid() && names == [] && buckets == map[]
    {
      names := [];
      buckets := map[];
    }
  }

  /** Removing a name keeps the listing consistent. */
  lemma RemoveNameValid(names: seq<string>, buckets: map<string, Bucket>, name: string)
    requires Distinct(names) && (set n | n in names) == buckets.Keys && name in buckets
    ensures Distinct(RemoveFirst(names, name))
    ensures (set n | n in RemoveFirst(names, name)) == (buckets - {name}).Keys
  {
    RemoveFirstDistinct(names, name);
    RemoveFirstMembers(names, name);
  }

  /** Removing the one occurrence of `x` keeps every other element. */
  lemma RemoveFirstMembers<T>(s: seq<T>, x: T)
    requires Distinct(s)
    ensures forall n :: n in RemoveFirst(s, x) <==> n in s && n != x
  {
    var r := RemoveFirst(s, x);
    assert multiset(s)[x] <= 1 by {
      DistinctCount(s, x);
    }
    forall n ensures n in r <==> n in s && n != x {
      assert n in r <==> multiset(r)[n] > 0;
      assert n in s <==> multiset(s)[n] > 0;
    }
  }

  /** Removing an element keeps a sequence free of duplicates. */
  lemma RemoveFirstDistinct<T>(s: seq<T>, x: T)
    requires Distinct(s)
    ensures Distinct(RemoveFirst(s, x))
  {
    var r := RemoveFirst(s, x);
    forall i, j | 0 <= i < j < |r| ensures r[i] != r[j] {
      if r[i] == r[j] {
        DistinctCount(s, r[i]);
        TwiceCounted(r, i, j);
        assert false;
      }
    }
  }

  /** A duplicate-free sequence holds each of its elements once. */
  lemma {:induction false} DistinctCount<T>(s: seq<T>, x: T)
    requires Distinct(s)
    ensures multiset(s)[x] <= 1
  {
    if s != [] {
      var init := s[..|s| - 1];
      assert s == init + [s[|s| - 1]];
      assert Distinct(init);
      DistinctCount(init, x);
      if x == s[|s| - 1] {
        assert x !in init;
      }
    }
  }

  /** An element at two positions is counted at least twice. */
  lemma TwiceCounted<T>(s: seq<T>, i: nat, j: nat)
    requires i < j < |s| && s[i] == s[j]
    ensures multiset(s)[s[i]] >= 2
  {
    assert s == s[..j] + [s[j]] + s[j + 1..];
    assert s[i] in s[..j];
  }

  /** Storing an object: it replaces whatever was stored under its key. */
  function PutObject(objects: seq<S3Object>, obj: S3Object): seq<S3Object>
  {
    WithoutKey(objects, ObjectKey, obj.key) + [obj]
  }

  /** After storing, the object is the only one under its key, and the
      objects under other keys are kept. */
  lemma PutObjectMembers(objects: seq<S3Object>, obj: S3Object)
    ensures obj in PutObject(objects, obj)
    ensures forall o :: o in PutObject(objects, obj) && o.key == obj.key ==> o == obj
    ensures forall o :: o in PutObject(objects, obj) <==> o == obj || (o in objects && o.key != obj.key)
  {
    WithoutKeyMembers(objects, ObjectKey, obj.key);
  }

  // =====================================================================
  // Creating a bucket
  // =====================================================================

  /** The `create_bucket` call the console makes. */
  datatype CreateCall = CreateCall(bucket: string, locationConstraint: Option<string>, objectLock: bool)

  /** The region branch: the default regions send no location constraint,
      any other region is sent as one; the locking flag is passed through
      either way. */
  function CreateCallFor(name: string, region: Option<string>, locking: bool): (c: CreateCall)
    ensures c.bucket == name && c.objectLock == locking
    ensures c.locationConstraint.None? <==>
              region in {None, Some(""), Some("us-east-1"), Some("default")}
    ensures c.locationConstraint.Some? ==> region == c.locationConstraint
  {
    if region in {None, Some(""), Some("us-east-1"), Some("default")} then CreateCall(name, None, locking)
    else CreateCall(name, region, locking)
  }

  /** The `{success, message}` reply of bucket creation. */
  datatype BucketReply = BucketReply(success: bool, message: string)

  /** The versioning a new bucket starts with: the store turns versioning
      on for a bucket created with object lock, and leaves it unset
      otherwise. */
  function LockVersioning(locking: bool): (v: Option<string>)
    ensures v.Some? <==> locking
    ensures v.Some? ==> v.value == "Enabled"
  {
    if locking then Some("Enabled") else None
  }

  /** `create_bucket`. An existing bucket is reported without calling
      create. When it is absent the pre-check answers `headCode`: anything
      but "404" or "NoSuchBucket" fails the pre-check. Otherwise the call
      `CreateCallFor` builds is made. The service either refuses it with
      the error code `createCode`, which is reported and creates nothing,
      or answers `httpStatus`: only 200 succeeds and adds the bucket, with
      the lock suffix on the message when locking was asked for; a bucket
      created with locking starts versioned. */
  method CreateBucket(acct: S3Account, name: string, region: Option<string>, locking: bool,
                      headCode: string, createCode: Option<string>, httpStatus: int)
    returns (reply: BucketReply, call: Option<CreateCall>)
    requires acct.Valid()
    modifies acct
    ensures acct.Valid()
    ensures name in old(acct.buckets) ==>
              reply == BucketReply(false, "❌ Bucket '" + name + "' already exists.") && call.None?
    ensures name !in old(acct.buckets) && headCode != "404" && headCode != "NoSuchBucket" ==>
              reply == BucketReply(false, "❌ Pre-check failed: " + ServiceMessage(headCode, name)) && call.None?
    ensures name !in old(acct.buckets) && (headCode == "404" || headCode == "NoSuchBucket") ==>
              call == Some(CreateCallFor(name, region, locking)) &&
              reply.success == (createCode.None? && httpStatus == 200)
    ensures call.Some? && createCode.Some? ==>
              reply.message == "❌ " + ServiceMessage(createCode.value, name)
    ensures reply.success ==>
              reply.message == "✅ Bucket '" + name + "' created successfully!" +
                               (if locking then " Object Locking is enabled." else "")
    ensures !reply.success && call.Some? && createCode.None? ==>
              reply.message == "❌ Failed to create bucket '" + name + "' (HTTP " + IntText(httpStatus) + ")."
    ensures reply.success ==>
              acct.names == old(acct.names) + [name] &&
              acct.buckets == old(acct.buckets)[name := Bucket(call.value.locationConstraint, locking, None, LockVersioning(locking), None, None, [])]
    ensures !reply.success ==> acct.names == old(acct.names) && acct.buckets == old(acct.buckets)
  {
    if name in acct.buckets {
      return BucketReply(false, "❌ Bucket '" + name + "' already exists."), None;
    }
    if headCode != "404" && headCode != "NoSuchBucket" {
      return BucketReply(false, "❌ Pre-check failed: " + ServiceMessage(headCode, name)), None;
    }
    var c := CreateCallFor(name, region, locking);
    call := Some(c);
    if createCode.Some? {
      return BucketReply(false, "❌ " + ServiceMessage(createCode.value, name)), call;
    }
    if httpStatus == 200 {
      var msg := "✅ Bucket '" + name + "' created successfully!";
      if locking {
        msg := msg + " Object Locking is enabled.";
      }
      assert name !in acct.names;
      acct.names := acct.names + [name];
      acct.buckets := acct.buckets[name := Bucket(c.locationConstraint, locking, None, LockVersioning(locking), None, None, [])];
      reply := BucketReply(true, msg);
    } else {
      reply := BucketReply(false, "❌ Failed to create bucket '" + name + "' (HTTP " + IntText(httpStatus) + ").");
    }
  }

  // =====================================================================
  // The bucket summaries cached in the session
  // =====================================================================

  /** What `get_buckets_info` keeps of one bucket. */
  datatype BucketSummary = BucketSummary(
    name: string,
    sizeBytes: nat,
    region: Option<string>,
    tags: seq<Tag>,
    versioning: bool,
    lifecycle: seq<Json>)

  /** The total size of a bucket's objects over all listing pages. */
  function TotalSize(objects: seq<S3Object>): nat
  {
    if objects == [] then 0 else TotalSize(objects[..|objects| - 1]) + objects[|objects| - 1].size
  }

  /** The summary of one bucket; a missing tag set or lifecycle reads as
      empty and only "Enabled" versioning counts as on. */
  function Summary(name: string, b: Bucket): BucketSummary
  {
    BucketSummary(name, TotalSize(b.objects), b.region,
                  if b.tags.Some? then b.tags.value else [],
                  b.versioning == Some("Enabled"),
                  if b.lifecycle.Some? then b.lifecycle.value else [])
  }

  /** The login session's cached summary list. */
  class SessionCache {
    var bucketsInfo: Option<seq<BucketSummary>>

    constructor ()
      ensures bucketsInfo.None?
    {
      bucketsInfo := None;
    }
  }

  /** `get_buckets_info`: a non-empty cached list is returned as it is,
      without reading the account; otherwise one summary per bucket, in
      listing order, is computed and stored in the session. */
  method GetBucketsInfo(acct: S3Account, cache: SessionCache) returns (info: seq<BucketSummary>)
    requires acct.Valid()
    modifies cache
    ensures old(cache.bucketsInfo).Some? && old(cache.bucketsInfo).value != [] ==>
              info == old(cache.bucketsInfo).value && cache.bucketsInfo == old(cache.bucketsInfo)
    ensures !(old(cache.bucketsInfo).Some? && old(cache.bucketsInfo).value != []) ==>
              cache.bucketsInfo == Some(info) &&
              |info| == |acct.names| &&
              forall i :: 0 <= i < |info| ==> info[i] == Summary(acct.names[i], acct.buckets[acct.names[i]])
  {
    if cache.bucketsInfo.Some? && cache.bucketsInfo.value != [] {
      return cache.bucketsInfo.value;
    }
    info := [];
    for i := 0 to |acct.names|
      invariant |info| == i
      invariant forall j :: 0 <= j < i ==> info[j] == Summary(acct.names[j], acct.buckets[acct.names[j]])
    {
      var name := acct.names[i];
      assert name in acct.buckets;
      var size := SizeOf(acct.buckets[name].objects);
      var b := acct.buckets[name];
      info := info + [BucketSummary(name, size, b.region,
                                    if b.tags.Some? then b.tags.value else [],
                                    b.versioning == Some("Enabled"),
                                    if b.lifecycle.Some? then b.lifecycle.value else [])];
    }
    cache.bucketsInfo := Some(info);
  }

  /** The page loop adding up object sizes. */
  method SizeOf(objects: seq<S3Object>) returns (total: nat)
    ensures total == TotalSize(objects)
  {
    total := 0;
    for i := 0 to |objects|
      invariant total == TotalSize(objects[..i])
    {
      assert objects[..i + 1][..i] == objects[..i];
      total := total + objects[i].size;
    }
    assert objects[..|objects|] == objects;
  }
}

=== FILE: sts_permission.dfy ===
/** Synchronisation of the local role/user catalogue with the identity
    service, the administrator's view of it, and the administrator's
    approval switch (routes/manage_sts_permission.py). */
module StsPermission {
  import opened Common
  import opened RolesDb

  // =====================================================================
  // What the identity service lists
  // =====================================================================

  datatype UpstreamUser = UpstreamUser(name: string, arn: string)

  /** A listed role; `maxDuration` is None when the listing omits
      `MaxSessionDuration`. */
  datatype UpstreamRole = UpstreamRole(
    name: string,
    arn: string,
    createDate: string,
    maxDuration: Option<int>,
    statements: seq<Statement>)

  /** The outcome of draining both paginated listings: the user listing
      failed; the role listing failed after the users were listed; the
      role listing holds a trust document the extraction loop cannot read
      (a principal that is not an object, a statement list that is a single
      object, a principal list with an element that is not a string), so
      the loop raises before the role writes are committed; or both
      listings succeeded with readable trust documents. */
  datatype Directory =
    | UsersUnavailable
    | RolesUnavailable(users: seq<UpstreamUser>)
    | RolesUnreadable(users: seq<UpstreamUser>)
    | Listed(users: seq<UpstreamUser>, roles: seq<UpstreamRole>)

  /** `role.get("MaxSessionDuration", 3600)` */
  function MaxDuration(up: UpstreamRole): int
  {
    match up.maxDuration
    case Some(d) => d
    case None => 3600
  }

  // =====================================================================
  // Principal extraction
  // =====================================================================

  /** What one statement adds to the user list: a list principal is
      concatenated, a string principal appended, anything else ignored. */
  function Contribution(st: Statement): seq<string>
  {
    match st.aws
    case Many(arns) => arns
    case Single(arn) => [arn]
    case NoArn => []
  }

  /** The user list after the extraction loop, before root filtering. */
  function Extracted(stmts: seq<Statement>): seq<string>
  {
    if stmts == [] then []
    else Extracted(stmts[..|stmts| - 1]) + Contribution(stmts[|stmts| - 1])
  }

  /** The sync's root test: the ARN ends with ":root", ignoring case. */
  predicate IsRootPrincipal(u: string)
  {
    EndsWithFolded(u, ":root")
  }

  /** `[u for u in user_list if not u.lower().endswith(":root")]` */
  function NonRoot(us: seq<string>): seq<string>
  {
    if us == [] then []
    else NonRoot(us[..|us| - 1]) + (if IsRootPrincipal(us[|us| - 1]) then [] else [us[|us| - 1]])
  }

  /** The eligible users of a trust policy. */
  function Eligible(stmts: seq<Statement>): seq<string>
  {
    NonRoot(Extracted(stmts))
  }

  /** The extraction loop followed by the root filter. */
  method ExtractUserList(stmts: seq<Statement>) returns (userList: seq<string>)
    ensures userList == Eligible(stmts)
  {
    userList := [];
    var i := 0;
    while i < |stmts|
      invariant 0 <= i <= |stmts|
      invariant userList == Extracted(stmts[..i])
    {
      assert stmts[..i + 1][..i] == stmts[..i];
      userList := userList + Contribution(stmts[i]);
      i := i + 1;
    }
    assert stmts[..|stmts|] == stmts;
    userList := NonRoot(userList);
  }

  lemma {:induction false} NonRootMembers(us: seq<string>, u: string)
    ensures u in NonRoot(us) <==> u in us && !IsRootPrincipal(u)
  {
    if us != [] {
      NonRootMembers(us[..|us| - 1], u);
      assert us == us[..|us| - 1] + [us[|us| - 1]];
    }
  }

  lemma {:induction false} ExtractedMembers(stmts: seq<Statement>, u: string)
    ensures u in Extracted(stmts) <==> exists i :: 0 <= i < |stmts| && u in Contribution(stmts[i])
  {
    if stmts != [] {
      var init := stmts[..|stmts| - 1];
      ExtractedMembers(init, u);
      if u in Extracted(init) {
        var i :| 0 <= i < |init| && u in Contribution(init[i]);
        assert stmts[i] == init[i];
      }
      if exists i :: 0 <= i < |stmts| && u in Contribution(stmts[i]) {
        var i :| 0 <= i < |stmts| && u in Contribution(stmts[i]);
        if i < |init| {
          assert init[i] == stmts[i];
        }
      }
    }
  }

  /** A user is eligible exactly when some statement names it and it is not
      a root principal. */
  lemma EligibleMembers(stmts: seq<Statement>, u: string)
    ensures u in Eligible(stmts) <==>
              !IsRootPrincipal(u) && exists i :: 0 <= i < |stmts| && u in Contribution(stmts[i])
  {
    NonRootMembers(Extracted(stmts), u);
    ExtractedMembers(stmts, u);
  }

  // =====================================================================
  // Merging approval flags
  // =====================================================================

  /** `{**{u: "no" for u in user_list}, **prev_perm}` restricted to
      `user_list`. */
  function MergePermission(prev: map<string, string>, userList: seq<string>): (m: map<string, string>)
    ensures m.Keys == set u | u in userList
  {
    map u | u in userList :: if u in prev then prev[u] else "no"
  }

  /** A user already in the previous map keeps its flag; a new one gets "no". */
  lemma MergeKeepsOrDefaults(prev: map<string, string>, userList: seq<string>, u: string)
    requires u in userList
    ensures u in prev ==> MergePermission(prev, userList)[u] == prev[u]
    ensures u !in prev ==> MergePermission(prev, userList)[u] == "no"
  {
  }

  /** Merging again with the same user list changes nothing. */
  lemma MergeIdempotent(prev: map<string, string>, userList: seq<string>)
    ensures MergePermission(MergePermission(prev, userList), userList) == MergePermission(prev, userList)
  {
  }

  // =====================================================================
  // The role upsert and the whole sync, as functions of the old table
  // =====================================================================

  /** The row the upsert leaves for `up`: upstream fields and merged flags,
      with the previous row's assumed users and history (empty for a new
      row). */
  function RefreshedRow(prev: Option<RoleRow>, up: UpstreamRole, userList: seq<string>): RoleRow
  {
    match prev
    case Some(p) =>
      RoleRow(up.name, up.arn, up.createDate, MaxDuration(up), Statements(up.statements),
              MergePermission(p.permission, userList), p.assumedUsers, p.history)
    case None =>
      RoleRow(up.name, up.arn, up.createDate, MaxDuration(up), Statements(up.statements),
              MergePermission(map[], userList), [], [])
  }

  /** `INSERT ... ON CONFLICT(role_arn) DO UPDATE`: an existing row is
      rewritten in place, a new one is appended. */
  function UpsertRole(rows: seq<RoleRow>, up: UpstreamRole, userList: seq<string>): seq<RoleRow>
  {
    match IndexOf(rows, up.arn)
    case Some(i) => rows[i := RefreshedRow(Some(rows[i]), up, userList)]
    case None => rows + [RefreshedRow(None, up, userList)]
  }

  /** One iteration of the role loop: roles with no eligible user are skipped. */
  function SyncStep(rows: seq<RoleRow>, up: UpstreamRole): seq<RoleRow>
  {
    var userList := Eligible(up.statements);
    if userList == [] then rows else UpsertRole(rows, up, userList)
  }

  /** The table after the role loop over `ups`. */
  function SyncedRoles(rows: seq<RoleRow>, ups: seq<UpstreamRole>): seq<RoleRow>
  {
    if ups == [] then rows else SyncStep(SyncedRoles(rows, ups[..|ups| - 1]), ups[|ups| - 1])
  }

  /** `fetched_roles`: the listed roles that were upserted. */
  function FetchedArns(ups: seq<UpstreamRole>): set<string>
  {
    set up | up in ups && Eligible(up.statements) != [] :: up.arn
  }

  /** `DELETE FROM roles WHERE role_arn = ?` for every ARN in `gone`. */
  function Drop(rows: seq<RoleRow>, gone: set<string>): seq<RoleRow>
  {
    if rows == [] then []
    else Drop(rows[..|rows| - 1], gone) + (if rows[|rows| - 1].arn in gone then [] else [rows[|rows| - 1]])
  }

  /** The roles table after a successful sync: roles stored before the
      sync (`db_roles`) and not upserted by it are deleted. */
  function SyncedCatalog(rows: seq<RoleRow>, ups: seq<UpstreamRole>): seq<RoleRow>
  {
    Drop(SyncedRoles(rows, ups), ArnSet(rows) - FetchedArns(ups))
  }

  /** The users loop: insert-or-replace keyed by user ARN. */
  function UpsertUsers(users: map<string, string>, us: seq<UpstreamUser>): (r: map<string, string>)
    ensures r.Keys == users.Keys + set u | u in us :: u.arn
  {
    if us == [] then users
    else
      var init := us[..|us| - 1];
      var last := us[|us| - 1];
      assert us == init + [last];
      UpsertUsers(users, init)[last.arn := last.name]
  }

  // ---------------------------------------------------------------------
  // Facts about the table functions
  // ---------------------------------------------------------------------

  lemma UpsertArns(rows: seq<RoleRow>, up: UpstreamRole, userList: seq<string>)
    ensures ArnSet(UpsertRole(rows, up, userList)) == ArnSet(rows) + {up.arn}
    ensures UniqueArns(rows) ==> UniqueArns(UpsertRole(rows, up, userList))
  {
    var r := UpsertRole(rows, up, userList);
    match IndexOf(rows, up.arn)
    case Some(i) =>
      forall a | a in ArnSet(r) ensures a in ArnSet(rows) {
        var k :| 0 <= k < |r| && r[k].arn == a;
        assert rows[k].arn == a;
      }
      forall a | a in ArnSet(rows) ensures a in ArnSet(r) {
        var k :| 0 <= k < |rows| && rows[k].arn == a;
        assert r[k].arn == a;
      }
    case None =>
      assert r == rows + [RefreshedRow(None, up, userList)];
  }

  /** The role loop stores the ARNs it upserted on top of those already
      stored, and keeps them unique. */
  lemma SyncedRolesArns(rows: seq<RoleRow>, ups: seq<UpstreamRole>)
    ensures ArnSet(SyncedRoles(rows, ups)) == ArnSet(rows) + FetchedArns(ups)
    ensures UniqueArns(rows) ==> UniqueArns(SyncedRoles(rows, ups))
  {
    SyncedArnSet(rows, ups);
    if UniqueArns(rows) {
      SyncedUnique(rows, ups);
    }
  }

  lemma {:induction false} SyncedArnSet(rows: seq<RoleRow>, ups: seq<UpstreamRole>)
    ensures ArnSet(SyncedRoles(rows, ups)) == ArnSet(rows) + FetchedArns(ups)
  {
    if ups != [] {
      var init := ups[..|ups| - 1];
      var last := ups[|ups| - 1];
      var prev := SyncedRoles(rows, init);
      var extra := if Eligible(last.statements) != [] then {last.arn} else {};
      SyncedArnSet(rows, init);
      FetchedLast(ups);
      assert SyncedRoles(rows, ups) == SyncStep(prev, last);
      if Eligible(last.statements) != [] {
        UpsertArns(prev, last, Eligible(last.statements));
      }
      assert ArnSet(SyncStep(prev, last)) == ArnSet(prev) + extra;
    }
  }

  /** The last listed role adds its ARN to the fetched set exactly when
      it has an eligible user. */
  lemma FetchedLast(ups: seq<UpstreamRole>)
    requires ups != []
    ensures FetchedArns(ups) == FetchedArns(ups[..|ups| - 1]) +
              (if Eligible(ups[|ups| - 1].statements) != [] then {ups[|ups| - 1].arn} else {})
  {
    assert ups == ups[..|ups| - 1] + [ups[|ups| - 1]];
  }

  lemma {:induction false} SyncedUnique(rows: seq<RoleRow>, ups: seq<UpstreamRole>)
    requires UniqueArns(rows)
    ensures UniqueArns(SyncedRoles(rows, ups))
  {
    if ups != [] {
      var init := ups[..|ups| - 1];
      var last := ups[|ups| - 1];
      SyncedUnique(rows, init);
      var userList := Eligible(last.statements);
      if userList != [] {
        UpsertArns(SyncedRoles(rows, init), last, userList);
      }
    }
  }

  /** Deleting rows keeps the other ARNs and the rows' uniqueness, and
      adds no row. */
  lemma DropMembers(rows: seq<RoleRow>, gone: set<string>)
    ensures ArnSet(Drop(rows, gone)) == ArnSet(rows) - gone
    ensures UniqueArns(rows) ==> UniqueArns(Drop(rows, gone))
    ensures forall r :: r in Drop(rows, gone) ==> r in rows
  {
    DropArns(rows, gone);
    DropSubset(rows, gone);
    if UniqueArns(rows) {
      DropUnique(rows, gone);
    }
  }

  lemma {:induction false} DropArns(rows: seq<RoleRow>, gone: set<string>)
    ensures ArnSet(Drop(rows, gone)) == ArnSet(rows) - gone
  {
    if rows != [] {
      var init := rows[..|rows| - 1];
      var last := rows[|rows| - 1];
      DropArns(init, gone);
      assert rows == init + [last];
      ArnSetAppend(init, [last]);
      var kept := if last.arn in gone then [] else [last];
      ArnSetAppend(Drop(init, gone), kept);
      assert ArnSet([last]) == {last.arn};
      assert ArnSet(kept) == if last.arn in gone then {} else {last.arn};
    }
  }

  lemma {:induction false} DropSubset(rows: seq<RoleRow>, gone: set<string>)
    ensures forall r :: r in Drop(rows, gone) ==> r in rows
  {
    if rows != [] {
      var init := rows[..|rows| - 1];
      DropSubset(init, gone);
      assert rows == init + [rows[|rows| - 1]];
    }
  }

  lemma {:induction false} DropUnique(rows: seq<RoleRow>, gone: set<string>)
    requires UniqueArns(rows)
    ensures UniqueArns(Drop(rows, gone))
  {
    if rows != [] {
      var init := rows[..|rows| - 1];
      var last := rows[|rows| - 1];
      assert UniqueArns(init);
      DropUnique(init, gone);
      var d := Drop(init, gone);
      if last.arn !in gone {
        DropSubset(init, gone);
        forall x | x in d ensures x.arn != last.arn {
          var k :| 0 <= k < |init| && init[k] == x;
          assert rows[k] == x;
        }
        var e := d + [last];
        forall i, j | 0 <= i < j < |e| ensures e[i].arn != e[j].arn {
          if j == |d| {
            assert e[i] in d;
          }
        }
      }
    }
  }

  /** After a sync the stored role ARNs are exactly the listed roles that
      have at least one eligible user: vanished roles and roles left without
      eligible users are gone. */
  lemma SyncArnsExact(rows: seq<RoleRow>, ups: seq<UpstreamRole>)
    ensures ArnSet(SyncedCatalog(rows, ups)) == FetchedArns(ups)
    ensures UniqueArns(rows) ==> UniqueArns(SyncedCatalog(rows, ups))
  {
    SyncedRolesArns(rows, ups);
    DropMembers(SyncedRoles(rows, ups), ArnSet(rows) - FetchedArns(ups));
  }

  lemma {:induction false} DropNothing(rows: seq<RoleRow>, gone: set<string>)
    requires ArnSet(rows) !! gone
    ensures Drop(rows, gone) == rows
  {
    if rows != [] {
      var init := rows[..|rows| - 1];
      assert rows == init + [rows[|rows| - 1]];
      ArnSetAppend(init, [rows[|rows| - 1]]);
      assert ArnSet([rows[|rows| - 1]]) == {rows[|rows| - 1].arn};
      DropNothing(init, gone);
    }
  }

  lemma {:induction false} DropFind(rows: seq<RoleRow>, gone: set<string>, a: string)
    requires a !in gone
    ensures FindRole(Drop(rows, gone), a) == FindRole(rows, a)
  {
    if rows != [] {
      var init := rows[..|rows| - 1];
      var last := rows[|rows| - 1];
      DropFind(init, gone, a);
      DropMembers(init, gone);
      assert rows == init + [last];
      FindAppend(init, last, a);
      if last.arn in gone {
        assert Drop(rows, gone) == Drop(init, gone) + [];
        assert Drop(init, gone) + [] == Drop(init, gone);
      } else {
        FindAppend(Drop(init, gone), last, a);
      }
    }
  }

  lemma FindAppend(rows: seq<RoleRow>, last: RoleRow, a: string)
    ensures FindRole(rows + [last], a) ==
            if a in ArnSet(rows) then FindRole(rows, a)
            else if last.arn == a then Some(last) else None
  {
    var s := rows + [last];
    assert ArnSet(s) == ArnSet(rows) + {last.arn};
    if a in ArnSet(rows) {
      var i := IndexOf(rows, a).value;
      var k := IndexOf(s, a).value;
      assert s[i].arn == a;
      assert k <= i;
      assert rows[k].arn == a;
    } else if last.arn == a {
      var k := IndexOf(s, a).value;
      assert k == |rows|;
    }
  }

  /** Upserting one role changes only the row of that role. */
  lemma UpsertFind(rows: seq<RoleRow>, up: UpstreamRole, userList: seq<string>, a: string)
    ensures FindRole(UpsertRole(rows, up, userList), a) ==
            if a == up.arn then Some(RefreshedRow(FindRole(rows, a), up, userList))
            else FindRole(rows, a)
  {
    var r := UpsertRole(rows, up, userList);
    match IndexOf(rows, up.arn)
    case Some(i) =>
      UpsertArns(rows, up, userList);
      if a == up.arn {
        assert r[i].arn == a;
        var k := IndexOf(r, a).value;
        assert k == i;
      } else if a in ArnSet(rows) {
        var j := IndexOf(rows, a).value;
        var k := IndexOf(r, a).value;
        assert j != i && r[j].arn == a;
        assert k <= j;
        assert k != i && rows[k].arn == a;
      }
    case None =>
      FindAppend(rows, RefreshedRow(None, up, userList), a);
  }

  predicate DistinctArns(ups: seq<UpstreamRole>)
  {
    forall i, j :: 0 <= i < j < |ups| ==> ups[i].arn != ups[j].arn
  }

  lemma {:induction false} SyncedRolesUntouched(rows: seq<RoleRow>, ups: seq<UpstreamRole>, a: string)
    requires forall k :: 0 <= k < |ups| ==> ups[k].arn != a
    ensures FindRole(SyncedRoles(rows, ups), a) == FindRole(rows, a)
  {
    if ups != [] {
      var init := ups[..|ups| - 1];
      var last := ups[|ups| - 1];
      SyncedRolesUntouched(rows, init, a);
      if Eligible(last.statements) != [] {
        UpsertFind(SyncedRoles(rows, init), last, Eligible(last.statements), a);
      }
    }
  }

  lemma {:induction false} SyncedRolesRow(rows: seq<RoleRow>, ups: seq<UpstreamRole>, k: nat)
    requires DistinctArns(ups) && k < |ups| && Eligible(ups[k].statements) != []
    ensures FindRole(SyncedRoles(rows, ups), ups[k].arn) ==
            Some(RefreshedRow(FindRole(rows, ups[k].arn), ups[k], Eligible(ups[k].statements)))
  {
    var init := ups[..|ups| - 1];
    var last := ups[|ups| - 1];
    var a := ups[k].arn;
    if k == |ups| - 1 {
      SyncedRolesUntouched(rows, init, a);
      UpsertFind(SyncedRoles(rows, init), last, Eligible(last.statements), a);
    } else {
      assert init[k] == ups[k];
      SyncedRolesRow(rows, init, k);
      if Eligible(last.statements) != [] {
        UpsertFind(SyncedRoles(rows, init), last, Eligible(last.statements), a);
      }
    }
  }

  /** With the identity service's ARNs distinct, a synced role's row carries
      the listed name, date, duration and trust policy, flags merged from the
      previous row, and the previous row's assumed users and history
      untouched (empty for a role new to the table). */
  lemma SyncRowContents(rows: seq<RoleRow>, ups: seq<UpstreamRole>, k: nat)
    requires DistinctArns(ups) && k < |ups| && Eligible(ups[k].statements) != []
    ensures FindRole(SyncedCatalog(rows, ups), ups[k].arn) ==
            Some(RefreshedRow(FindRole(rows, ups[k].arn), ups[k], Eligible(ups[k].statements)))
  {
    assert ups[k].arn in FetchedArns(ups);
    DropFind(SyncedRoles(rows, ups), ArnSet(rows) - FetchedArns(ups), ups[k].arn);
    SyncedRolesRow(rows, ups, k);
  }

  /** The flags a sync stores for a role name exactly its eligible users. */
  lemma SyncedFlagsAreEligible(rows: seq<RoleRow>, ups: seq<UpstreamRole>, k: nat, u: string)
    requires DistinctArns(ups) && k < |ups| && Eligible(ups[k].statements) != []
    ensures FindRole(SyncedCatalog(rows, ups), ups[k].arn).Some?
    ensures u in FindRole(SyncedCatalog(rows, ups), ups[k].arn).value.permission <==>
            u in Eligible(ups[k].statements)
  {
    SyncRowContents(rows, ups, k);
  }

  lemma {:induction false} ResyncPrefixFixed(rows: seq<RoleRow>, ups: seq<UpstreamRole>, n: nat)
    requires DistinctArns(ups) && n <= |ups|
    ensures SyncedRoles(SyncedCatalog(rows, ups), ups[..n]) == SyncedCatalog(rows, ups)
  {
    var s := SyncedCatalog(rows, ups);
    if n > 0 {
      ResyncPrefixFixed(rows, ups, n - 1);
      assert ups[..n][..n - 1] == ups[..n - 1];
      var up := ups[n - 1];
      var userList := Eligible(up.statements);
      if userList != [] {
        SyncArnsExact(rows, ups);
        assert up.arn in FetchedArns(ups);
        SyncRowContents(rows, ups, n - 1);
        var i := IndexOf(s, up.arn).value;
        var prev := FindRole(rows, up.arn);
        var perm := if prev.Some? then prev.value.permission else map[];
        MergeIdempotent(perm, userList);
        assert RefreshedRow(Some(s[i]), up, userList) == s[i];
        assert s[i := s[i]] == s;
      }
    }
  }

  /** Running the sync again on an unchanged listing leaves the roles table
      exactly as it is: same rows, same order, same flags and history. */
  lemma SyncIdempotent(rows: seq<RoleRow>, ups: seq<UpstreamRole>)
    requires DistinctArns(ups)
    ensures SyncedCatalog(SyncedCatalog(rows, ups), ups) == SyncedCatalog(rows, ups)
  {
    var s := SyncedCatalog(rows, ups);
    ResyncPrefixFixed(rows, ups, |ups|);
    assert ups[..|ups|] == ups;
    SyncedRolesArns(s, ups);
    SyncArnsExact(rows, ups);
    DropNothing(SyncedRoles(s, ups), ArnSet(s) - FetchedArns(ups));
  }

  // =====================================================================
  // The sync as the source runs it
  // =====================================================================

  /** `list_roles_and_users`: users are committed before the roles are
      listed, so a failed role listing, or a role loop that raises on an
      unreadable trust document, leaves the users written and the roles
      table as it was; a successful one leaves the table of
      `SyncedCatalog`. The result says whether the sync completed. */
  method ListRolesAndUsers(db: Database, dir: Directory) returns (ok: bool)
    requires db.Valid()
    modifies db
    ensures db.Valid()
    ensures ok <==> dir.Listed?
    ensures db.users == if dir.UsersUnavailable? then old(db.users) else UpsertUsers(old(db.users), dir.users)
    ensures db.roles == if dir.Listed? then SyncedCatalog(old(db.roles), dir.roles) else old(db.roles)
  {
    if dir.UsersUnavailable? {
      return false;
    }
    WriteUsers(db, dir.users);
    if !dir.Listed? {
      return false;
    }
    var dbRoles := ArnSet(db.roles);
    var fetched := WriteRoles(db, dir.roles);
    DeleteRoles(db, dbRoles - fetched);
    return true;
  }

  /** The users loop of `list_roles_and_users`. */
  method WriteUsers(db: Database, users: seq<UpstreamUser>)
    modifies db
    ensures db.users == UpsertUsers(old(db.users), users) && db.roles == old(db.roles)
  {
    var i := 0;
    while i < |users|
      invariant 0 <= i <= |users|
      invariant db.users == UpsertUsers(old(db.users), users[..i])
      invariant db.roles == old(db.roles)
    {
      assert users[..i + 1][..i] == users[..i];
      db.users := db.users[users[i].arn := users[i].name];
      i := i + 1;
    }
    assert users[..|users|] == users;
  }

  /** The role loop of `list_roles_and_users`: upsert every role that has an
      eligible user; the result is `fetched_roles`. */
  method WriteRoles(db: Database, roles: seq<UpstreamRole>) returns (fetched: set<string>)
    requires db.Valid()
    modifies db
    ensures db.Valid() && db.users == old(db.users)
    ensures db.roles == SyncedRoles(old(db.roles), roles)
    ensures fetched == FetchedArns(roles)
  {
    fetched := {};
    var j := 0;
    while j < |roles|
      invariant 0 <= j <= |roles|
      invariant db.roles == SyncedRoles(old(db.roles), roles[..j])
      invariant fetched == FetchedArns(roles[..j])
      invariant db.Valid() && db.users == old(db.users)
    {
      var role := roles[j];
      SyncPrefix(old(db.roles), roles, j);
      var upserted := SyncRole(db, role);
      if upserted {
        fetched := fetched + {role.arn};
      }
      j := j + 1;
    }
    assert roles[..|roles|] == roles;
  }

  /** One pass of the role loop: the role is upserted exactly when it has
      an eligible user. */
  method SyncRole(db: Database, role: UpstreamRole) returns (upserted: bool)
    requires db.Valid()
    modifies db
    ensures db.Valid() && db.users == old(db.users)
    ensures db.roles == SyncStep(old(db.roles), role)
    ensures upserted <==> Eligible(role.statements) != []
  {
    var userList := ExtractUserList(role.statements);
    upserted := userList != [];
    if upserted {
      UpsertArns(db.roles, role, userList);
      db.roles := UpsertRole(db.roles, role, userList);
    }
  }

  /** The same step, stated on the prefixes the loop walks through. */
  lemma SyncPrefix(rows: seq<RoleRow>, ups: seq<UpstreamRole>, j: nat)
    requires j < |ups|
    ensures SyncedRoles(rows, ups[..j + 1]) == SyncStep(SyncedRoles(rows, ups[..j]), ups[j])
    ensures FetchedArns(ups[..j + 1]) ==
            FetchedArns(ups[..j]) + (if Eligible(ups[j].statements) != [] then {ups[j].arn} else {})
  {
    assert ups[..j + 1] == ups[..j] + [ups[j]];
    SyncSnoc(rows, ups[..j], ups[j]);
  }

  lemma SyncSnoc(rows: seq<RoleRow>, ups: seq<UpstreamRole>, up: UpstreamRole)
    ensures SyncedRoles(rows, ups + [up]) == SyncStep(SyncedRoles(rows, ups), up)
    ensures FetchedArns(ups + [up]) ==
            FetchedArns(ups) + (if Eligible(up.statements) != [] then {up.arn} else {})
  {
    assert (ups + [up])[..|ups|] == ups;
  }

  /** The deletion loop of `list_roles_and_users`. */
  method DeleteRoles(db: Database, toDelete: set<string>)
    requires db.Valid()
    modifies db
    ensures db.Valid() && db.users == old(db.users)
    ensures db.roles == Drop(old(db.roles), toDelete)
  {
    var pending := toDelete;
    ghost var deleted: set<string> := {};
    DropNothing(db.roles, {});
    while pending != {}
      invariant deleted !! pending && deleted + pending == toDelete
      invariant db.roles == Drop(old(db.roles), deleted)
      invariant db.Valid() && db.users == old(db.users)
      decreases pending
    {
      var r :| r in pending;
      DropTwice(old(db.roles), deleted, r);
      DropMembers(db.roles, {r});
      db.roles := Drop(db.roles, {r});
      deleted := deleted + {r};
      pending := pending - {r};
    }
  }

  lemma {:induction false} DropTwice(rows: seq<RoleRow>, gone: set<string>, r: string)
    ensures Drop(Drop(rows, gone), {r}) == Drop(rows, gone + {r})
  {
    if rows != [] {
      var init := rows[..|rows| - 1];
      var last := rows[|rows| - 1];
      DropTwice(init, gone, r);
      if last.arn in gone {
        assert Drop(rows, gone) == Drop(init, gone);
        assert Drop(rows, gone + {r}) == Drop(init, gone + {r});
      } else {
        var d := Drop(init, gone) + [last];
        assert Drop(rows, gone) == d;
        assert d[..|d| - 1] == Drop(init, gone);
        assert d[|d| - 1] == last;
      }
    }
  }

  /** The sync's gate: only a caller whose ARN ends with ":root", ignoring
      case, triggers it; a missing ARN reads as "". */
  predicate ShouldSync(callerArn: string)
  {
    callerArn != "" && IsRootPrincipal(callerArn)
  }

  /** `sync_roles_before_request`: the sync runs only for the root caller
      and its failures are swallowed. */
  method SyncBeforeRequest(db: Database, callerArn: string, dir: Directory)
    requires db.Valid()
    modifies db
    ensures db.Valid()
    ensures db.roles ==
            if ShouldSync(callerArn) && dir.Listed? then SyncedCatalog(old(db.roles), dir.roles)
            else old(db.roles)
    ensures db.users ==
            if ShouldSync(callerArn) && !dir.UsersUnavailable? then UpsertUsers(old(db.users), dir.users)
            else old(db.users)
  {
    if callerArn == "" {
      return;
    }
    if IsRootPrincipal(callerArn) {
      var _ := ListRolesAndUsers(db, dir);
    }
  }

  // =====================================================================
  // The administrator's view
  // =====================================================================

  /** One role as the permission page lists it. */
  datatype AdminRole = AdminRole(arn: string, name: string, users: set<string>, permission: map<string, string>)

  /** The entry for one row, if any of its flagged users is a known user. */
  function AdminEntry(row: RoleRow, valid: set<string>): (r: seq<AdminRole>)
    ensures r == [] <==> row.permission.Keys * valid == {}
    ensures forall e :: e in r ==>
              e.arn == row.arn && e.name == row.name &&
              e.users == row.permission.Keys * valid && e.users <= valid &&
              e.permission.Keys == e.users &&
              forall u :: u in e.users ==> e.permission[u] == row.permission[u]
  {
    var users := row.permission.Keys * valid;
    if users == {} then []
    else [AdminRole(row.arn, row.name, users, map u | u in users :: row.permission[u])]
  }

  /** The filters of `get_roles_and_users`, in table order. */
  function AdminView(rows: seq<RoleRow>, valid: set<string>): seq<AdminRole>
  {
    if rows == [] then []
    else AdminView(rows[..|rows| - 1], valid) + AdminEntry(rows[|rows| - 1], valid)
  }

  /** `get_roles_and_users`. */
  method GetRolesAndUsers(db: Database) returns (view: seq<AdminRole>)
    ensures view == AdminView(db.roles, db.users.Keys)
  {
    var valid := db.users.Keys;
    var rows := db.roles;
    view := [];
    var i := 0;
    while i < |rows|
      invariant 0 <= i <= |rows|
      invariant view == AdminView(rows[..i], valid)
    {
      AdminViewPrefix(rows, valid, i);
      var users := rows[i].permission.Keys * valid;
      if users != {} {
        view := view + [AdminRole(rows[i].arn, rows[i].name, users, map u | u in users :: rows[i].permission[u])];
      }
      i := i + 1;
    }
    assert rows[..|rows|] == rows;
  }

  /** One more row adds its entry, if any, to the view. */
  lemma AdminViewPrefix(rows: seq<RoleRow>, valid: set<string>, i: nat)
    requires i < |rows|
    ensures AdminView(rows[..i + 1], valid) == AdminView(rows[..i], valid) + AdminEntry(rows[i], valid)
  {
    assert rows[..i + 1][..i] == rows[..i];
  }

  /** The view lists, in table order, one entry per row that has a flagged
      known user, showing just those users and their stored flags. */
  lemma {:induction false} AdminViewMembers(rows: seq<RoleRow>, valid: set<string>, e: AdminRole)
    ensures e in AdminView(rows, valid) <==> exists r :: r in rows && e in AdminEntry(r, valid)
  {
    if rows != [] {
      var init := rows[..|rows| - 1];
      var last := rows[|rows| - 1];
      AdminViewMembers(init, valid, e);
      assert rows == init + [last];
      if exists r :: r in rows && e in AdminEntry(r, valid) {
        var r :| r in rows && e in AdminEntry(r, valid);
        if r != last {
          assert r in init;
        }
      }
    }
  }

  // =====================================================================
  // The approval switch
  // =====================================================================

  /** The row after `update_permission`: the flag is stored verbatim; when
      the value reads "yes" in any case, the user's first entry in the
      assumed-users list and all of its history entries are dropped. */
  function SetApproval(row: RoleRow, user: string, value: string): RoleRow
  {
    if Lower(value) == "yes" then
      row.(permission := row.permission[user := value],
           assumedUsers := RemoveFirst(row.assumedUsers, user),
           history := WithoutUser(row.history, user))
    else
      row.(permission := row.permission[user := value])
  }

  /** `[h for h in history if h.get("user") != user]` */
  function WithoutUser(history: seq<HistoryEntry>, user: string): (r: seq<HistoryEntry>)
    ensures forall h :: h in r <==> h in history && h.user != user
  {
    if history == [] then []
    else
      var init := history[..|history| - 1];
      var last := history[|history| - 1];
      assert history == init + [last];
      WithoutUser(init, user) + (if last.user == user then [] else [last])
  }

  /** Other users' history keeps its order when one user's entries go. */
  lemma {:induction false} WithoutUserKeepsOthers(history: seq<HistoryEntry>, user: string, other: string)
    requires other != user
    ensures OfUser(WithoutUser(history, user), other) == OfUser(history, other)
  {
    if history != [] {
      var init := history[..|history| - 1];
      var last := history[|history| - 1];
      var kept := if last.user == user then [] else [last];
      WithoutUserKeepsOthers(init, user, other);
      assert WithoutUser(history, user) == WithoutUser(init, user) + kept;
      OfUserAppend(WithoutUser(init, user), kept, other);
      assert [last][..0] == [];
      assert OfUser(kept, other) == OfUser([last], other);
    }
  }

  /** `update_permission_route`: 404 for an unknown role, with nothing
      written. A `value` that is missing or not a string (None here) makes
      `value.lower()` raise: the request ends in a 500 before the update is
      written. Otherwise the role's row becomes `SetApproval` of it. */
  method UpdatePermission(db: Database, roleArn: string, user: string, value: Option<string>) returns (status: int)
    requires db.Valid()
    modifies db
    ensures db.Valid() && db.users == old(db.users)
    ensures status == (if roleArn !in ArnSet(old(db.roles)) then 404 else if value.None? then 500 else 200)
    ensures status != 200 ==> db.roles == old(db.roles)
    ensures status == 200 ==>
              var i := IndexOf(old(db.roles), roleArn).value;
              db.roles == old(db.roles)[i := SetApproval(old(db.roles)[i], user, value.value)]
  {
    var found := IndexOf(db.roles, roleArn);
    if found.None? {
      return 404;
    }
    if value.None? {
      return 500;
    }
    var i := found.value;
    var row := db.roles[i];
    var permission := row.permission[user := value.value];
    var assumed := row.assumedUsers;
    var history := row.history;
    if Lower(value.value) == "yes" {
      if user in assumed {
        assumed := RemoveFirst(assumed, user);
      }
      history := WithoutUser(history, user);
    }
    db.roles := db.roles[i := row.(permission := permission, assumedUsers := assumed, history := history)];
    return 200;
  }
}

=== FILE: user_routes.dfy ===
/** The user-administration routes (routes/user_routes.py): the profile
    alert, the user list with active-key counts, enabling, disabling and
    deleting access keys, and creating a user with optional panel access. */
module UserRoutes {
  import opened Common
  import opened Iam

  // =====================================================================
  // Profile alert
  // =====================================================================

  /** Python truthiness of an optional string. */
  predicate Truthy(v: Option<string>)
  {
    v.Some? && v.value != ""
  }

  /** The profile page's alert flag: no field other than "type" is truthy. */
  predicate ShowAlert(info: Info)
  {
    forall k :: k in info && k != "type" ==> !Truthy(info[k])
  }

  /** A successful lookup always carries a non-empty creation date (`str`
      of a missing date is "None", and a date never renders empty), so the
      alert shows exactly for the two error codes mapped to a type, and for
      an unknown error with empty text. */
  lemma ShowAlertExactly(reply: GetUserReply)
    requires reply.UserRecord? ==> reply.createDate != Some("")
    ensures ShowAlert(GetUserType(reply)) <==>
              reply.ClientError? &&
              (reply.code == "MethodNotAllowed" || reply.code == "AccessDenied" || reply.text == "")
  {
    var info := GetUserType(reply);
    if reply.UserRecord? {
      assert "CreateDate" in info && Truthy(info["CreateDate"]);
    } else if reply.code != "MethodNotAllowed" && reply.code != "AccessDenied" && reply.text != "" {
      assert "error" in info && Truthy(info["error"]);
    }
  }

  // =====================================================================
  // User list
  // =====================================================================

  /** One row of the user list: the active-key count, or the error the key
      listing reported instead. */
  datatype EnrichedUser = EnrichedUser(userName: string, activeKeysCount: Option<nat>, activeKeysError: Option<string>)

  /** The row for one listed user; a user the service no longer knows gets
      the listing's "does not exist" message and no count. */
  function EnrichedRow(keys: map<string, seq<AccessKey>>, name: string): (e: EnrichedUser)
    ensures e.userName == name
    ensures e.activeKeysCount.Some? <==> name in keys
    ensures e.activeKeysCount.Some? ==> e.activeKeysCount.value == multiset(Statuses(keys[name]))[Active]
    ensures e.activeKeysCount.None? <==> e.activeKeysError.Some?
  {
    if name in keys then
      CountActiveIsMultiplicity(keys[name]);
      EnrichedUser(name, Some(CountActive(keys[name])), None)
    else
      EnrichedUser(name, None, Some("User '" + name + "' does not exist."))
  }

  /** The loop of `iam_users` over the listed user names. */
  method IamUsers(acct: IamAccount, listed: seq<string>) returns (rows: seq<EnrichedUser>)
    ensures |rows| == |listed|
    ensures forall i :: 0 <= i < |listed| ==> rows[i] == EnrichedRow(acct.keys, listed[i])
  {
    rows := [];
    for i := 0 to |listed|
      invariant |rows| == i
      invariant forall j :: 0 <= j < i ==> rows[j] == EnrichedRow(acct.keys, listed[j])
    {
      var name := listed[i];
      var row: EnrichedUser;
      if name in acct.keys {
        row := EnrichedUser(name, Some(CountActive(acct.keys[name])), None);
      } else {
        row := EnrichedUser(name, None, Some("User '" + name + "' does not exist."));
      }
      rows := rows + [row];
    }
  }

  // =====================================================================
  // Key status changes
  // =====================================================================

  /** The answer of `modify_key`: success, a refusal with the console's
      message, or an error reported by the identity service. */
  datatype KeyReply = Done | Refused(message: string) | ServiceError

  /** Position of `keyId` among the user's keys, if both exist. */
  function Locate(keys: map<string, seq<AccessKey>>, user: string, keyId: string): (r: Option<nat>)
    ensures r.Some? ==> user in keys && r.value < |keys[user]| && keys[user][r.value].id == keyId
    ensures r.None? ==> user !in keys || forall i :: 0 <= i < |keys[user]| ==> keys[user][i].id != keyId
  {
    if user in keys then KeyIndex(keys[user], keyId) else None
  }

  /** The user's keys with key `i` set to `status`. */
  function WithStatus(keys: map<string, seq<AccessKey>>, user: string, i: nat, status: KeyStatus): map<string, seq<AccessKey>>
    requires user in keys && i < |keys[user]|
  {
    keys[user := keys[user][i := keys[user][i].(status := status)]]
  }

  /** `modify_key`. "disable" deactivates the key without counting; "enable"
      is refused while the user has two or more active keys, counted over
      all keys including the target; "delete" removes the key; any other
      action is refused as invalid. An unknown user or key is the service's
      error, and nothing changes on any refusal or error. */
  method ModifyKey(acct: IamAccount, user: string, keyId: string, action: string) returns (reply: KeyReply)
    requires acct.Valid()
    modifies acct
    ensures acct.Valid() && acct.policies == old(acct.policies)
    ensures !reply.Done? ==> acct.keys == old(acct.keys)
    ensures action == "disable" ==>
              match Locate(old(acct.keys), user, keyId)
              case None => reply == ServiceError
              case Some(i) => reply == Done && acct.keys == WithStatus(old(acct.keys), user, i, Inactive)
    ensures action == "enable" && user !in old(acct.keys) ==> reply == ServiceError
    ensures action == "enable" && user in old(acct.keys) && CountActive(old(acct.keys)[user]) >= 2 ==>
              reply == Refused("Cannot enable key: user '" + user + "' already has 2 active keys.")
    ensures action == "enable" && user in old(acct.keys) && CountActive(old(acct.keys)[user]) < 2 ==>
              match Locate(old(acct.keys), user, keyId)
              case None => reply == ServiceError
              case Some(i) => reply == Done && acct.keys == WithStatus(old(acct.keys), user, i, Active)
    ensures action == "delete" ==>
              match Locate(old(acct.keys), user, keyId)
              case None => reply == ServiceError
              case Some(i) => reply == Done &&
                              acct.keys == old(acct.keys)[user := old(acct.keys)[user][..i] + old(acct.keys)[user][i + 1..]]
    ensures action != "disable" && action != "enable" && action != "delete" ==> reply == Refused("Invalid action")
    ensures old(acct.AtMostTwoActive()) ==> acct.AtMostTwoActive()
  {
    if action == "disable" {
      reply := SetKeyStatus(acct, user, keyId, Inactive);
    } else if action == "enable" {
      if user !in acct.keys {
        return ServiceError;
      }
      if CountActive(acct.keys[user]) >= 2 {
        return Refused("Cannot enable key: user '" + user + "' already has 2 active keys.");
      }
      reply := SetKeyStatus(acct, user, keyId, Active);
    } else if action == "delete" {
      reply := DeleteKey(acct, user, keyId);
    } else {
      reply := Refused("Invalid action");
    }
  }

  /** `update_access_key`: sets one key's status; an unknown user or key is
      the service's error. */
  method SetKeyStatus(acct: IamAccount, user: string, keyId: string, status: KeyStatus) returns (reply: KeyReply)
    requires acct.Valid()
    modifies acct
    ensures acct.Valid() && acct.policies == old(acct.policies)
    ensures match Locate(old(acct.keys), user, keyId)
            case None => reply == ServiceError && acct.keys == old(acct.keys)
            case Some(i) => reply == Done && acct.keys == WithStatus(old(acct.keys), user, i, status)
    ensures reply.Done? && old(acct.AtMostTwoActive()) && (status == Inactive || CountActive(old(acct.keys)[user]) < 2) ==>
              acct.AtMostTwoActive()
  {
    var found := Locate(acct.keys, user, keyId);
    if found.None? {
      return ServiceError;
    }
    var i := found.value;
    var keys := acct.keys[user];
    var updated := keys[i := keys[i].(status := status)];
    CountActiveUpdate(keys, i, keys[i].(status := status));
    assert DistinctIds(updated) by {
      assert forall p :: 0 <= p < |updated| ==> updated[p].id == keys[p].id;
    }
    ReplaceKeyList(acct.keys, user, updated);
    acct.keys := acct.keys[user := updated];
    reply := Done;
  }

  /** `delete_access_key`: removes one key; an unknown user or key is the
      service's error. */
  method DeleteKey(acct: IamAccount, user: string, keyId: string) returns (reply: KeyReply)
    requires acct.Valid()
    modifies acct
    ensures acct.Valid() && acct.policies == old(acct.policies)
    ensures match Locate(old(acct.keys), user, keyId)
            case None => reply == ServiceError && acct.keys == old(acct.keys)
            case Some(i) => reply == Done &&
                            acct.keys == old(acct.keys)[user := old(acct.keys)[user][..i] + old(acct.keys)[user][i + 1..]]
    ensures old(acct.AtMostTwoActive()) ==> acct.AtMostTwoActive()
  {
    var found := Locate(acct.keys, user, keyId);
    if found.None? {
      return ServiceError;
    }
    var i := found.value;
    var keys := acct.keys[user];
    var rest := keys[..i] + keys[i + 1..];
    CountActiveRemove(keys, i);
    RemoveKeyDistinct(keys, i);
    ReplaceKeyList(acct.keys, user, rest);
    acct.keys := acct.keys[user := rest];
    reply := Done;
  }

  /** Deleting a key keeps the remaining ids distinct. */
  lemma RemoveKeyDistinct(keys: seq<AccessKey>, i: nat)
    requires DistinctIds(keys) && i < |keys|
    ensures DistinctIds(keys[..i] + keys[i + 1..])
  {
    var rest := keys[..i] + keys[i + 1..];
    assert forall p :: 0 <= p < |rest| ==> rest[p] == keys[if p < i then p else p + 1];
  }

  // =====================================================================
  // Creating a user
  // =====================================================================

  /** The `{success, message}` reply of user creation. */
  datatype CreateReply = CreateReply(success: bool, message: string)

  /** `create_iam_user`: a new user starts with no keys and no policies;
      an existing name is the service's `EntityAlreadyExists` error.
      `createCode` is the error code the service answers for a new name it
      refuses for a reason outside the model (a name it does not accept,
      missing rights, a quota); the refusal is reported as
      "❌ code: message" and creates nothing. */
  method CreateIamUser(acct: IamAccount, name: string, createCode: Option<string>) returns (r: CreateReply)
    requires acct.Valid()
    modifies acct
    ensures acct.Valid()
    ensures r.success <==> name !in old(acct.keys) && createCode.None?
    ensures r.success ==>
              r.message == "✅ User '" + name + "' created successfully!" &&
              acct.keys == old(acct.keys)[name := []] && acct.policies == old(acct.policies)[name := map[]]
    ensures name in old(acct.keys) ==> r.message == "❌ " + ServiceMessage("EntityAlreadyExists", name)
    ensures name !in old(acct.keys) && createCode.Some? ==>
              r.message == "❌ " + ServiceMessage(createCode.value, name)
    ensures !r.success ==> acct.keys == old(acct.keys) && acct.policies == old(acct.policies)
  {
    if name in acct.keys {
      return CreateReply(false, "❌ " + ServiceMessage("EntityAlreadyExists", name));
    }
    if createCode.Some? {
      return CreateReply(false, "❌ " + ServiceMessage(createCode.value, name));
    }
    acct.keys := acct.keys[name := []];
    acct.policies := acct.policies[name := map[]];
    r := CreateReply(true, "✅ User '" + name + "' created successfully!");
  }

  /** The name of the panel-access policy of a user. */
  function PanelPolicyName(user: string): string
  {
    "AllowGetUserOnly-" + user
  }

  /** The panel-access policy: one Allow statement for `iam:GetUser` on the
      user's own ARN pattern. */
  function PanelPolicy(user: string): PolicyDocument
  {
    PolicyDocument("2012-10-17", [PolicyStatement("Allow", "iam:GetUser", "arn:aws:iam::*:user/" + user)])
  }

  /** Different users get differently named policies granting on different
      resources, so one user's policy never names another. */
  lemma PanelPolicyPerUser(u: string, v: string)
    requires u != v
    ensures PanelPolicyName(u) != PanelPolicyName(v)
    ensures PanelPolicy(u).statements[0].resource != PanelPolicy(v).statements[0].resource
  {
    var p := "AllowGetUserOnly-";
    assert PanelPolicyName(u)[|p|..] == u && PanelPolicyName(v)[|p|..] == v;
    var q := "arn:aws:iam::*:user/";
    assert (q + u)[|q|..] == u && (q + v)[|q|..] == v;
  }

  /** `attach_getuser_policy`: puts the panel policy on the user. `denied`
      is the service's refusal text when it refuses for a reason outside
      the model (missing rights, say); an unknown user is the service's
      `NoSuchEntity` error. */
  method AttachPanelPolicy(acct: IamAccount, user: string, denied: Option<string>) returns (ok: bool, error: string)
    requires acct.Valid()
    modifies acct
    ensures acct.Valid() && acct.keys == old(acct.keys)
    ensures ok <==> denied.None? && user in old(acct.keys)
    ensures ok ==> acct.policies == old(acct.policies)[user := old(acct.policies)[user][PanelPolicyName(user) := PanelPolicy(user)]]
    ensures !ok ==> acct.policies == old(acct.policies)
    ensures denied.Some? ==> error == denied.value
    ensures denied.None? && !ok ==> error == ServiceMessage("NoSuchEntity", user)
  {
    if denied.Some? {
      return false, denied.value;
    }
    if user !in acct.policies {
      return false, ServiceMessage("NoSuchEntity", user);
    }
    acct.policies := acct.policies[user := acct.policies[user][PanelPolicyName(user) := PanelPolicy(user)]];
    ok, error := true, "";
  }

  /** `create_user`: the panel policy is attached only when creation
      succeeded and the `enable_panel_access` field is exactly "true"; a
      failed attach only extends the message and the reply stays a success.
      A refused creation is answered with `create_iam_user`'s message and
      attaches nothing. */
  method CreateUser(acct: IamAccount, name: string, panelField: Option<string>,
                    createCode: Option<string>, denied: Option<string>)
    returns (r: CreateReply)
    requires acct.Valid()
    modifies acct
    ensures acct.Valid()
    ensures r.success <==> name !in old(acct.keys) && createCode.None?
    ensures name in old(acct.keys) ==> r.message == "❌ " + ServiceMessage("EntityAlreadyExists", name)
    ensures name !in old(acct.keys) && createCode.Some? ==>
              r.message == "❌ " + ServiceMessage(createCode.value, name)
    ensures !r.success ==> acct.keys == old(acct.keys) && acct.policies == old(acct.policies)
    ensures r.success ==> acct.keys == old(acct.keys)[name := []]
    ensures r.success && panelField == Some("true") && denied.None? ==>
              acct.policies == old(acct.policies)[name := map[PanelPolicyName(name) := PanelPolicy(name)]] &&
              r.message == "✅ User '" + name + "' created successfully!" + " with panel access enabled"
    ensures r.success && panelField == Some("true") && denied.Some? ==>
              acct.policies == old(acct.policies)[name := map[]] &&
              r.message == "✅ User '" + name + "' created successfully!" +
                           " But failed to attach panel access policy: " + denied.value
    ensures r.success && panelField != Some("true") ==>
              acct.policies == old(acct.policies)[name := map[]] &&
              r.message == "✅ User '" + name + "' created successfully!"
  {
    var enablePanel := panelField == Some("true");
    r := CreateIamUser(acct, name, createCode);
    if r.success && enablePanel {
      var ok, error := AttachPanelPolicy(acct, name, denied);
      if !ok {
        r := r.(message := r.message + " But failed to attach panel access policy: " + error);
      } else {
        r := r.(message := r.message + " with panel access enabled");
      }
    }
  }
}
